=== FILE: README.md ===
# CAN Stealth Bot Trap: a Dafny model

This project models the core of the WordPress plugin "CAN Stealth Bot Trap" and proves properties of the model. The plugin bans automated clients. It does so with a chain of `init` hooks:

- a quiz-answer handler;
- `check_ban`;
- a honeypot URL;
- a per-IP rate limit;
- a JavaScript-cookie check on REST calls;
- a country check that forces a quiz.

A ban is two things:

- a row in the `sbt_blocked_ips` table;
- a `sbt_ban_` transient.

A blocked client sees a block page. In quiz mode that page shows an arithmetic question, and a correct answer lifts the ban. Administrators can remove one IP, clear the log, or lift every active ban. They also see a summary that groups active bans by reason.

Layout, one module per file:

| module | what it holds |
|---|---|
| `Wrappers` | `Option` |
| `Text` | The PHP string functions the plugin uses: `empty()`, `strpos`, `explode`, `trim`, `strtolower`/`strtoupper`, and integer rendering. |
| `Transients` | WordPress transients as a map from key to value and optional timeout. |
| `Config` | The settings array and `get_settings`, plus the foreign functions the core calls, as a `Host` value. Also the request, `get_client_ip` and `is_whitelisted_bot`. |
| `Seqs` | The `WHERE` filter, a stable sort by a key in descending order, and sums. |
| `BanStore` | The store (ban log, fingerprint table, transient cache, clock). The core class's operations are functions on it. |
| `Core` | `SBT_Stealth_Bot_Trap` as a class whose fields are the store. Each method is proved equal to its `BanStore` function. |
| `Browser` | The three User-Agent classifiers of the detection layers. |
| `Layers` | Each `init` hook and `block()` as a function on the store. The hook list and its short-circuit, and the response the block template sends. |
| `LayerFacts` | What the pipeline guarantees: exemptions, blocking, counting, the grace flag and test mode. |
| `Detection` | `SBT_Detection_Layers` as a class over a `Core.BotTrap`. Each hook method is proved equal to its `Layers` function. `Init` runs the hooks in a loop. |
| `Admin` | `remove_ip`, `clear_logs`, `unblock_all` and the settings-page pagination. |
| `Dashboard` | The reason label, the grouped ban breakdown, its top three, and the next-cleanup text. |

## Modelling decisions

**Keys and time**
- A transient key is its kind plus the IP itself, not `md5` of the IP. `md5` collisions are not modelled.
- Every time is a number of seconds on one clock, and `current_time` is the store's `now`.
- A transient is live while `now <= timeout`. A zero TTL stores no timeout, as the options-table implementation of WordPress does.

**Inputs the model cannot compute**
- Foreign functions are fields of `Config.Host`, so every lemma holds for every host:
  - `filter_var(FILTER_VALIDATE_IP)`, `sanitize_title`, `sanitize_text_field`, `wp_verify_nonce`;
  - the `(int)` cast;
  - `wp_get_remote_address`;
  - the `wp_hash` of the current hour;
  - whether the block template exists.
- `rand()` is a `QuizRoll` parameter.
- The two geo providers' answers are `Oracle` parameters.

**State**
- State that the source updates in place is a class (`Core.BotTrap`, `Detection.DetectionLayers`, `Admin.AdminPage`).
- Each method's `ensures` ties the new state to a function of the old state. The properties are proved about those functions.

**Where the code differs from its description** (the model follows the code)
- The honeypot matches `"/" + sanitize_title(slug)` anywhere in the URI.
- The country lookup has no "unknown" fallback. When both providers fail, it returns nothing and caches nothing.
- The rate counter's 60-second lifetime restarts on every request. It is not a fixed window.
- `check_ban` looks for a `sbt_quiz_solved_` flag, but a correct answer sets `sbt_geo_quiz_passed_` instead. So the grace branch of `check_ban` never fires; `LayerFacts.GraceFlagNeverCreated` proves this.
- Test mode records no ban, but a layer that triggers still ends the request:
  - without the template, `wp_die` answers with status 500;
  - with the template, the block page sends the client home, because the client is not banned.
- A Client-IP header that is set but invalid gives `0.0.0.0`. The model does not fall back to X-Forwarded-For.
- The quiz answer ranges over 2..20 for `+` and 1..100 for `x`.
- The block page answers 429 exactly when the sanitised reason is `rate_limit`, and 403 otherwise.
- `clear_logs` lifts the flag of every IP with an active row, so it lifts active bans as well as clearing the log.

## Model

| member | source | states |
|---|---|---|
| `Config.GetSettings` | includes/class-stealth-bot-trap.php:111-148 | A stored option is returned unchanged, except that an unset `ip_whitelist` is filled in with the default list. Without a stored option the result is the defaults plus that list: 6 hours, 80/min, test mode off, every detection layer on, standard mode, slug "bot-trap", block page off, "brave,firefox", geo quiz off with no countries. |
| `Config.ClientIp` | includes/class-stealth-bot-trap.php:154-171 | The host's remote address when the host provides one. Otherwise a valid IP, or "0.0.0.0". |
| `Config.ClientIpSourceOrder` | includes/class-stealth-bot-trap.php:159-170 | Which source decides, case by case: Client-IP, then the trimmed first X-Forwarded-For entry, then REMOTE_ADDR. The first set source is kept only if it is valid. |
| `Config.IsWhitelistedBot` | includes/class-stealth-bot-trap.php:173-183 | The loop answers true exactly when some crawler token occurs in the lower-cased User-Agent. |
| `Config.CrawlerTokenAnywhereExempts` | includes/class-stealth-bot-trap.php:12-16 | A listed crawler token, in any letter case and anywhere in the User-Agent, exempts the request. |
| `Config.MissingUserAgentIsNoBot` | includes/class-stealth-bot-trap.php:174 | A request without a User-Agent is never taken for a crawler. |
| `Text.JoinSplit` | includes/class-detection-layers.php:424 | `explode` loses nothing: joining the pieces with the separator gives the input back. |
| `Text.SplitFirstIsPrefix` | includes/class-stealth-bot-trap.php:162-163 | The first `explode` piece is everything before the first separator. |
| `Text.Trim` | includes/class-detection-layers.php:408 | The result is the slice of the input that starts at the first non-trim character. Everything cut from either end is a trim character, and the result neither starts nor ends with one. |
| `Text.NatToStringRoundTrip` | includes/class-detection-layers.php:122 | The rendered count reads back as the same number. |
| `Seqs.SortDesc` | includes/class-admin-dashboard.php:202 | The result is sorted by the key, largest first, and is a permutation of the input. |
| `Seqs.SortDescStable` | includes/class-admin-dashboard.php:202 | The sort is stable: for every key, the elements with that key appear in the result in their input order. |
| `BanStore.NewQuiz` | includes/class-stealth-bot-trap.php:400-408 | The question splits at spaces into the two drawn operands' digits, the drawn operator ('+' or 'x'), "=" and "?". The answer lies in 1..100, and is at least 2 for '+'. |
| `BanStore.QuizAnswerMatchesQuestion` | includes/class-stealth-bot-trap.php:403-406 | Evaluating the question text gives the sum (for '+') or the product (for 'x') of the two drawn operands, and that is exactly the stored answer. |
| `BanStore.GetOrCreateQuiz` | includes/class-stealth-bot-trap.php:391-419 | A live stored quiz is returned with nothing changed. Otherwise a fresh quiz from the roll is stored for the IP; it reads back 300 s later and is gone one second after that. Only the IP's quiz entry changes. |
| `BanStore.GetOrCreateQuizStable` | includes/class-stealth-bot-trap.php:396-398 | A second call, with any draw, returns the same quiz and changes nothing. |
| `BanStore.Ban` | includes/class-stealth-bot-trap.php:185-225 | Fingerprints and clock are unchanged, and no other IP's ban changes. |
| `BanStore.BanEffect` | includes/class-stealth-bot-trap.php:189-213 | Nothing changes for a banned IP or in test mode. Otherwise one row `(ip, reason, now, now + ban_hours h)` is appended, and the IP is banned when ban_hours >= 0. |
| `BanStore.BanCache` | includes/class-stealth-bot-trap.php:213-224 | The ban flag, and in quiz mode a quiz, are all that a ban adds to the cache. The flag lives for exactly ban_hours hours, and for ever when that is 0. |
| `BanStore.BanIdempotent` | includes/class-stealth-bot-trap.php:189-191 | Banning twice is banning once. |
| `BanStore.Unban` | includes/class-stealth-bot-trap.php:490-505 | Afterwards the IP is not banned. Exactly its rows are gone and only its flag is touched. No other IP's ban changes. |
| `BanStore.UnbanUndoesBan` | includes/class-stealth-bot-trap.php:490-505 | Unbanning an IP that had nothing recorded restores the log and every cache entry except the quiz. |
| `BanStore.Sweep` | includes/class-stealth-bot-trap.php:70-88 | Keeps exactly the rows expiring at or after now, and the fingerprints seen within a day. No IP's ban status changes. |
| `BanStore.SweepIdempotent` | includes/class-stealth-bot-trap.php:70-88 | A second cleanup at the same time deletes nothing. |
| `BanStore.FindFingerprint` | includes/class-stealth-bot-trap.php:264-267 | Returns a row matching IP and fingerprint, or none when no row matches. |
| `BanStore.RecordFingerprint` | includes/class-stealth-bot-trap.php:248-279 | A matching row has its count raised by one and is seen now; every other row is unchanged. Without a match, one row `(ip, fingerprint, User-Agent or "unknown", 1, now)` is appended. The table counts one more request, uniqueness is kept, and bans are untouched. |
| `BanStore.RecordFingerprintRepeat` | includes/class-stealth-bot-trap.php:264-273 | Recording the same request again grows a count, not the table. |
| `BanStore.QuizSubmission` | includes/class-stealth-bot-trap.php:422-465 | It acts exactly on a signed answer to a stored quiz, and otherwise changes nothing. "Solved" means the answer equals the expected value. Either answer consumes the quiz. |
| `BanStore.CorrectAnswerUnbans` | includes/class-stealth-bot-trap.php:442-454 | A correct answer lifts this IP's ban only. It sets the geo-quiz pass, which lasts through now + ban_hours hours and is gone one second later, or lasts for ever when ban_hours is 0. |
| `BanStore.WrongAnswerKeepsBans` | includes/class-stealth-bot-trap.php:459-464 | A wrong answer deletes the IP's quiz entry and changes nothing else, so every ban stays. |
| `BanStore.ActiveByNewest` | includes/class-stealth-bot-trap.php:285-290 | Exactly the unexpired rows, newest ban first, as many as the total. |
| `BanStore.ActiveLogs` | includes/class-stealth-bot-trap.php:281-297 | One page: the rows of the newest-first list of unexpired bans from position `offset` on, at most `limit` of them. The page is full or holds the remainder, and is empty past the end. |
| `BanStore.ActiveLogsPagesJoin` | includes/class-stealth-bot-trap.php:281-297 | Consecutive pages join without gap or overlap. |
| `BanStore.TotalActiveLogs` | includes/class-stealth-bot-trap.php:299-310 | The count of unexpired rows, at most the table size. |
| `Core.BotTrap.IsBannedClient` | includes/class-stealth-bot-trap.php:227-246 | True exactly when the client's flag is live or it has an unexpired row. |
| `Core.BotTrap.GetOrCreateQuiz` | includes/class-stealth-bot-trap.php:391-419 | The object's new state and the quiz are `BanStore.GetOrCreateQuiz` of the old state. |
| `Core.BotTrap.BanIp` | includes/class-stealth-bot-trap.php:185-225 | The new state is `BanStore.Ban` of the old state. |
| `Core.BotTrap.UnbanIp` | includes/class-stealth-bot-trap.php:490-505 | The new state is `BanStore.Unban` of the old state. |
| `Core.BotTrap.UnblockCurrentIp` | includes/class-stealth-bot-trap.php:467-487 | The new state is `BanStore.Unban` of the old state for the client's IP. |
| `Core.BotTrap.RecordFingerprint` | includes/class-stealth-bot-trap.php:248-279 | The new state is `BanStore.RecordFingerprint` of the old state. |
| `Core.BotTrap.CleanupOldEntries` | includes/class-stealth-bot-trap.php:70-88 | The new state is `BanStore.Sweep` of the old state. |
| `Core.BotTrap.HandleQuizSubmission` | includes/class-stealth-bot-trap.php:422-465 | The new state and the result are `BanStore.QuizSubmission` of the old state. |
| `Browser.ChromeThreshold` | includes/class-detection-layers.php:366 | "Chrome/n" is outdated exactly when n < 120. |
| `Browser.MissingUserAgentNotOutdated` | includes/class-detection-layers.php:363-371 | A request without a User-Agent is never outdated. |
| `Browser.BraveVersion` | includes/class-detection-layers.php:385 | The captured Brave version is non-empty, holds no quote, and occurs in the hints as `"Brave";v="` + version + `"`. |
| `Browser.SafariVersion` | includes/class-detection-layers.php:399 | The captured Safari version is a non-empty run of digits and dots. The lower-cased User-Agent contains "version/" followed by it, and contains "safari". |
| `Browser.SafariNeedsSlash` | includes/class-detection-layers.php:399 | Without a '/', the Safari pattern never matches. |
| `Browser.BrowserDetails` | includes/class-detection-layers.php:373-409 | The text is trimmed at both ends and no longer than "name version". When name and version have no blank ends, it is exactly "name version". |
| `Browser.BraveHintFirst` | includes/class-detection-layers.php:383-388 | A Brave client hint outranks the User-Agent: the details start with "Brave". |
| `Browser.EdgeBeforeOthers` | includes/class-detection-layers.php:390-392 | An Edge token outranks Chrome, Firefox and Safari. |
| `Browser.MissingUserAgentDetails` | includes/class-detection-layers.php:375-408 | Without a User-Agent and a Brave hint the details are "Unknown N/A". |
| `Browser.MatchEntries` | includes/class-detection-layers.php:426-430 | The loop answers true exactly when some non-empty entry occurs in the User-Agent. |
| `Browser.IsWhitelistedBrowser` | includes/class-detection-layers.php:415-433 | The result is true exactly when some trimmed, non-empty list entry occurs in the lower-cased User-Agent. |
| `Browser.DefaultListAcceptsFirefox` | includes/class-detection-layers.php:421-428 | With the default list, a User-Agent naming Firefox in any case is whitelisted. |
| `Browser.BlankEntriesIgnored` | includes/class-detection-layers.php:427 | Entries that are blank after trimming never match. |
| `Layers.BlockWith` | includes/class-detection-layers.php:336-357 | `block()` ends the request with its reason. It only touches the IP's quiz entry. With the page shown in quiz mode, a quiz is stored. |
| `Layers.BanAndBlock` | includes/class-detection-layers.php:122-123 | Every layer that fires bans, then blocks. The request ends with the tag. Outside test mode an IP not yet banned gets the row `(ip, reason, now, now + ban_hours h)`, and the IP is left banned when ban_hours >= 0. In test mode, or for an IP already banned, the log is unchanged. |
| `Layers.Respond` | templates/blocked.php:17-38 | Pass exactly on continue, and a redirect to the URI exactly after an answer. `wp_die` exactly without the page, always with status 500. Home exactly when the page is shown to an unbanned client. A page answers 429 exactly when the sanitised reason is "rate_limit", and 403 otherwise. |
| `Layers.SubmissionStage` | includes/class-detection-layers.php:16 | The submission hook continues exactly when it leaves the store unchanged. |
| `Layers.NextCount` | includes/class-detection-layers.php:116-117 | One more than a stored non-zero count, else 1. |
| `Layers.CountryFromIp` | includes/class-detection-layers.php:221-252 | A cached country is returned with nothing changed. Otherwise the first provider that answers gives the country, which is cached for one day (readable at now + 86400 s, gone a second later). When neither answers, nothing is cached and no country is returned. Only the IP's geo entry may change. |
| `Layers.RunStagesAppend` | includes/class-detection-layers.php:15-25 | Running two hook lists in turn is running their concatenation. The second list is skipped once the request ends. |
| `LayerFacts.StagesByPriority` | includes/class-detection-layers.php:15-25 | The hooks run in strictly increasing priority 1, 5, 6, 7, 8, 9. |
| `LayerFacts.HandleRequestUnfold` | includes/class-detection-layers.php:15-25 | A request is the submission hook, then `check_ban`, then the four later layers. |
| `LayerFacts.HandleRequestUnanswered` | includes/class-stealth-bot-trap.php:422-437 | Without an answerable quiz submission the request goes straight to the detection layers. |
| `LayerFacts.AllContinue` | includes/class-detection-layers.php:15-25 | Hooks that each leave the store alone and continue let the whole list do the same. |
| `LayerFacts.ExemptStagesContinue` | includes/class-detection-layers.php:38-40 | For a logged-in user or a known crawler, every detection layer continues at once. |
| `LayerFacts.ExemptRequestOnlyAnswersQuiz` | includes/class-detection-layers.php:15-25 | For such a request only a quiz answer can act. Otherwise it passes with the store untouched. |
| `LayerFacts.BlockKeepsBans` | includes/class-detection-layers.php:336-357 | Blocking keeps every ban as it was. |
| `LayerFacts.BannedClientIsBlocked` | includes/class-detection-layers.php:38-66 | A banned client with no answer and no grace flag is blocked with "blocked", and stays banned. |
| `LayerFacts.GraceFlagConsumed` | includes/class-detection-layers.php:44-51 | A live grace flag lets the request pass `check_ban` and is deleted. |
| `LayerFacts.OutdatedBrowserBanned` | includes/class-detection-layers.php:55-61 | With the check on and test mode off, an outdated, unbanned browser gets one row naming the browser, and is blocked. |
| `LayerFacts.TrapSprung` | includes/class-detection-layers.php:68-85 | The trap blocks exactly when the URI contains "/" plus the sanitised slug, and bans outside test mode. Otherwise nothing changes. |
| `LayerFacts.RateLimitCounts` | includes/class-detection-layers.php:106-127 | The count is stored for 60 s. The layer blocks with "rate_limit" exactly above the limit. Outside test mode a block appends the row `(ip, "Rate limit exceeded (n/min)", now, now + ban_hours h)` for an IP not yet banned, and leaves the IP banned when ban_hours >= 0. A request it passes counts one more fingerprinted request. |
| `LayerFacts.RateCountFollows` | includes/class-detection-layers.php:116-119 | Within the window, a stored count n becomes n + 1. |
| `LayerFacts.JsCheckBlocks` | includes/class-detection-layers.php:141-168 | Whitelisted browsers pass. Otherwise the layer blocks exactly a `/wp-json/` call outside `/wp/v2/` without this hour's cookie. Outside test mode a block appends the row `(ip, "No valid JS verification (details)", now, now + ban_hours h)` for an IP not yet banned, and leaves the IP banned when ban_hours >= 0. |
| `LayerFacts.CoreRoutesPass` | includes/class-detection-layers.php:156 | A URI containing "/wp/v2/" is never blocked by the JS layer. |
| `LayerFacts.GeoLookupFailurePasses` | includes/class-detection-layers.php:204-208 | With nothing cached and both providers failing, the geo layer changes nothing. |
| `LayerFacts.GeoBlocksListedCountries` | includes/class-detection-layers.php:210-218 | Once the country is known, the layer blocks with "geo_quiz" exactly for a listed country. Otherwise it continues from the lookup's state. Outside test mode a block appends the row `(ip, "Geo-based quiz required (Country: c)", now, now + ban_hours h)`, and leaves the IP banned when ban_hours >= 0. |
| `LayerFacts.SolvedQuizSkipsGeo` | includes/class-detection-layers.php:190-195 | After a correct answer, the same client skips the geo layer at any time up to now + ban_hours hours. |
| `LayerFacts.StagesGraceFree` | includes/class-detection-layers.php:46 | No hook list creates a `sbt_quiz_solved_` entry. |
| `LayerFacts.GraceFlagNeverCreated` | includes/class-detection-layers.php:46-50 | From a store without the grace flag, no request creates one. |
| `LayerFacts.TestModeKeepsBans` | includes/class-stealth-bot-trap.php:193-196 | In test mode, short of a quiz answer, the log and every IP's ban status are unchanged. With the page shown, an unbanned client is passed or sent home. |
| `Detection.DetectionLayers.Block` | includes/class-detection-layers.php:336-357 | The new state and outcome are `Layers.BlockWith` of the old state. |
| `Detection.DetectionLayers.CheckBan` | includes/class-detection-layers.php:38-66 | The new state and outcome are `Layers.CheckBan` of the old state. |
| `Detection.DetectionLayers.TrapHiddenUrl` | includes/class-detection-layers.php:68-85 | The new state and outcome are `Layers.Trap` of the old state. |
| `Detection.DetectionLayers.RateLimit` | includes/class-detection-layers.php:106-127 | The new state and outcome are `Layers.RateLimit` of the old state. |
| `Detection.DetectionLayers.BlockWithoutJs` | includes/class-detection-layers.php:141-168 | The new state and outcome are `Layers.JsCheck` of the old state. |
| `Detection.DetectionLayers.GetCountryFromIp` | includes/class-detection-layers.php:221-252 | The new state and the country are `Layers.CountryFromIp` of the old state. |
| `Detection.DetectionLayers.GeoBasedQuizCheck` | includes/class-detection-layers.php:171-219 | The new state and outcome are `Layers.GeoCheck` of the old state. |
| `Detection.DetectionLayers.RunHook` | includes/class-detection-layers.php:15-25 | Running one registered hook is `Layers.RunStage`. |
| `Detection.DetectionLayers.Init` | includes/class-detection-layers.php:15-25 | Firing `init` runs the hooks in order until one ends the request, which is `Layers.HandleRequest` of the old state. |
| `Admin.Guard` | includes/class-admin.php:372-375 | The action proceeds exactly for a user who may manage options and sends a valid nonce. Otherwise it dies with "Unauthorized" or "Security check failed". |
| `Admin.RemoveIpEffect` | includes/class-admin.php:371-395 | It redirects exactly when the guard passes and the posted IP is non-empty and valid. The state is then `Unban` of that IP, which is no longer banned. The notice is then `unblocked=` followed by the IP. Otherwise nothing changes, and an authorised request dies with "Invalid IP address". |
| `Admin.ActiveIps` | includes/class-admin.php:406-412 | Each IP with an unexpired row, exactly once. |
| `Admin.ClearLogsEffect` | includes/class-admin.php:397-422 | It redirects exactly when the guard passes, with the notice `cleared=1`. The log is then empty. The cache loses exactly the ban flags of the IPs that had an active row, and every other entry keeps its value. Otherwise nothing changes. |
| `Admin.UnblockAllEffect` | includes/class-admin.php:424-455 | It redirects exactly when the guard passes, with the notice `unblocked_all=1`. Exactly the expired rows then remain. The cache loses exactly the ban flags of the IPs that had an active row, and every other entry keeps its value. Otherwise nothing changes. |
| `Admin.ClearLogsLiftsBans` | includes/class-admin.php:406-418 | Afterwards an IP is banned exactly when its flag was live and it had no unexpired row. |
| `Admin.UnblockAllLiftsBans` | includes/class-admin.php:433-451 | `unblock_all` lifts the same bans as `clear_logs`. |
| `Admin.BulkActionsEmptyActiveList` | includes/class-admin.php:445-451 | After either bulk action the count of active bans is 0. |
| `Admin.DropFlagsGet` | includes/class-admin.php:414-416 | After the flag loop, an IP's flag reads as absent exactly for the IPs deleted, and is unchanged for the rest. |
| `Admin.CurrentPage` | includes/class-admin.php:44 | At least 1. It is 1 without `paged`, and the requested page when that page is >= 1. |
| `Admin.TotalPages` | includes/class-admin.php:49 | The least number of 50-row pages that holds every row. |
| `Admin.PagesCoverRows` | includes/class-admin.php:43-49 | Every active row lies on exactly one linked page. |
| `Admin.PagesPastLastEmpty` | includes/class-admin.php:45-49 | A page past the last one shows no rows. |
| `Admin.AdminPage.RemoveIp` | includes/class-admin.php:371-395 | The new state and result are `Admin.RemoveIpEffect` of the old state. |
| `Admin.AdminPage.DeleteFlags` | includes/class-admin.php:414-416 | The loop deletes the flag of every listed IP and no other entry. |
| `Admin.AdminPage.ClearLogs` | includes/class-admin.php:397-422 | The new state and result are `Admin.ClearLogsEffect` of the old state. |
| `Admin.AdminPage.UnblockAll` | includes/class-admin.php:424-455 | The new state and result are `Admin.UnblockAllEffect` of the old state. |
| `Dashboard.ReasonLabelFacts` | includes/class-admin-dashboard.php:159-173 | The label is one of the six, and a "Rate limit" reason is always labelled so. "Other" is exactly the reasons with none of the five keywords. |
| `Dashboard.RateReasonLabelled` | includes/class-detection-layers.php:122 | Rate-limit bans are counted as "Rate limit". |
| `Dashboard.TrapReasonLabelled` | includes/class-detection-layers.php:82 | Honeypot bans are never "Other". |
| `Dashboard.JsReasonLabelled` | includes/class-detection-layers.php:163 | JS-check bans are never "Other", whatever the browser details. |
| `Dashboard.OutdatedReasonLabelled` | includes/class-detection-layers.php:59 | Outdated-browser bans are never "Other", whatever the browser details. |
| `Dashboard.GeoReasonLabelled` | includes/class-detection-layers.php:216 | Geo bans are never "Other". |
| `Dashboard.FindLabel` | includes/class-admin-dashboard.php:195 | It finds the entry with the label, or none exactly when the label is absent. |
| `Dashboard.Accumulate` | includes/class-admin-dashboard.php:195-198 | One loop pass keeps labels unique and adds the row's count to the total. The labels afterwards are the old ones plus this one. |
| `Dashboard.GroupedTotals` | includes/class-admin-dashboard.php:192-199 | The grouped counts add up to the rows' counts. A label is grouped exactly when some row carries it. |
| `Dashboard.AccumulateCount` | includes/class-admin-dashboard.php:195-198 | One loop pass adds the row's count to its own label's entry (0 when the label was not set) and leaves every other label's count as it was. |
| `Dashboard.GroupedCount` | includes/class-admin-dashboard.php:192-199 | After the loop, the count held for any label is the sum of the counts of the rows with that label, and 0 for a label no row carries. |
| `Dashboard.GroupedCounts` | includes/class-admin-dashboard.php:192-199 | Each grouped entry's count is the sum of the counts of the rows with its label. |
| `Dashboard.GroupByLabel` | includes/class-admin-dashboard.php:192-199 | The accumulation loop computes `Dashboard.Grouped` of the labelled rows. |
| `Dashboard.FormatEntries` | includes/class-admin-dashboard.php:204-207 | The formatting loop gives one "label count" string per entry, in order. |
| `Dashboard.BanBreakdownGrouped` | includes/class-admin-dashboard.php:178-210 | The method's result is the breakdown of the rows: grouped, sorted, formatted. |
| `Dashboard.BreakdownEntries` | includes/class-admin-dashboard.php:192-209 | One "label count" per group. The groups are ordered by count, largest first. Each group's count is the sum of the counts of the rows whose reason carries its label, and together they sum to the total of the rows. |
| `Dashboard.BreakdownCategories` | includes/class-admin-dashboard.php:193-199 | A label has an entry exactly when some row's reason maps to it. |
| `Dashboard.BreakdownLabels` | includes/class-admin-dashboard.php:194 | Every entry is one of the six labels. |
| `Dashboard.BreakdownUniqueLabels` | includes/class-admin-dashboard.php:195-202 | No label appears twice in the breakdown. |
| `Dashboard.TopThree` | includes/class-admin-dashboard.php:67 | A prefix of at most three entries, and all of them when there are fewer. |
| `Dashboard.TopThreeLargest` | includes/class-admin-dashboard.php:67 | No entry left out of the summary outnumbers one shown. |
| `Dashboard.Ceil` | includes/class-admin-dashboard.php:29 | `ceil` returns a float holding the least whole multiple count. |
| `Dashboard.ScheduleBounds` | includes/class-admin-dashboard.php:28-33 | The minute branch prints 1..60, and the hour branch at least 1. |
| `Dashboard.AlwaysPlural` | includes/class-admin-dashboard.php:30 | As written, a float count always gets the plural "s". |
| `Dashboard.OneMinuteReadsPlural` | includes/class-admin-dashboard.php:28-30 | As written, a cleanup 60 s away reads "in 1 minutes". |
| `Dashboard.IntendedPluralisation` | includes/class-admin-dashboard.php:30-33 | With the intended test, the unit is singular exactly for 1. Otherwise the text equals the code's. |
| `Dashboard.OneMinuteReadsSingular` | includes/class-admin-dashboard.php:28-30 | With the intended test, 60 s away reads "in 1 minute". |

## Left out

- HTTP geo providers (`query_ipapi_co`, `query_ip2location`): network calls, so their answers are the `Oracle` fields `primary` and `secondary`.
- Nonces, IP validation, sanitisation, the `(int)` cast, the hour token of `wp_hash`, and the template file check: foreign code, so they are functions in `Config.Host`.
- The `md5` of the request fingerprint: the model keeps the unhashed string `ip + method + uri + extra`, because the core only ever compares fingerprints for equality.
- Table creation (`create_tables`, `dbDelta`), activation, deactivation and cron scheduling: they only set up the storage and the schedule the model assumes.
- `cleanup_rate_limit_transients` and `preview_block_page`: database maintenance through raw SQL on the options table, and an admin preview.
- `inject_js_cookie`, `inject_honeypot_link`, `render`, `render_notices`, `render_logs_table` and the HTML of the block page: output only. The model keeps what the block page decides: the redirect home and the status code.
- The rest of `get_summary` (feature icons, `number_format`, `get_bans_last_24h`, `get_unique_bans_last_24h`) and `get_last_24h_percentage`: text assembly and counting queries that the breakdown already exemplifies.
- The block template's own `get_or_create_quiz` call and its reading of `block_mode` from the raw option: `block()` has already stored the quiz it would fetch.
- Concurrency between requests: each request runs alone against the store.
- The IP whitelist setting: the core never reads it, and the model keeps only the default text.
- Settings arrays that lack some keys: a stored option is modelled as a complete `Settings` value.
- `in_array` loose comparison on the country list: country codes are letters, so PHP's `==` never compares them as numbers, and the model compares them as strings.
- PHP's 64-bit integer cap and float arithmetic beyond `ceil` of a non-negative quotient.
- Timezones and the DATETIME text format: all times are seconds on one clock.
- Truncation of the `user_agent` column, and the branch of `record_fingerprint` that creates missing tables and returns.
- A re-set transient that WordPress keeps with its old timeout: the model always stores the new timeout.
- `md5` collisions between transient keys of different IPs.
- The row order of `SELECT DISTINCT ip`: only the set of IPs it returns matters to the flag loop.
- `urlencode` of the IP in the `remove_ip` notice: the model's notice carries the IP as posted. The two differ only where `urlencode` escapes a character, such as the ':' of an IPv6 address.
- `Layers.RunStages`, `Layers.HandleRequest` and the layer functions carry no `ensures` of their own. Their properties are the `LayerFacts` lemmas, and the `Detection` methods are proved equal to them.

## Findings

| source | as written | input that shows it | evidently intended | confidence | as-written member | corrected member |
|---|---|---|---|---|---|---|
| includes/class-admin-dashboard.php:29-33 | `ceil` returns a float, so `$minutes !== 1` and `$hours !== 1` are always true and the unit is always plural | a cleanup due 60 seconds from now gives "in 1 minutes" | "in 1 minute" and "in 1 hour" for a count of one | not executed | `Dashboard.OneMinuteReadsPlural` | `Dashboard.OneMinuteReadsSingular` |

=== FILE: admin.dfy ===
/**
 * The administrator's actions of `SBT_Admin`: removing one IP, clearing the
 * log, lifting every active ban, and paging through the active-ban listing.
 * Each action first checks the capability and its nonce and dies on failure.
 */
module Admin {
  import opened Wrappers
  import opened Text
  import opened Transients
  import opened Config
  import opened Seqs
  import opened BanStore
  import opened Core

  /** The parts of an `admin-post.php` request the actions read. */
  datatype AdminRequest = AdminRequest(
    canManage: bool,            // current_user_can('manage_options')
    nonce: Option<string>,      // $_POST['_wpnonce']
    ipField: Option<string>)    // $_POST['ip']

  /** `wp_die($message)`, or the redirect back to the settings page with its notice query parameter. */
  datatype AdminResult = Died(message: string) | Redirected(notice: string)

  datatype AdminStep = AdminStep(state: State, result: AdminResult)

  const RemoveIpNonce: string := "sbt_remove_ip_nonce"
  const ClearLogsNonce: string := "sbt_clear_logs_nonce"
  const UnblockAllNonce: string := "sbt_unblock_all_nonce"

  /** The capability check, then the nonce check: the message of the `wp_die` that stops the action, if any. */
  function Guard(host: Host, a: AdminRequest, action: string): (stop: Option<string>)
    ensures stop.None? <==> a.canManage && a.nonce.Some? && host.verifyNonce(a.nonce.value, action)
    ensures !a.canManage ==> stop == Some("Unauthorized")
    ensures a.canManage && stop.Some? ==> stop == Some("Security check failed")
  {
    if !a.canManage then Some("Unauthorized")
    else if a.nonce.None? || !host.verifyNonce(a.nonce.value, action) then Some("Security check failed")
    else None
  }

  /* ---------------- remove_ip ---------------- */

  /** The IP the form posts, sanitised; "" when the field is missing. */
  function PostedIp(host: Host, a: AdminRequest): string {
    if a.ipField.Some? then host.sanitizeText(a.ipField.value) else ""
  }

  /**
   * `remove_ip`: for an authorised request naming a valid IP, delete that IP's
   * log rows and its ban flag, exactly what `unban_ip` does.
   */
  function RemoveIpEffect(s: State, host: Host, a: AdminRequest): (r: AdminStep)
    ensures r.result.Died? ==> r.state == s
    ensures r.result.Redirected? <==>
      Guard(host, a, RemoveIpNonce).None? && Truthy(PostedIp(host, a)) && host.validIp(PostedIp(host, a))
    ensures r.result.Redirected? ==> r.state == Unban(s, PostedIp(host, a)) && !IsBanned(r.state, PostedIp(host, a))
    ensures Guard(host, a, RemoveIpNonce).None? && r.result.Died? ==> r.result.message == "Invalid IP address"
    ensures r.result.Redirected? ==> r.result.notice == "unblocked=" + PostedIp(host, a)
  {
    var stop := Guard(host, a, RemoveIpNonce);
    if stop.Some? then AdminStep(s, Died(stop.value))
    else
      var ip := PostedIp(host, a);
      if !Truthy(ip) || !host.validIp(ip) then AdminStep(s, Died("Invalid IP address"))
      else AdminStep(Unban(s, ip), Redirected("unblocked=" + ip))
  }

  /* ---------------- clear_logs / unblock_all ---------------- */

  /** `SELECT DISTINCT ip ... WHERE expires_at > now`: each IP with an active row, once. */
  function ActiveIps(bans: seq<BanRow>, now: int): (ips: seq<Ip>)
    ensures forall x :: x in ips <==> HasActiveRow(bans, x, now)
    ensures forall i, j :: 0 <= i < j < |ips| ==> ips[i] != ips[j]
  {
    if bans == [] then []
    else
      var rest := ActiveIps(bans[1..], now);
      assert forall x :: HasActiveRow(bans, x, now) <==>
        (bans[0].ip == x && bans[0].expiresAt > now) || HasActiveRow(bans[1..], x, now) by {
        forall x ensures HasActiveRow(bans, x, now) ==>
          (bans[0].ip == x && bans[0].expiresAt > now) || HasActiveRow(bans[1..], x, now) {
          if HasActiveRow(bans, x, now) {
            var r :| r in bans && r.ip == x && r.expiresAt > now;
            if r != bans[0] {
              assert r in bans[1..];
            }
          }
        }
        assert forall r :: r in bans[1..] ==> r in bans;
      }
      if bans[0].expiresAt > now && bans[0].ip !in rest then [bans[0].ip] + rest else rest
  }

  /** The cache without the ban flags of the IPs in `ips`. */
  function DropFlags(c: Cache, ips: set<Ip>): (c': Cache)
    ensures forall k :: k in c' <==> k in c && !(k.BanFlag? && k.ip in ips)
    ensures forall k :: k in c' ==> c'[k] == c[k]
  {
    map k | k in c && !(k.BanFlag? && k.ip in ips) :: c[k]
  }

  /** Deleting one more flag extends the set of dropped flags by that IP. */
  lemma DropFlagsStep(c: Cache, ips: set<Ip>, ip: Ip)
    ensures Delete(DropFlags(c, ips), BanFlag(ip)) == DropFlags(c, ips + {ip})
  {
  }

  /** What `is_banned` sees in the flags after `DropFlags`. */
  lemma DropFlagsGet(c: Cache, ips: set<Ip>, x: Ip, now: int)
    ensures Get(DropFlags(c, ips), BanFlag(x), now) == (if x in ips then None else Get(c, BanFlag(x), now))
  {
  }

  /** The flags of every IP with an active row are deleted; the rows themselves are not touched. */
  function DropActiveFlags(s: State): Cache {
    DropFlags(s.cache, ActiveIpSet(s))
  }

  function ActiveIpSet(s: State): set<Ip> {
    IpSet(ActiveIps(s.bans, s.now))
  }

  function IpSet(ips: seq<Ip>): set<Ip> {
    set x | x in ips
  }

  /**
   * `clear_logs`: delete the flag of every IP with an active row, then empty
   * the log table.
   */
  function ClearLogsEffect(s: State, host: Host, a: AdminRequest): (r: AdminStep)
    ensures r.result.Died? ==> r.state == s
    ensures r.result.Redirected? <==> Guard(host, a, ClearLogsNonce).None?
    ensures r.result.Redirected? ==> r.result.notice == "cleared=1"
    ensures r.result.Redirected? ==> r.state.bans == [] && r.state.fingerprints == s.fingerprints && r.state.now == s.now
    ensures r.result.Redirected? ==>
      forall k :: k in r.state.cache <==> k in s.cache && !(k.BanFlag? && HasActiveRow(s.bans, k.ip, s.now))
    ensures r.result.Redirected? ==> forall k :: k in r.state.cache ==> r.state.cache[k] == s.cache[k]
  {
    var stop := Guard(host, a, ClearLogsNonce);
    if stop.Some? then AdminStep(s, Died(stop.value))
    else AdminStep(s.(bans := [], cache := DropActiveFlags(s)), Redirected("cleared=1"))
  }

  function Expired(now: int): BanRow -> bool {
    (r: BanRow) => !(r.expiresAt > now)
  }

  /**
   * `unblock_all`: delete the flag of every IP with an active row, then delete
   * the active rows; expired rows stay in the table.
   */
  function UnblockAllEffect(s: State, host: Host, a: AdminRequest): (r: AdminStep)
    ensures r.result.Died? ==> r.state == s
    ensures r.result.Redirected? <==> Guard(host, a, UnblockAllNonce).None?
    ensures r.result.Redirected? ==> r.result.notice == "unblocked_all=1"
    ensures r.result.Redirected? ==> forall row :: row in r.state.bans <==> row in s.bans && row.expiresAt <= s.now
    ensures r.result.Redirected? ==> r.state.fingerprints == s.fingerprints && r.state.now == s.now
    ensures r.result.Redirected? ==>
      forall k :: k in r.state.cache <==> k in s.cache && !(k.BanFlag? && HasActiveRow(s.bans, k.ip, s.now))
    ensures r.result.Redirected? ==> forall k :: k in r.state.cache ==> r.state.cache[k] == s.cache[k]
  {
    var stop := Guard(host, a, UnblockAllNonce);
    if stop.Some? then AdminStep(s, Died(stop.value))
    else AdminStep(s.(bans := Filter(s.bans, Expired(s.now)), cache := DropActiveFlags(s)), Redirected("unblocked_all=1"))
  }

  /**
   * After `clear_logs` an IP is banned exactly when its flag was set and it
   * had no active row: every ban the log shows is lifted, and only a flag that
   * outlives its row survives.
   */
  lemma ClearLogsLiftsBans(s: State, host: Host, a: AdminRequest, x: Ip)
    requires Guard(host, a, ClearLogsNonce).None?
    ensures IsBanned(ClearLogsEffect(s, host, a).state, x) <==> IsSet(s.cache, BanFlag(x), s.now) && !HasActiveRow(s.bans, x, s.now)
  {
    DropFlagsGet(s.cache, ActiveIpSet(s), x, s.now);
  }

  /** `unblock_all` lifts the same bans as `clear_logs`; it only keeps the expired rows. */
  lemma UnblockAllLiftsBans(s: State, host: Host, a: AdminRequest, x: Ip)
    requires Guard(host, a, UnblockAllNonce).None?
    ensures IsBanned(UnblockAllEffect(s, host, a).state, x) <==> IsSet(s.cache, BanFlag(x), s.now) && !HasActiveRow(s.bans, x, s.now)
  {
    var s' := UnblockAllEffect(s, host, a).state;
    DropFlagsGet(s.cache, ActiveIpSet(s), x, s.now);
    assert !HasActiveRow(s'.bans, x, s.now);
  }

  /** After either bulk action the admin list of active bans is empty. */
  lemma BulkActionsEmptyActiveList(s: State, host: Host, a: AdminRequest)
    ensures Guard(host, a, ClearLogsNonce).None? ==> TotalActiveLogs(ClearLogsEffect(s, host, a).state) == 0
    ensures Guard(host, a, UnblockAllNonce).None? ==> TotalActiveLogs(UnblockAllEffect(s, host, a).state) == 0
  {
    if Guard(host, a, UnblockAllNonce).None? {
      var s' := UnblockAllEffect(s, host, a).state;
      FilterNone(s'.bans, Active(s'.now));
    }
  }

  /* ---------------- settings_page pagination ---------------- */

  const PerPage: nat := 50

  /** `isset($_GET['paged']) ? max(1, (int)$_GET['paged']) : 1`. */
  function CurrentPage(host: Host, paged: Option<string>): (page: nat)
    ensures page >= 1
    ensures paged.None? ==> page == 1
    ensures paged.Some? && host.toInt(paged.value) >= 1 ==> page == host.toInt(paged.value)
  {
    if paged.None? then 1
    else if host.toInt(paged.value) >= 1 then host.toInt(paged.value) else 1
  }

  function PageOffset(page: nat): nat
    requires page >= 1
  {
    (page - 1) * PerPage
  }

  /** `ceil($total_logs / $per_page)`. */
  function TotalPages(total: nat): (pages: nat)
    ensures pages * PerPage >= total
    ensures pages > 0 ==> (pages - 1) * PerPage < total
  {
    (total + PerPage - 1) / PerPage
  }

  /**
   * Every active row sits on exactly one of the pages the listing links to,
   * and every page past the last is empty.
   */
  lemma PagesCoverRows(total: nat, i: nat)
    requires i < total
    ensures var page := i / PerPage + 1;
      1 <= page <= TotalPages(total) && PageOffset(page) <= i < PageOffset(page) + PerPage
    ensures forall p :: p >= 1 && PageOffset(p) <= i < PageOffset(p) + PerPage ==> p == i / PerPage + 1
  {
    var page := i / PerPage + 1;
    assert PageOffset(page) == i - i % PerPage;
    forall p | p >= 1 && PageOffset(p) <= i < PageOffset(p) + PerPage ensures p == page {
      assert (p - 1) * PerPage <= i < (p - 1) * PerPage + PerPage;
    }
  }

  /** Pages past the last one the listing links to show no rows. */
  lemma PagesPastLastEmpty(s: State, page: nat)
    requires page > TotalPages(TotalActiveLogs(s))
    ensures ActiveLogs(s, PerPage, PageOffset(page)) == []
  {
  }

  /* ---------------- the admin object ---------------- */

  class AdminPage {
    const core: BotTrap

    constructor (core: BotTrap)
      ensures this.core == core
    {
      this.core := core;
    }

    /** `remove_ip`. */
    method RemoveIp(a: AdminRequest) returns (result: AdminResult)
      modifies core
      ensures AdminStep(core.Abs(), result) == RemoveIpEffect(old(core.Abs()), core.host, a)
    {
      var stop := Guard(core.host, a, RemoveIpNonce);
      if stop.Some? {
        return Died(stop.value);
      }
      var ip := if a.ipField.Some? then core.host.sanitizeText(a.ipField.value) else "";
      if !Truthy(ip) || !core.host.validIp(ip) {
        return Died("Invalid IP address");
      }
      core.bans := Filter(core.bans, NotFor(ip));
      core.cache := Delete(core.cache, BanFlag(ip));
      return Redirected("unblocked=" + ip);
    }

    /** Delete the ban flag of each IP in turn. */
    method DeleteFlags(ips: seq<Ip>)
      modifies core
      ensures core.cache == DropFlags(old(core.cache), IpSet(ips))
      ensures core.bans == old(core.bans) && core.fingerprints == old(core.fingerprints) && core.now == old(core.now)
    {
      var i := 0;
      while i < |ips|
        invariant 0 <= i <= |ips|
        invariant core.cache == DropFlags(old(core.cache), IpSet(ips[..i]))
        invariant core.bans == old(core.bans) && core.fingerprints == old(core.fingerprints) && core.now == old(core.now)
      {
        DropFlagsStep(old(core.cache), IpSet(ips[..i]), ips[i]);
        assert IpSet(ips[..i + 1]) == IpSet(ips[..i]) + {ips[i]} by {
          assert ips[..i + 1] == ips[..i] + [ips[i]];
        }
        core.cache := Delete(core.cache, BanFlag(ips[i]));
        i := i + 1;
      }
      assert ips[..i] == ips;
    }

    /** `clear_logs`. */
    method ClearLogs(a: AdminRequest) returns (result: AdminResult)
      modifies core
      ensures AdminStep(core.Abs(), result) == ClearLogsEffect(old(core.Abs()), core.host, a)
    {
      var stop := Guard(core.host, a, ClearLogsNonce);
      if stop.Some? {
        return Died(stop.value);
      }
      var bannedIps := ActiveIps(core.bans, core.now);
      DeleteFlags(bannedIps);
      core.bans := [];
      return Redirected("cleared=1");
    }

    /** `unblock_all`. */
    method UnblockAll(a: AdminRequest) returns (result: AdminResult)
      modifies core
      ensures AdminStep(core.Abs(), result) == UnblockAllEffect(old(core.Abs()), core.host, a)
    {
      var stop := Guard(core.host, a, UnblockAllNonce);
      if stop.Some? {
        return Died(stop.value);
      }
      var bannedIps := ActiveIps(core.bans, core.now);
      DeleteFlags(bannedIps);
      core.bans := Filter(core.bans, Expired(core.now));
      return Redirected("unblocked_all=1");
    }
  }
}

=== FILE: ban_store.dfy ===
/**
 * The persistent state of the plugin and the operations of the core class
 * `SBT_Stealth_Bot_Trap` on it, as functions from state to state: the ban log
 * table, the fingerprint table, the transient cache and the clock, and the
 * ban / unban / sweep / fingerprint / quiz operations.
 *
 * Times are seconds on one clock; a DATETIME column holds such a number.
 */
module BanStore {
  import opened Wrappers
  import opened Text
  import opened Transients
  import opened Config
  import opened Seqs

  /** A row of the `sbt_blocked_ips` table (the ban log). */
  datatype BanRow = BanRow(ip: Ip, reason: string, bannedAt: int, expiresAt: int)

  /**
   * A row of the `sbt_fingerprints` table. The fingerprint column holds
   * `md5(ip . method . uri . extra)`; here it holds the string that is hashed.
   */
  datatype FingerprintRow = FingerprintRow(
    ip: Ip, fingerprint: string, userAgent: string, requestCount: int, lastSeen: int)

  datatype State = State(
    bans: seq<BanRow>,
    fingerprints: seq<FingerprintRow>,
    cache: Cache,
    now: int)

  /** Lifetime of a stored quiz, in seconds. */
  const QuizTtl: int := 300
  /** `INTERVAL 1 DAY`, the age after which a fingerprint is swept. */
  const DayInSeconds: int := 86400
  /** The nonce action the quiz form is signed with. */
  const QuizNonceAction: string := "sbt_solve_quiz"

  /** `ban_hours * HOUR_IN_SECONDS`. */
  function BanSeconds(cfg: Settings): int {
    cfg.banHours * HourInSeconds
  }

  function BannedAt(r: BanRow): int {
    r.bannedAt
  }

  /* ---------------- is_banned ---------------- */

  /** The log table has a row for `ip` whose expiry lies after `now`. */
  predicate HasActiveRow(bans: seq<BanRow>, ip: Ip, now: int) {
    exists r :: r in bans && r.ip == ip && r.expiresAt > now
  }

  /** `is_banned`: the ban flag is set, or an unexpired log row exists. */
  predicate IsBanned(s: State, ip: Ip) {
    IsSet(s.cache, BanFlag(ip), s.now) || HasActiveRow(s.bans, ip, s.now)
  }

  /** Two states agree on every ban of every IP other than `ip`. */
  ghost predicate SameBansExcept(s: State, s': State, ip: Ip) {
    forall other :: other != ip ==> IsBanned(s', other) == IsBanned(s, other)
  }

  /* ---------------- the quiz ---------------- */

  /** An operand drawn by `rand(1, 10)`. */
  type Operand = n: int | 1 <= n <= 10 witness 1

  /** The three random draws of `get_or_create_quiz`: two operands and whether the operator is '+'. */
  datatype QuizRoll = QuizRoll(n1: Operand, n2: Operand, plus: bool)

  lemma OperandProduct(a: Operand, b: Operand)
    ensures 1 <= a * b <= 100
  {
    ProductBound(a, b);
    ProductBound(a - 1, b);
    assert a * b == (a - 1) * b + b;
  }

  lemma {:induction false} ProductBound(a: nat, b: nat)
    requires b <= 10
    ensures 0 <= a * b <= 10 * a
  {
    if a > 0 {
      ProductBound(a - 1, b);
      assert a * b == (a - 1) * b + b;
    }
  }

  /** The question "n1 op n2 = ?" and its answer. */
  function NewQuiz(roll: QuizRoll): (q: Quiz)
    ensures 1 <= q.expected <= 100
    ensures roll.plus ==> q.expected >= 2
    ensures Split(q.question, ' ') == [NatToString(roll.n1), if roll.plus then "+" else "x", NatToString(roll.n2), "=", "?"]
  {
    var op := if roll.plus then "+" else "x";
    OperandProduct(roll.n1, roll.n2);
    QuestionPieces(NatToString(roll.n1), op, NatToString(roll.n2));
    var ans := if roll.plus then roll.n1 + roll.n2 else roll.n1 * roll.n2;
    Quiz(QuestionText(NatToString(roll.n1), op, NatToString(roll.n2)), ans)
  }

  function QuestionText(d1: string, op: string, d2: string): string {
    d1 + " " + op + " " + d2 + " = ?"
  }

  /**
   * How a reader works out the answer to a question of the form
   * "<digits> <+ or x> <digits> = ?"; None for any other text.
   */
  function Evaluate(question: string): Option<int> {
    var parts := Split(question, ' ');
    if |parts| == 5 && AllDigits(parts[0]) && AllDigits(parts[2]) && parts[3] == "=" && parts[4] == "?" then
      if parts[1] == "+" then Some(DigitsValue(parts[0]) + DigitsValue(parts[2]))
      else if parts[1] == "x" then Some(DigitsValue(parts[0]) * DigitsValue(parts[2]))
      else None
    else None
  }

  lemma QuestionPieces(d1: string, op: string, d2: string)
    requires ' ' !in d1 && ' ' !in op && ' ' !in d2
    ensures Split(QuestionText(d1, op, d2), ' ') == [d1, op, d2, "=", "?"]
  {
    var tail := "=" + [' '] + "?";
    assert QuestionText(d1, op, d2) == d1 + [' '] + (op + [' '] + (d2 + [' '] + tail));
    SplitNoSeparator("?", ' ');
    SplitAfterPiece("=", ' ', "?");
    SplitAfterPiece(d2, ' ', tail);
    SplitAfterPiece(op, ' ', d2 + [' '] + tail);
    SplitAfterPiece(d1, ' ', op + [' '] + (d2 + [' '] + tail));
  }

  /**
   * The question shown to the visitor works out to the sum or the product of
   * the two drawn operands, and that is exactly the stored answer.
   */
  lemma QuizAnswerMatchesQuestion(roll: QuizRoll)
    ensures Evaluate(NewQuiz(roll).question) == Some(if roll.plus then roll.n1 + roll.n2 else roll.n1 * roll.n2)
    ensures Evaluate(NewQuiz(roll).question) == Some(NewQuiz(roll).expected)
  {
    NatToStringRoundTrip(roll.n1);
    NatToStringRoundTrip(roll.n2);
  }

  /** The quiz stored for `ip`, if one is live. */
  function StoredQuiz(c: Cache, ip: Ip, now: int): Option<Quiz> {
    match Get(c, QuizData(ip), now)
    case Some(QuizRecord(q)) => Some(q)
    case _ => None
  }

  datatype QuizStep = QuizStep(state: State, quiz: Quiz)

  /**
   * `get_or_create_quiz`: the live stored quiz if there is one; otherwise a
   * fresh quiz from `roll`, stored for five minutes.
   */
  function GetOrCreateQuiz(s: State, ip: Ip, roll: QuizRoll): (r: QuizStep)
    ensures StoredQuiz(r.state.cache, ip, s.now) == Some(r.quiz)
    ensures r.state.cache - {QuizData(ip)} == s.cache - {QuizData(ip)}
    ensures r.state.bans == s.bans && r.state.fingerprints == s.fingerprints && r.state.now == s.now
    ensures StoredQuiz(s.cache, ip, s.now).Some? ==> r == QuizStep(s, StoredQuiz(s.cache, ip, s.now).value)
    ensures StoredQuiz(s.cache, ip, s.now).None? ==> r.quiz == NewQuiz(roll)
    ensures StoredQuiz(s.cache, ip, s.now).None? ==>
      StoredQuiz(r.state.cache, ip, s.now + QuizTtl) == Some(r.quiz) && StoredQuiz(r.state.cache, ip, s.now + QuizTtl + 1).None?
  {
    match StoredQuiz(s.cache, ip, s.now)
    case Some(q) => QuizStep(s, q)
    case None =>
      var q := NewQuiz(roll);
      QuizStep(s.(cache := Set(s.cache, QuizData(ip), QuizRecord(q), QuizTtl, s.now)), q)
  }

  /** Asking again, with any other draw, returns the same quiz and changes nothing. */
  lemma GetOrCreateQuizStable(s: State, ip: Ip, roll1: QuizRoll, roll2: QuizRoll)
    ensures var r1 := GetOrCreateQuiz(s, ip, roll1);
            GetOrCreateQuiz(r1.state, ip, roll2) == r1
  {
  }

  /* ---------------- ban_ip ---------------- */

  /**
   * `ban_ip`: nothing when the IP is already banned or test mode is on;
   * otherwise a log row expiring `ban_hours` from now, the ban flag for as
   * long, and in quiz mode a quiz ready for the block page.
   */
  function Ban(s: State, cfg: Settings, ip: Ip, reason: string, roll: QuizRoll): (s': State)
    ensures s'.fingerprints == s.fingerprints && s'.now == s.now
    ensures SameBansExcept(s, s', ip)
  {
    if IsBanned(s, ip) || cfg.testMode then s
    else
      var row := BanRow(ip, reason, s.now, s.now + BanSeconds(cfg));
      var flagged := s.(bans := s.bans + [row], cache := Set(s.cache, BanFlag(ip), Flag, BanSeconds(cfg), s.now));
      var s' := if cfg.blockMode == QuizBlockMode then GetOrCreateQuiz(flagged, ip, roll).state else flagged;
      assert s'.cache - {QuizData(ip)} == flagged.cache - {QuizData(ip)};
      forall other | other != ip ensures IsBanned(s', other) == IsBanned(s, other) {
        GetOtherKey(flagged.cache, s'.cache, QuizData(ip), BanFlag(other), s.now);
        GetOtherKey(s.cache, flagged.cache, BanFlag(ip), BanFlag(other), s.now);
        assert HasActiveRow(s'.bans, other, s.now) == HasActiveRow(s.bans, other, s.now);
      }
      s'
  }

  /** The ban flag and (in quiz mode) a quiz are all that `Ban` adds to the cache. */
  lemma BanCache(s: State, cfg: Settings, ip: Ip, reason: string, roll: QuizRoll)
    requires !IsBanned(s, ip) && !cfg.testMode
    ensures var s' := Ban(s, cfg, ip, reason, roll);
      && s'.cache - {BanFlag(ip), QuizData(ip)} == s.cache - {BanFlag(ip), QuizData(ip)}
      && Get(s'.cache, BanFlag(ip), s.now) == (if BanSeconds(cfg) >= 0 then Some(Flag) else None)
      && (cfg.blockMode == QuizBlockMode ==> StoredQuiz(s'.cache, ip, s.now).Some?)
      && (cfg.blockMode != QuizBlockMode ==> s'.cache - {BanFlag(ip)} == s.cache - {BanFlag(ip)})
      && (BanSeconds(cfg) > 0 ==>
            && Get(s'.cache, BanFlag(ip), s.now + BanSeconds(cfg)) == Some(Flag)
            && Get(s'.cache, BanFlag(ip), s.now + BanSeconds(cfg) + 1) == None)
      && (BanSeconds(cfg) == 0 ==> forall t :: Get(s'.cache, BanFlag(ip), t) == Some(Flag))
  {
    var s' := Ban(s, cfg, ip, reason, roll);
    var flagCache := Set(s.cache, BanFlag(ip), Flag, BanSeconds(cfg), s.now);
    GetOtherKey(flagCache, s'.cache, QuizData(ip), BanFlag(ip), s.now);
    GetOtherKey(flagCache, s'.cache, QuizData(ip), BanFlag(ip), s.now + BanSeconds(cfg));
    GetOtherKey(flagCache, s'.cache, QuizData(ip), BanFlag(ip), s.now + BanSeconds(cfg) + 1);
    forall t ensures Get(s'.cache, BanFlag(ip), t) == Get(flagCache, BanFlag(ip), t) {
      GetOtherKey(flagCache, s'.cache, QuizData(ip), BanFlag(ip), t);
    }
    if cfg.blockMode == QuizBlockMode {
      GetOtherKey(s.cache, flagCache, BanFlag(ip), QuizData(ip), s.now);
    }
  }

  /**
   * A ban of an IP that is not banned appends one log row and, for a
   * non-negative `ban_hours`, leaves the IP banned; in test mode, or for an IP
   * already banned, nothing changes at all.
   */
  lemma BanEffect(s: State, cfg: Settings, ip: Ip, reason: string, roll: QuizRoll)
    ensures IsBanned(s, ip) || cfg.testMode ==> Ban(s, cfg, ip, reason, roll) == s
    ensures !IsBanned(s, ip) && !cfg.testMode ==>
      Ban(s, cfg, ip, reason, roll).bans == s.bans + [BanRow(ip, reason, s.now, s.now + BanSeconds(cfg))]
    ensures !cfg.testMode && cfg.banHours >= 0 ==> IsBanned(Ban(s, cfg, ip, reason, roll), ip)
    ensures !IsBanned(s, ip) && !cfg.testMode && cfg.banHours < 0 ==> !IsBanned(Ban(s, cfg, ip, reason, roll), ip)
  {
    if !IsBanned(s, ip) && !cfg.testMode {
      BanCache(s, cfg, ip, reason, roll);
    }
  }

  /** Banning twice is banning once: the second call finds the IP banned. */
  lemma BanIdempotent(s: State, cfg: Settings, ip: Ip, r1: string, r2: string, roll1: QuizRoll, roll2: QuizRoll)
    requires cfg.banHours >= 0
    ensures var s' := Ban(s, cfg, ip, r1, roll1);
            Ban(s', cfg, ip, r2, roll2) == s'
  {
    BanEffect(s, cfg, ip, r1, roll1);
  }

  /* ---------------- unban_ip / unblock_current_ip ---------------- */

  function NotFor(ip: Ip): BanRow -> bool {
    (r: BanRow) => r.ip != ip
  }

  /** `unban_ip`: every log row of the IP is deleted, and its ban flag. */
  function Unban(s: State, ip: Ip): (s': State)
    ensures !IsBanned(s', ip)
    ensures forall r :: r in s'.bans <==> r in s.bans && r.ip != ip
    ensures s'.cache - {BanFlag(ip)} == s.cache - {BanFlag(ip)}
    ensures SameBansExcept(s, s', ip)
    ensures s'.fingerprints == s.fingerprints && s'.now == s.now
  {
    var s' := s.(bans := Filter(s.bans, NotFor(ip)), cache := Delete(s.cache, BanFlag(ip)));
    forall other | other != ip ensures IsBanned(s', other) == IsBanned(s, other) {
      GetOtherKey(s.cache, s'.cache, BanFlag(ip), BanFlag(other), s.now);
    }
    s'
  }

  /** The IP has nothing recorded against it: no log row and no ban flag entry. */
  predicate Clean(s: State, ip: Ip) {
    (forall r :: r in s.bans ==> r.ip != ip) && BanFlag(ip) !in s.cache
  }

  lemma UnbanUndoesBanLog(s: State, cfg: Settings, ip: Ip, reason: string, roll: QuizRoll)
    requires forall r :: r in s.bans ==> r.ip != ip
    ensures Unban(Ban(s, cfg, ip, reason, roll), ip).bans == s.bans
  {
    var b := Ban(s, cfg, ip, reason, roll);
    assert Unban(b, ip).bans == Filter(b.bans, NotFor(ip));
    BanEffect(s, cfg, ip, reason, roll);
    FilterAll(s.bans, NotFor(ip));
    if !IsBanned(s, ip) && !cfg.testMode {
      var row := BanRow(ip, reason, s.now, s.now + BanSeconds(cfg));
      assert b.bans == s.bans + [row];
      FilterAppend(s.bans, row, NotFor(ip));
    } else {
      assert b == s;
    }
  }

  lemma UnbanUndoesBanCache(s: State, cfg: Settings, ip: Ip, reason: string, roll: QuizRoll)
    requires BanFlag(ip) !in s.cache
    ensures Unban(Ban(s, cfg, ip, reason, roll), ip).cache - {QuizData(ip)} == s.cache - {QuizData(ip)}
  {
    var b := Ban(s, cfg, ip, reason, roll);
    var u := Unban(b, ip);
    assert u.cache == b.cache - {BanFlag(ip)};
    assert s.cache - {QuizData(ip)} == s.cache - {BanFlag(ip), QuizData(ip)};
    assert u.cache - {QuizData(ip)} == b.cache - {BanFlag(ip), QuizData(ip)};
    if !IsBanned(s, ip) && !cfg.testMode {
      BanCache(s, cfg, ip, reason, roll);
    }
  }

  /**
   * Unbanning undoes a ban of an IP that had nothing recorded against it: the
   * log and every cache entry but the quiz are as before.
   */
  lemma UnbanUndoesBan(s: State, cfg: Settings, ip: Ip, reason: string, roll: QuizRoll)
    requires Clean(s, ip)
    ensures var u := Unban(Ban(s, cfg, ip, reason, roll), ip);
      && u.bans == s.bans
      && u.cache - {QuizData(ip)} == s.cache - {QuizData(ip)}
      && u.fingerprints == s.fingerprints
  {
    UnbanUndoesBanLog(s, cfg, ip, reason, roll);
    UnbanUndoesBanCache(s, cfg, ip, reason, roll);
  }

  /* ---------------- cleanup_old_entries ---------------- */

  function Unexpired(now: int): BanRow -> bool {
    (r: BanRow) => !(r.expiresAt < now)
  }

  function SeenWithinDay(now: int): FingerprintRow -> bool {
    (f: FingerprintRow) => !(f.lastSeen < now - DayInSeconds)
  }

  /**
   * `cleanup_old_entries`: deletes the log rows that expired before now and the
   * fingerprints not seen for a day; every IP's ban state is as before.
   */
  function Sweep(s: State): (s': State)
    ensures forall r :: r in s'.bans <==> r in s.bans && r.expiresAt >= s.now
    ensures forall f :: f in s'.fingerprints <==> f in s.fingerprints && f.lastSeen >= s.now - DayInSeconds
    ensures forall ip :: IsBanned(s', ip) == IsBanned(s, ip)
    ensures s'.cache == s.cache && s'.now == s.now
  {
    s.(bans := Filter(s.bans, Unexpired(s.now)), fingerprints := Filter(s.fingerprints, SeenWithinDay(s.now)))
  }

  /** A second sweep at the same time finds nothing more to delete. */
  lemma SweepIdempotent(s: State)
    ensures Sweep(Sweep(s)) == Sweep(s)
  {
    FilterIdempotent(s.bans, Unexpired(s.now));
    FilterIdempotent(s.fingerprints, SeenWithinDay(s.now));
  }

  /* ---------------- record_fingerprint ---------------- */

  /** What `record_fingerprint` hashes: IP, method, URI and the caller's extra data. */
  function FingerprintOf(ip: Ip, req: Request, extra: string): string {
    ip + req.httpMethod + req.uri + extra
  }

  predicate Matches(f: FingerprintRow, ip: Ip, fp: string) {
    f.ip == ip && f.fingerprint == fp
  }

  /** `SELECT ... WHERE ip = %s AND fingerprint = %s`: the first matching row from `start` on. */
  function FindFingerprint(rows: seq<FingerprintRow>, ip: Ip, fp: string, start: nat): (r: Option<nat>)
    requires start <= |rows|
    ensures r.Some? ==> start <= r.value < |rows| && Matches(rows[r.value], ip, fp)
    ensures r.None? ==> forall j :: start <= j < |rows| ==> !Matches(rows[j], ip, fp)
    decreases |rows| - start
  {
    if start == |rows| then None
    else if Matches(rows[start], ip, fp) then Some(start)
    else FindFingerprint(rows, ip, fp, start + 1)
  }

  /** No two fingerprint rows share an IP and a fingerprint. */
  predicate UniqueFingerprints(rows: seq<FingerprintRow>) {
    forall i, j :: 0 <= i < j < |rows| ==> !(rows[i].ip == rows[j].ip && rows[i].fingerprint == rows[j].fingerprint)
  }

  /** The number of requests the table has counted. */
  function TotalRequests(rows: seq<FingerprintRow>): int {
    if rows == [] then 0 else TotalRequests(rows[..|rows| - 1]) + rows[|rows| - 1].requestCount
  }

  lemma {:induction false} TotalRequestsUpdate(rows: seq<FingerprintRow>, i: nat, f: FingerprintRow)
    requires i < |rows|
    ensures TotalRequests(rows[i := f]) == TotalRequests(rows) - rows[i].requestCount + f.requestCount
    decreases |rows|
  {
    var n := |rows| - 1;
    if i < n {
      assert rows[i := f][..n] == rows[..n][i := f];
      TotalRequestsUpdate(rows[..n], i, f);
    } else {
      assert rows[i := f][..n] == rows[..n];
    }
  }

  /**
   * `record_fingerprint`: the row for this IP and fingerprint counts one more
   * request and is seen now; without one, a new row starts at one request
   * (the column default), with the User-Agent or "unknown".
   */
  function RecordFingerprint(s: State, ip: Ip, req: Request, extra: string): (s': State)
    ensures UniqueFingerprints(s.fingerprints) ==> UniqueFingerprints(s'.fingerprints)
    ensures TotalRequests(s'.fingerprints) == TotalRequests(s.fingerprints) + 1
    ensures exists f :: f in s'.fingerprints && Matches(f, ip, FingerprintOf(ip, req, extra)) && f.lastSeen == s.now
    ensures |s.fingerprints| <= |s'.fingerprints| <= |s.fingerprints| + 1
    ensures s'.bans == s.bans && s'.cache == s.cache && s'.now == s.now
    ensures var fp := FingerprintOf(ip, req, extra);
      forall j :: 0 <= j < |s.fingerprints| && !Matches(s.fingerprints[j], ip, fp) ==> s'.fingerprints[j] == s.fingerprints[j]
    ensures var found := FindFingerprint(s.fingerprints, ip, FingerprintOf(ip, req, extra), 0);
      found.Some? ==> Bumped(s.fingerprints, s'.fingerprints, found.value, s.now)
    ensures var fp := FingerprintOf(ip, req, extra);
      FindFingerprint(s.fingerprints, ip, fp, 0).None? ==>
        s'.fingerprints == s.fingerprints + [FingerprintRow(ip, fp, req.userAgent.GetOr("unknown"), 1, s.now)]
  {
    s.(fingerprints := Upsert(s.fingerprints, ip, FingerprintOf(ip, req, extra), req.userAgent.GetOr("unknown"), s.now))
  }

  /** `rows'` is `rows` with row `i` counting one more request, seen at `now`, and every other row as it was. */
  predicate Bumped(rows: seq<FingerprintRow>, rows': seq<FingerprintRow>, i: nat, now: int) {
    && i < |rows| == |rows'|
    && rows'[i] == rows[i].(requestCount := rows[i].requestCount + 1, lastSeen := now)
    && forall j :: 0 <= j < |rows| && j != i ==> rows'[j] == rows[j]
  }

  /** The fingerprint rows after a request with key (ip, fp) is counted at `now`. */
  function Upsert(rows: seq<FingerprintRow>, ip: Ip, fp: string, userAgent: string, now: int): (rows': seq<FingerprintRow>)
    ensures UniqueFingerprints(rows) ==> UniqueFingerprints(rows')
    ensures TotalRequests(rows') == TotalRequests(rows) + 1
    ensures exists f :: f in rows' && Matches(f, ip, fp) && f.lastSeen == now
    ensures |rows| <= |rows'| <= |rows| + 1
    ensures forall j :: 0 <= j < |rows| && !Matches(rows[j], ip, fp) ==> rows'[j] == rows[j]
    ensures var found := FindFingerprint(rows, ip, fp, 0);
      found.Some? ==> Bumped(rows, rows', found.value, now)
    ensures FindFingerprint(rows, ip, fp, 0).None? ==> rows' == rows + [FingerprintRow(ip, fp, userAgent, 1, now)]
  {
    match FindFingerprint(rows, ip, fp, 0)
    case Some(i) =>
      var f := rows[i].(requestCount := rows[i].requestCount + 1, lastSeen := now);
      BumpRow(rows, i, f);
      rows[i := f]
    case None =>
      var f := FingerprintRow(ip, fp, userAgent, 1, now);
      AppendRow(rows, f);
      rows + [f]
  }

  /** Updating the count and time of row `i` keeps keys unique and adds the count difference to the total. */
  lemma BumpRow(rows: seq<FingerprintRow>, i: nat, f: FingerprintRow)
    requires i < |rows| && f.ip == rows[i].ip && f.fingerprint == rows[i].fingerprint
    ensures UniqueFingerprints(rows) ==> UniqueFingerprints(rows[i := f])
    ensures TotalRequests(rows[i := f]) == TotalRequests(rows) - rows[i].requestCount + f.requestCount
    ensures f in rows[i := f] && rows[i := f][i] == f
    ensures forall j :: 0 <= j < |rows| && j != i ==> rows[i := f][j] == rows[j]
  {
    TotalRequestsUpdate(rows, i, f);
    assert rows[i := f][i] == f;
  }

  /** Appending a row whose key no row has keeps keys unique and adds its count to the total. */
  lemma AppendRow(rows: seq<FingerprintRow>, f: FingerprintRow)
    requires forall j :: 0 <= j < |rows| ==> !Matches(rows[j], f.ip, f.fingerprint)
    ensures UniqueFingerprints(rows) ==> UniqueFingerprints(rows + [f])
    ensures TotalRequests(rows + [f]) == TotalRequests(rows) + f.requestCount
    ensures f in rows + [f]
    ensures forall j :: 0 <= j < |rows| ==> (rows + [f])[j] == rows[j]
  {
    assert (rows + [f])[..|rows|] == rows;
    assert (rows + [f])[|rows|] == f;
  }

  /** Recording is keyed: a repeated request grows a count instead of the table. */
  lemma RecordFingerprintRepeat(s: State, ip: Ip, req: Request, extra: string)
    ensures var s1 := RecordFingerprint(s, ip, req, extra);
            |RecordFingerprint(s1, ip, req, extra).fingerprints| == |s1.fingerprints|
  {
    var s1 := RecordFingerprint(s, ip, req, extra);
    var fp := FingerprintOf(ip, req, extra);
    var f :| f in s1.fingerprints && Matches(f, ip, fp) && f.lastSeen == s.now;
    var k :| 0 <= k < |s1.fingerprints| && s1.fingerprints[k] == f;
    assert FindFingerprint(s1.fingerprints, ip, fp, 0).Some?;
  }

  /* ---------------- handle_quiz_submission ---------------- */

  datatype Submission = NotHandled | Solved | Failed
  datatype SubmissionStep = SubmissionStep(state: State, result: Submission)

  /** The request carries a signed answer to a quiz that is still stored for `ip`. */
  predicate Answerable(s: State, host: Host, req: Request, ip: Ip) {
    && req.httpMethod == "POST" && req.quizAnswer.Some?
    && req.quizNonce.Some? && host.verifyNonce(req.quizNonce.value, QuizNonceAction)
    && StoredQuiz(s.cache, ip, s.now).Some?
  }

  /**
   * `handle_quiz_submission`: a POSTed, nonce-signed answer to the stored quiz
   * consumes the quiz. A correct answer also unbans the IP and lets it pass the
   * geo quiz for `ban_hours`; either way the visitor is redirected.
   */
  function QuizSubmission(s: State, cfg: Settings, host: Host, req: Request, ip: Ip): (r: SubmissionStep)
    ensures r.result != NotHandled <==> Answerable(s, host, req, ip)
    ensures r.result == NotHandled <==> r.state == s
    ensures r.result == Solved ==> host.toInt(req.quizAnswer.value) == StoredQuiz(s.cache, ip, s.now).value.expected
    ensures r.result != NotHandled ==> StoredQuiz(r.state.cache, ip, s.now).None?
    ensures r.state.fingerprints == s.fingerprints && r.state.now == s.now
  {
    if req.httpMethod != "POST" || req.quizAnswer.None? then SubmissionStep(s, NotHandled)
    else if req.quizNonce.None? || !host.verifyNonce(req.quizNonce.value, QuizNonceAction) then SubmissionStep(s, NotHandled)
    else match StoredQuiz(s.cache, ip, s.now)
      case None => SubmissionStep(s, NotHandled)
      case Some(q) =>
        assert QuizData(ip) in s.cache;
        if host.toInt(req.quizAnswer.value) == q.expected then
          var u := Unban(s, ip);
          var c := Delete(u.cache, QuizData(ip));
          var c' := Set(c, GeoQuizPassed(ip), Flag, BanSeconds(cfg), s.now);
          GetOtherKey(c, c', GeoQuizPassed(ip), QuizData(ip), s.now);
          assert QuizData(ip) !in c';
          SubmissionStep(u.(cache := c'), Solved)
        else
          assert QuizData(ip) !in Delete(s.cache, QuizData(ip));
          SubmissionStep(s.(cache := Delete(s.cache, QuizData(ip))), Failed)
  }

  /**
   * A correct answer lifts the ban of that IP only, and marks the geo quiz as
   * passed while `ban_hours` is not negative. The grace flag that
   * `check_ban` looks for is not what is set.
   */
  lemma CorrectAnswerUnbans(s: State, cfg: Settings, host: Host, req: Request, ip: Ip)
    requires Answerable(s, host, req, ip)
    requires host.toInt(req.quizAnswer.value) == StoredQuiz(s.cache, ip, s.now).value.expected
    ensures var r := QuizSubmission(s, cfg, host, req, ip);
      && r.result == Solved
      && !IsBanned(r.state, ip)
      && SameBansExcept(s, r.state, ip)
      && (cfg.banHours >= 0 ==> IsSet(r.state.cache, GeoQuizPassed(ip), s.now))
      && (cfg.banHours > 0 ==>
            && IsSet(r.state.cache, GeoQuizPassed(ip), s.now + BanSeconds(cfg))
            && Get(r.state.cache, GeoQuizPassed(ip), s.now + BanSeconds(cfg) + 1) == None)
      && (cfg.banHours == 0 ==> forall t :: IsSet(r.state.cache, GeoQuizPassed(ip), t))
      && (forall t :: s.now <= t <= s.now + BanSeconds(cfg) ==> IsSet(r.state.cache, GeoQuizPassed(ip), t))
      && Get(r.state.cache, QuizSolved(ip), s.now) == Get(s.cache, QuizSolved(ip), s.now)
  {
    var r := QuizSubmission(s, cfg, host, req, ip);
    var u := Unban(s, ip);
    var c := Delete(u.cache, QuizData(ip));
    GetOtherKey(c, r.state.cache, GeoQuizPassed(ip), BanFlag(ip), s.now);
    GetOtherKey(u.cache, c, QuizData(ip), BanFlag(ip), s.now);
    GetOtherKey(c, r.state.cache, GeoQuizPassed(ip), QuizSolved(ip), s.now);
    GetOtherKey(u.cache, c, QuizData(ip), QuizSolved(ip), s.now);
    GetOtherKey(s.cache, u.cache, BanFlag(ip), QuizSolved(ip), s.now);
    forall other | other != ip ensures IsBanned(r.state, other) == IsBanned(s, other) {
      GetOtherKey(c, r.state.cache, GeoQuizPassed(ip), BanFlag(other), s.now);
      GetOtherKey(u.cache, c, QuizData(ip), BanFlag(other), s.now);
    }
  }

  /** A wrong answer only consumes the quiz: every ban stays as it was. */
  lemma WrongAnswerKeepsBans(s: State, cfg: Settings, host: Host, req: Request, ip: Ip)
    requires Answerable(s, host, req, ip)
    requires host.toInt(req.quizAnswer.value) != StoredQuiz(s.cache, ip, s.now).value.expected
    ensures var r := QuizSubmission(s, cfg, host, req, ip);
      && r.result == Failed
      && r.state == s.(cache := Delete(s.cache, QuizData(ip)))
      && r.state.bans == s.bans
      && forall x :: IsBanned(r.state, x) == IsBanned(s, x)
  {
    var r := QuizSubmission(s, cfg, host, req, ip);
    forall x ensures IsBanned(r.state, x) == IsBanned(s, x) {
      GetOtherKey(s.cache, r.state.cache, QuizData(ip), BanFlag(x), s.now);
    }
  }

  /* ---------------- get_active_logs / get_total_active_logs ---------------- */

  function Active(now: int): BanRow -> bool {
    (r: BanRow) => r.expiresAt > now
  }

  /** `get_total_active_logs`: the number of rows that expire after now. */
  function TotalActiveLogs(s: State): (n: nat)
    ensures n <= |s.bans|
  {
    |Filter(s.bans, Active(s.now))|
  }

  /** The unexpired rows, newest ban first. */
  function ActiveByNewest(s: State): (rows: seq<BanRow>)
    ensures |rows| == TotalActiveLogs(s)
    ensures SortedDesc(rows, BannedAt)
    ensures forall r :: r in rows <==> r in s.bans && r.expiresAt > s.now
  {
    var active := Filter(s.bans, Active(s.now));
    var sorted := SortDesc(active, BannedAt);
    assert forall r :: r in sorted <==> r in multiset(sorted);
    sorted
  }

  /** `get_active_logs($limit, $offset)`: one page of `ActiveByNewest`. */
  function ActiveLogs(s: State, limit: nat, offset: nat): (page: seq<BanRow>)
    ensures |page| <= limit
    ensures offset + |page| <= TotalActiveLogs(s) || page == []
    ensures offset < TotalActiveLogs(s) && offset + limit <= TotalActiveLogs(s) ==> |page| == limit
    ensures offset < TotalActiveLogs(s) && offset + limit > TotalActiveLogs(s) ==> |page| == TotalActiveLogs(s) - offset
    ensures offset < TotalActiveLogs(s) ==> page == ActiveByNewest(s)[offset..offset + |page|]
    ensures forall r :: r in page ==> r in s.bans && r.expiresAt > s.now
    ensures SortedDesc(page, BannedAt)
  {
    PageOfSorted(ActiveByNewest(s), limit, offset, BannedAt);
    Page(ActiveByNewest(s), limit, offset)
  }

  /** Consecutive pages join up: no row is skipped or shown twice between them. */
  lemma ActiveLogsPagesJoin(s: State, a: nat, b: nat, offset: nat)
    ensures ActiveLogs(s, a, offset) + ActiveLogs(s, b, offset + a) == ActiveLogs(s, a + b, offset)
  {
    PagesJoin(ActiveByNewest(s), a, b, offset);
  }
}

=== FILE: browser.dfy ===
/**
 * The three User-Agent classifiers of the detection layers:
 * `is_outdated_browser`, `get_browser_details` and `is_whitelisted_browser`.
 * Each `preg_match` is written out as a left-to-right scan for the leftmost
 * place where the pattern matches, capturing a maximal run of characters.
 */
module Browser {
  import opened Wrappers
  import opened Text
  import opened Config

  /* ---------------- regular-expression pieces ---------------- */

  /** `t` occurs at the start of `s`, ignoring ASCII letter case when `ci` (the `/i` flag). */
  predicate TokenAt(s: string, t: string, ci: bool) {
    |t| <= |s| && (if ci then Lower(s[..|t|]) == Lower(t) else s[..|t|] == t)
  }

  predicate DigitOrDot(c: char) {
    IsDigit(c) || c == '.'
  }

  predicate NotQuote(c: char) {
    c != '"'
  }

  /** The longest prefix of `s` made of characters in `cls` (what a greedy `[...]+` consumes). */
  function RunOf(s: string, cls: char -> bool): (r: string)
    ensures StartsWith(s, r)
    ensures forall i :: 0 <= i < |r| ==> cls(r[i])
    ensures |r| == |s| || !cls(s[|r|])
  {
    if s != [] && cls(s[0]) then [s[0]] + RunOf(s[1..], cls) else []
  }

  /**
   * `preg_match('/<token>(<cls>+)/', s)`: the capture at the leftmost position
   * where `token` is followed by at least one character of `cls`.
   */
  function Capture(s: string, token: string, cls: char -> bool, ci: bool): (r: Option<string>)
    ensures r.Some? ==> r.value != [] && forall i :: 0 <= i < |r.value| ==> cls(r.value[i])
    decreases |s|
  {
    if TokenAt(s, token, ci) && |token| < |s| && cls(s[|token|]) then Some(RunOf(s[|token|..], cls))
    else if s == [] then None
    else Capture(s[1..], token, cls, ci)
  }

  /** Where a token matches, each of its non-letter characters is matched exactly. */
  lemma TokenAtChar(s: string, token: string, ci: bool, k: nat)
    requires k < |token| && (ci ==> !('A' <= token[k] <= 'Z') && !('a' <= token[k] <= 'z'))
    ensures TokenAt(s, token, ci) ==> k < |s| && s[k] == token[k]
  {
    if TokenAt(s, token, ci) {
      assert s[..|token|][k] == s[k];
      if ci {
        assert Lower(s[..|token|])[k] == Lower(token)[k];
      }
    }
  }

  /** A token holding a character that `s` lacks never matches in `s` (for `/i`, a non-letter). */
  lemma {:induction false} CaptureNeedsChar(s: string, token: string, cls: char -> bool, ci: bool, k: nat)
    requires k < |token| && token[k] !in s && (ci ==> !('A' <= token[k] <= 'Z') && !('a' <= token[k] <= 'z'))
    ensures Capture(s, token, cls, ci) == None
    decreases |s|
  {
    TokenAtChar(s, token, ci, k);
    if s != [] {
      assert forall c :: c in s[1..] ==> c in s;
      CaptureNeedsChar(s[1..], token, cls, ci, k);
    }
  }

  /* ---------------- is_outdated_browser ---------------- */

  /** The number `preg_match('/<token>(\d+)/')` captures, read as PHP's `(int)` does. */
  function VersionAfter(ua: string, token: string): Option<nat> {
    match Capture(ua, token, IsDigit, false)
    case Some(ds) => Some(DigitsValue(ds))
    case None => None
  }

  /** `is_outdated_browser`: Chrome before 120, Firefox before 115, or Safari's Version before 15. */
  predicate IsOutdatedUa(ua: string) {
    || (VersionAfter(ua, "Chrome/").Some? && VersionAfter(ua, "Chrome/").value < 120)
    || (VersionAfter(ua, "Firefox/").Some? && VersionAfter(ua, "Firefox/").value < 115)
    || (VersionAfter(ua, "Version/").Some? && VersionAfter(ua, "Version/").value < 15)
  }

  /** The User-Agent as `is_outdated_browser` reads it ("" when absent). */
  predicate IsOutdatedBrowser(req: Request) {
    IsOutdatedUa(req.userAgent.GetOr(""))
  }

  /**
   * The Chrome threshold is exact: a User-Agent made of `Chrome/` and a
   * version number is outdated exactly when that number is below 120.
   */
  lemma ChromeThreshold(n: nat)
    ensures IsOutdatedUa("Chrome/" + NatToString(n)) <==> n < 120
  {
    var ua := "Chrome/" + NatToString(n);
    ChromeVersion(n);
    ChromeOnlyToken(NatToString(n));
    CaptureNeedsChar(ua, "Firefox/", IsDigit, false, 0);
    CaptureNeedsChar(ua, "Version/", IsDigit, false, 0);
  }

  lemma ChromeVersion(n: nat)
    ensures VersionAfter("Chrome/" + NatToString(n), "Chrome/") == Some(n)
  {
    var ds := NatToString(n);
    var ua := "Chrome/" + ds;
    assert ua[..7] == "Chrome/";
    assert ua[7..] == ds;
    assert RunOf(ds, IsDigit) == ds;
    assert Capture(ua, "Chrome/", IsDigit, false) == Some(ds);
    NatToStringRoundTrip(n);
  }

  lemma ChromeOnlyToken(ds: string)
    requires AllDigits(ds)
    ensures 'F' !in "Chrome/" + ds && 'V' !in "Chrome/" + ds
  {
    var ua := "Chrome/" + ds;
    forall c | c in ua ensures c != 'F' && c != 'V' {
      var i :| 0 <= i < |ua| && ua[i] == c;
      if i >= 7 {
        assert ua[i] == ds[i - 7];
      }
    }
  }

  /** No User-Agent, no version numbers: a request without the header is never outdated. */
  lemma MissingUserAgentNotOutdated(req: Request)
    requires req.userAgent.None?
    ensures !IsOutdatedBrowser(req)
  {
  }

  /* ---------------- get_browser_details ---------------- */

  const BraveMarker: string := "\"Brave\";v=\""

  /** `preg_match('/"Brave";v="([^"]+)"/', hints)`: the quoted version after the leftmost such marker. */
  function BraveVersion(hints: string): (r: Option<string>)
    ensures r.Some? ==> r.value != [] && '"' !in r.value
    ensures r.Some? ==> Contains(hints, BraveMarker + r.value + "\"")
    decreases |hints|
  {
    var marker := BraveMarker;
    if TokenAt(hints, marker, false) && |marker| < |hints| && NotQuote(hints[|marker|]) then
      var v := RunOf(hints[|marker|..], NotQuote);
      if |marker| + |v| < |hints| then
        assert forall i :: 0 <= i < |v| ==> v[i] != '"';
        assert hints[..|marker| + |v| + 1] == marker + v + "\"" by {
          assert hints[|marker|..][..|v|] == v;
        }
        Some(v)
      else BraveVersion(hints[1..])
    else if hints == [] then None
    else BraveVersion(hints[1..])
  }

  const VersionToken: string := "Version/"
  const LowerVersionToken: string := "version/"
  const SafariWord: string := "safari"

  /**
   * `preg_match('/Version\/([\d\.]+).*Safari/i', ua)`: the version after the
   * leftmost `Version/` that is followed, later on the same line, by `Safari`.
   */
  function SafariVersion(ua: string): (r: Option<string>)
    ensures r.Some? ==> r.value != []
    ensures r.Some? ==> forall i :: 0 <= i < |r.value| ==> DigitOrDot(r.value[i])
    ensures r.Some? ==> Contains(Lower(ua), LowerVersionToken + r.value) && Contains(Lower(ua), SafariWord)
    decreases |ua|, 1
  {
    var token := VersionToken;
    if TokenAt(ua, token, true) && |token| < |ua| && DigitOrDot(ua[|token|]) then
      var v := RunOf(ua[|token|..], DigitOrDot);
      var line := Split(ua[|token| + |v|..], '\n')[0];
      if Contains(Lower(line), SafariWord) then
        SafariEvidence(ua, token, v);
        LineFound(ua, |token| + |v|, SafariWord);
        Some(v)
      else SafariLater(ua)
    else if ua == [] then None
    else SafariLater(ua)
  }

  /** `SafariVersion` one character further on; what it finds there is found in `ua` too. */
  function SafariLater(ua: string): (r: Option<string>)
    requires ua != []
    ensures r == SafariVersion(ua[1..])
    ensures r.Some? ==> Contains(Lower(ua), LowerVersionToken + r.value) && Contains(Lower(ua), SafariWord)
    decreases |ua|, 0
  {
    var r := SafariVersion(ua[1..]);
    if r.Some? then
      ContainsLowerTail(ua, LowerVersionToken + r.value);
      ContainsLowerTail(ua, SafariWord);
      r
    else r
  }

  /** The run of digits and dots after a matched `Version/` puts `version/` and that run in the lowered `ua`. */
  lemma SafariEvidence(ua: string, token: string, v: string)
    requires token == VersionToken && TokenAt(ua, token, true) && |token| < |ua|
    requires v == RunOf(ua[|token|..], DigitOrDot)
    ensures Contains(Lower(ua), LowerVersionToken + v)
  {
    assert Lower(token) == LowerVersionToken;
    DigitsLower(v);
    assert ua[|token|..][..|v|] == v;
    TokenRunFound(ua, token, v);
  }

  /** Digits and dots have no case. */
  lemma DigitsLower(v: string)
    requires forall i :: 0 <= i < |v| ==> DigitOrDot(v[i])
    ensures Lower(v) == v
  {
  }

  /** A case-insensitive `tok` at the start of `ua`, followed by a caseless `v`, puts `lower(tok) + v` in the lowered `ua`. */
  lemma TokenRunFound(ua: string, tok: string, v: string)
    requires TokenAt(ua, tok, true) && |tok| + |v| <= |ua| && ua[|tok|..][..|v|] == v && Lower(v) == v
    ensures Contains(Lower(ua), Lower(tok) + v)
  {
    var x := Lower(ua);
    LowerSlice(ua, 0, |tok|);
    assert ua[0..|tok|] == ua[..|tok|] && x[0..|tok|] == x[..|tok|];
    LowerSlice(ua, |tok|, |tok| + |v|);
    assert ua[|tok|..|tok| + |v|] == ua[|tok|..][..|v|];
    StartsWithJoin(x, Lower(tok), v);
  }

  /** A string that starts with `a` and continues with `b` contains `a + b`. */
  lemma StartsWithJoin(x: string, a: string, b: string)
    requires |a| + |b| <= |x| && x[..|a|] == a && x[|a|..|a| + |b|] == b
    ensures Contains(x, a + b)
  {
    assert x[..|a + b|] == a + b;
  }

  /** What is found on the first line of `ua[k..]` is found in `ua`. */
  lemma LineFound(ua: string, k: nat, w: string)
    requires k <= |ua| && Contains(Lower(Split(ua[k..], '\n')[0]), w)
    ensures Contains(Lower(ua), w)
  {
    var line := Split(ua[k..], '\n')[0];
    SplitFirstIsPrefix(ua[k..], '\n');
    assert line == ua[k..k + |line|];
    ContainsLowerSlice(ua, k, k + |line|, w);
  }

  /** The name and version `get_browser_details` settles on, before they are joined and trimmed. */
  datatype Label = Label(name: string, version: string)

  const UnknownUa: string := "Unknown UA"

  function BrowserLabel(userAgent: Option<string>, clientHints: Option<string>): Label {
    LabelOf(userAgent.GetOr(UnknownUa), clientHints.GetOr(""))
  }

  /** The label for the User-Agent string and client hints, once absent headers are defaulted. */
  function LabelOf(ua: string, hints: string): Label {
    if Truthy(hints) && Contains(hints, "Brave") then Label("Brave", BraveVersion(hints).GetOr("N/A"))
    else if Capture(ua, "Edge/", DigitOrDot, true).Some? then Label("Edge", Capture(ua, "Edge/", DigitOrDot, true).value)
    else if Capture(ua, "Chrome/", DigitOrDot, true).Some? then Label("Chrome", Capture(ua, "Chrome/", DigitOrDot, true).value)
    else if Capture(ua, "Firefox/", DigitOrDot, true).Some? then Label("Firefox", Capture(ua, "Firefox/", DigitOrDot, true).value)
    else if SafariVersion(ua).Some? then Label("Safari", SafariVersion(ua).value)
    else if ua != UnknownUa then Label(Split(ua, ' ')[0], "N/A")
    else Label("Unknown", "N/A")
  }

  /** `get_browser_details`: `trim("$name $version")`. */
  function BrowserDetails(req: Request): (d: string)
    ensures |d| <= |BrowserLabel(req.userAgent, req.clientHints).name| + 1 + |BrowserLabel(req.userAgent, req.clientHints).version|
    ensures d == [] || (!IsTrimChar(d[0]) && !IsTrimChar(d[|d| - 1]))
    ensures var l := BrowserLabel(req.userAgent, req.clientHints);
      CleanEnds(l.name) && CleanEnds(l.version) ==> d == l.name + " " + l.version
  {
    var l := BrowserLabel(req.userAgent, req.clientHints);
    TrimJoined(l.name, l.version);
    Trim(l.name + " " + l.version)
  }

  /** A non-empty string with nothing to trim at either end. */
  predicate CleanEnds(s: string) {
    s != [] && !IsTrimChar(s[0]) && !IsTrimChar(s[|s| - 1])
  }

  /** Joining two such strings with a space leaves nothing to trim. */
  lemma TrimJoined(name: string, version: string)
    ensures CleanEnds(name) && CleanEnds(version) ==> Trim(name + " " + version) == name + " " + version
  {
    if CleanEnds(name) && CleanEnds(version) {
      var s := name + " " + version;
      assert s[0] == name[0] && s[|s| - 1] == version[|version| - 1];
      TrimUnchanged(s);
    }
  }

  /** A name with nothing to trim at its start survives the final `trim` as the leading part. */
  lemma TrimKeepsName(name: string, version: string)
    requires name != [] && !IsTrimChar(name[0]) && !IsTrimChar(name[|name| - 1])
    ensures StartsWith(Trim(name + " " + version), name)
  {
    var s := name + " " + version;
    assert s[0] == name[0];
    assert KeptFrom(s, 0) == 0;
    assert s[|name| - 1] == name[|name| - 1];
    var r := Trim(s);
    assert |r| >= |name|;
    assert s[..|name|] == name;
    assert r[..|name|] == s[..|name|];
  }

  /** A Brave client hint outranks everything the User-Agent says. */
  lemma BraveHintFirst(req: Request)
    requires req.clientHints.Some? && Truthy(req.clientHints.value) && Contains(req.clientHints.value, "Brave")
    ensures StartsWith(BrowserDetails(req), "Brave")
  {
    TrimKeepsName("Brave", BrowserLabel(req.userAgent, req.clientHints).version);
  }

  /** An Edge token outranks Chrome, Firefox and Safari tokens in the same User-Agent. */
  lemma EdgeBeforeOthers(req: Request)
    requires !(req.clientHints.Some? && Truthy(req.clientHints.value) && Contains(req.clientHints.value, "Brave"))
    requires Capture(req.userAgent.GetOr(UnknownUa), "Edge/", DigitOrDot, true).Some?
    ensures StartsWith(BrowserDetails(req), "Edge")
  {
    TrimKeepsName("Edge", BrowserLabel(req.userAgent, req.clientHints).version);
  }

  lemma MissingUserAgentLabel(userAgent: Option<string>, clientHints: Option<string>)
    requires userAgent.None?
    requires !(clientHints.Some? && Truthy(clientHints.value) && Contains(clientHints.value, "Brave"))
    ensures BrowserLabel(userAgent, clientHints) == Label("Unknown", "N/A")
  {
    assert '/' !in UnknownUa;
    LabelWithoutSlash(UnknownUa, clientHints.GetOr(""));
  }

  /** Without a '/' no version token matches, so only the hint or the first word can name the browser. */
  lemma LabelWithoutSlash(ua: string, hints: string)
    requires '/' !in ua && !(Truthy(hints) && Contains(hints, "Brave"))
    ensures LabelOf(ua, hints) == if ua != UnknownUa then Label(Split(ua, ' ')[0], "N/A") else Label("Unknown", "N/A")
  {
    CaptureNeedsChar(ua, "Edge/", DigitOrDot, true, 4);
    CaptureNeedsChar(ua, "Chrome/", DigitOrDot, true, 6);
    CaptureNeedsChar(ua, "Firefox/", DigitOrDot, true, 7);
    SafariNeedsSlash(ua);
  }

  /** Without a User-Agent and without a Brave hint the label is "Unknown N/A". */
  lemma MissingUserAgentDetails(req: Request)
    requires req.userAgent.None?
    requires !(req.clientHints.Some? && Truthy(req.clientHints.value) && Contains(req.clientHints.value, "Brave"))
    ensures BrowserDetails(req) == "Unknown N/A"
  {
    MissingUserAgentLabel(req.userAgent, req.clientHints);
    var l := BrowserLabel(req.userAgent, req.clientHints);
    JoinedUnknown(l);
  }

  lemma JoinedUnknown(l: Label)
    requires l == Label("Unknown", "N/A")
    ensures Trim(l.name + " " + l.version) == "Unknown N/A"
  {
    var s := l.name + " " + l.version;
    assert s == "Unknown N/A";
    TrimUnchanged(s);
  }

  lemma {:induction false} SafariNeedsSlash(ua: string)
    requires '/' !in ua
    ensures SafariVersion(ua) == None
    decreases |ua|
  {
    TokenAtChar(ua, "Version/", true, 7);
    if ua != [] {
      assert forall c :: c in ua[1..] ==> c in ua;
      SafariNeedsSlash(ua[1..]);
    }
  }

  /* ---------------- is_whitelisted_browser ---------------- */

  /** `array_map('trim', ...)`. */
  function TrimAll(parts: seq<string>): (entries: seq<string>)
    ensures |entries| == |parts|
    ensures forall i :: 0 <= i < |parts| ==> entries[i] == Trim(parts[i])
  {
    if parts == [] then [] else [Trim(parts[0])] + TrimAll(parts[1..])
  }

  /** The trimmed entries of the comma-separated browser list. */
  function BrowserEntries(list: string): seq<string> {
    TrimAll(Split(list, ','))
  }

  /** A list entry that is not empty and occurs in the lower-cased User-Agent. */
  predicate EntryMatches(uaLower: string, entry: string) {
    Truthy(entry) && Contains(uaLower, Lower(entry))
  }

  /** Some entry of the list matches. */
  predicate AnyEntryMatches(uaLower: string, entries: seq<string>) {
    exists i :: 0 <= i < |entries| && EntryMatches(uaLower, entries[i])
  }

  /** Some entry matches the User-Agent ("" when absent). */
  predicate IsWhitelistedBrowserUa(list: string, userAgent: Option<string>) {
    AnyEntryMatches(Lower(userAgent.GetOr("")), BrowserEntries(list))
  }

  /** The `foreach` of `is_whitelisted_browser`: stop at the first matching entry. */
  method MatchEntries(uaLower: string, entries: seq<string>) returns (found: bool)
    ensures found <==> AnyEntryMatches(uaLower, entries)
  {
    var i := 0;
    while i < |entries|
      invariant 0 <= i <= |entries|
      invariant forall j :: 0 <= j < i ==> !EntryMatches(uaLower, entries[j])
    {
      if EntryMatches(uaLower, entries[i]) {
        return true;
      }
      i := i + 1;
    }
    return false;
  }

  /** `is_whitelisted_browser`: lower-case the User-Agent, split and trim the list, then scan it. */
  method IsWhitelistedBrowser(list: string, userAgent: Option<string>) returns (found: bool)
    ensures found <==> IsWhitelistedBrowserUa(list, userAgent)
  {
    var uaLower := Lower(userAgent.GetOr(""));
    var entries := BrowserEntries(list);
    found := MatchEntries(uaLower, entries);
  }

  lemma LowerOfLowercase(s: string)
    requires forall i :: 0 <= i < |s| ==> !('A' <= s[i] <= 'Z')
    ensures Lower(s) == s
  {
  }

  lemma DefaultListSplit(list: string)
    requires list == DefaultSettings().whitelistedBrowsers
    ensures Split(list, ',') == ["brave", "firefox"]
  {
    assert list == "brave" + [','] + "firefox";
    TwoPieces("brave", ',', "firefox");
  }

  lemma TwoPieces(a: string, sep: char, b: string)
    requires sep !in a && sep !in b
    ensures Split(a + [sep] + b, sep) == [a, b]
  {
    SplitNoSeparator(b, sep);
    SplitAfterPiece(a, sep, b);
  }

  lemma DefaultListSecondEntry(list: string)
    requires Split(list, ',') == ["brave", "firefox"]
    ensures |BrowserEntries(list)| == 2 && BrowserEntries(list)[1] == "firefox"
  {
    var parts := Split(list, ',');
    var entries := TrimAll(parts);
    assert entries[1] == Trim(parts[1]);
    assert Trim("firefox") == "firefox" by { TrimUnchanged("firefox"); }
  }

  /**
   * With the default list "brave,firefox", a User-Agent naming Firefox in any
   * letter case skips the JavaScript check.
   */
  lemma DefaultListAcceptsFirefox(list: string, ua: string)
    requires list == DefaultSettings().whitelistedBrowsers
    requires Contains(Lower(ua), "firefox")
    ensures IsWhitelistedBrowserUa(list, Some(ua))
  {
    DefaultListSplit(list);
    DefaultListSecondEntry(list);
    FirefoxEntryMatches(BrowserEntries(list), ua);
  }

  lemma FirefoxEntryMatches(entries: seq<string>, ua: string)
    requires |entries| == 2 && entries[1] == "firefox"
    requires Contains(Lower(ua), "firefox")
    ensures AnyEntryMatches(Lower(ua), entries)
  {
    LowerOfLowercase(entries[1]);
    assert EntryMatches(Lower(ua), entries[1]);
  }

  /** An entry that is empty after trimming never matches, although the empty needle is found everywhere. */
  lemma BlankEntriesIgnored(userAgent: Option<string>)
    ensures !IsWhitelistedBrowserUa(" , ", userAgent)
  {
    var list := " , ";
    assert list == " " + [','] + " ";
    SplitNoSeparator(" ", ',');
    SplitAfterPiece(" ", ',', " ");
    assert Trim(" ") == "" by {
      assert KeptFrom(" ", 0) == 1;
    }
    assert BrowserEntries(list) == ["", ""];
  }
}

=== FILE: config.dfy ===
/**
 * What every layer reads but never changes: the settings snapshot returned by
 * `get_settings`, the foreign WordPress/PHP functions the core calls, the
 * incoming request, and the two request-level queries of the core class
 * (`get_client_ip` and `is_whitelisted_bot`).
 */
module Config {
  import opened Wrappers
  import opened Text
  import opened Transients

  /** The settings array, one field per key the core reads. */
  datatype Settings = Settings(
    banHours: int,
    rateLimit: int,
    testMode: bool,
    enableJsCheck: bool,
    enableRateLimit: bool,
    enableTrap: bool,
    enableOutdatedBrowserCheck: bool,
    blockMode: string,
    whitelistedBrowsers: string,
    enableGeoQuiz: bool,
    geoQuizCountries: string,
    honeypotUrl: string,
    enableBlockPage: bool,
    ipWhitelist: Option<string>)

  const HourInSeconds: int := 3600
  const QuizBlockMode: string := "quiz"

  /** The defaults `get_settings` falls back to when no option is stored. */
  function DefaultSettings(): Settings {
    Settings(
      banHours := 6, rateLimit := 80, testMode := false,
      enableJsCheck := true, enableRateLimit := true, enableTrap := true,
      enableOutdatedBrowserCheck := true, blockMode := "standard",
      whitelistedBrowsers := "brave,firefox", enableGeoQuiz := false,
      geoQuizCountries := "", honeypotUrl := "bot-trap",
      enableBlockPage := false, ipWhitelist := None)
  }

  /** The default `ip_whitelist` text: PayPal and Stripe webhook ranges. Nothing in the core reads it. */
  const DefaultIpWhitelist: string :=
    "# PayPal Webhook & IPN IPs\n64.4.240.0/21\n64.4.248.0/22\n66.211.168.0/22\n"
    + "91.243.72.0/23\n173.0.80.0/20\n185.177.52.0/22\n192.160.215.0/24\n198.54.216.0/23\n\n"
    + "# Stripe Webhook IPs\n54.187.174.169\n54.187.205.235\n54.187.216.72\n"
    + "# Note: Stripe IPs can change; signature verification is recommended."

  /**
   * `get_settings`: the stored option if there is one, else the defaults; in
   * both cases an unset `ip_whitelist` is filled with the default text.
   */
  function GetSettings(stored: Option<Settings>): (s: Settings)
    ensures s.ipWhitelist.Some?
    ensures stored.Some? ==> s.(ipWhitelist := stored.value.ipWhitelist) == stored.value
    ensures stored.Some? && stored.value.ipWhitelist.Some? ==> s == stored.value
    ensures stored.Some? && stored.value.ipWhitelist.None? ==> s.ipWhitelist == Some(DefaultIpWhitelist)
    ensures stored.None? ==> s == DefaultSettings().(ipWhitelist := Some(DefaultIpWhitelist))
    ensures stored.None? ==> s.banHours == 6 && s.rateLimit == 80 && !s.testMode
    ensures stored.None? ==> s.enableJsCheck && s.enableRateLimit && s.enableTrap && s.enableOutdatedBrowserCheck
    ensures stored.None? ==> s.blockMode == "standard" && s.honeypotUrl == "bot-trap" && !s.enableBlockPage
    ensures stored.None? ==> s.whitelistedBrowsers == "brave,firefox" && !s.enableGeoQuiz && s.geoQuizCountries == ""
  {
    var base := stored.GetOr(DefaultSettings());
    if base.ipWhitelist.None? then base.(ipWhitelist := Some(DefaultIpWhitelist)) else base
  }

  /** The WordPress and PHP functions the core calls but does not define. */
  datatype Host = Host(
    validIp: string -> bool,               // filter_var($s, FILTER_VALIDATE_IP)
    sanitizeTitle: string -> string,       // sanitize_title
    sanitizeText: string -> string,        // sanitize_text_field
    verifyNonce: (string, string) -> bool, // wp_verify_nonce($nonce, $action)
    toInt: string -> int,                  // PHP's (int) cast of a request string
    hourToken: int -> string,              // wp_hash(gmdate('Y-m-d H')) for an hour number
    remoteAddress: Option<string>,         // wp_get_remote_address(), when the host defines it
    templatePresent: bool)                 // file_exists(templates/blocked.php)

  /** The parts of one HTTP request the core reads. A header that was not sent is None. */
  datatype Request = Request(
    httpMethod: string,
    uri: string,
    clientIpHeader: Option<string>,    // HTTP_CLIENT_IP
    forwardedFor: Option<string>,      // HTTP_X_FORWARDED_FOR
    remoteAddr: Option<string>,        // REMOTE_ADDR
    userAgent: Option<string>,         // HTTP_USER_AGENT
    clientHints: Option<string>,       // HTTP_SEC_CH_UA
    jsCookie: Option<string>,          // $_COOKIE['sbt_verified']
    loggedIn: bool,                    // is_user_logged_in()
    quizAnswer: Option<string>,        // $_POST['sbt_quiz_answer']
    quizNonce: Option<string>)         // $_POST['sbt_quiz_nonce']

  /** `!empty($_SERVER[...])`. */
  predicate HeaderSet(h: Option<string>) {
    h.Some? && Truthy(h.value)
  }

  /** The address `get_client_ip` picks before validating it. */
  function IpCandidate(req: Request): string {
    if HeaderSet(req.clientIpHeader) then req.clientIpHeader.value
    else if HeaderSet(req.forwardedFor) then Trim(Split(req.forwardedFor.value, ',')[0])
    else if HeaderSet(req.remoteAddr) then req.remoteAddr.value
    else "0.0.0.0"
  }

  /**
   * `get_client_ip`: the host's own answer when it provides one; otherwise the
   * first non-empty of Client-IP, the first X-Forwarded-For entry (trimmed) and
   * REMOTE_ADDR, kept only if it is a valid IP address.
   */
  function ClientIp(host: Host, req: Request): (ip: Ip)
    ensures host.remoteAddress.None? ==> ip == "0.0.0.0" || host.validIp(ip)
    ensures host.remoteAddress.Some? ==> ip == host.remoteAddress.value
  {
    if host.remoteAddress.Some? then host.remoteAddress.value
    else
      var candidate := IpCandidate(req);
      if host.validIp(candidate) then candidate else "0.0.0.0"
  }

  /**
   * The sources are tried in a fixed order, and a set but invalid earlier
   * source yields "0.0.0.0" rather than falling through to a later one.
   */
  lemma ClientIpSourceOrder(host: Host, req: Request)
    requires host.remoteAddress.None?
    ensures HeaderSet(req.clientIpHeader) ==>
      ClientIp(host, req) == (if host.validIp(req.clientIpHeader.value) then req.clientIpHeader.value else "0.0.0.0")
    ensures !HeaderSet(req.clientIpHeader) && HeaderSet(req.forwardedFor) ==>
      var first := Split(req.forwardedFor.value, ',')[0];
      && StartsWith(req.forwardedFor.value, first) && ',' !in first
      && ClientIp(host, req) == (if host.validIp(Trim(first)) then Trim(first) else "0.0.0.0")
    ensures !HeaderSet(req.clientIpHeader) && !HeaderSet(req.forwardedFor) && HeaderSet(req.remoteAddr) ==>
      ClientIp(host, req) == (if host.validIp(req.remoteAddr.value) then req.remoteAddr.value else "0.0.0.0")
    ensures !HeaderSet(req.clientIpHeader) && !HeaderSet(req.forwardedFor) && !HeaderSet(req.remoteAddr) ==>
      ClientIp(host, req) == "0.0.0.0"
  {
    if HeaderSet(req.forwardedFor) {
      SplitFirstIsPrefix(req.forwardedFor.value, ',');
    }
  }

  /* ---------------- is_whitelisted_bot ---------------- */

  /** The crawler tokens `is_whitelisted_bot` accepts, all lower case. */
  const WhitelistedBots: seq<string> := [
    "googlebot", "bingbot", "yandexbot", "slurp", "duckduckbot",
    "baiduspider", "sogou", "exabot", "facebookexternalhit",
    "twitterbot", "linkedinbot", "whatsapp", "slotovod"]

  /** The User-Agent as `is_whitelisted_bot` sees it: lower-cased, "" when absent. */
  function BotUa(userAgent: Option<string>): string {
    Lower(userAgent.GetOr(""))
  }

  /** Some crawler token occurs in the lower-cased User-Agent. */
  predicate IsWhitelistedBotUa(userAgent: Option<string>) {
    exists i :: 0 <= i < |WhitelistedBots| && Contains(BotUa(userAgent), WhitelistedBots[i])
  }

  /** `is_whitelisted_bot`: the loop over the token list with early return. */
  method IsWhitelistedBot(userAgent: Option<string>) returns (found: bool)
    ensures found <==> IsWhitelistedBotUa(userAgent)
  {
    var ua := BotUa(userAgent);
    var i := 0;
    while i < |WhitelistedBots|
      invariant 0 <= i <= |WhitelistedBots|
      invariant forall j :: 0 <= j < i ==> !Contains(ua, WhitelistedBots[j])
    {
      if Contains(ua, WhitelistedBots[i]) {
        return true;
      }
      i := i + 1;
    }
    return false;
  }

  lemma {:induction false} LowerConcat(a: string, b: string)
    ensures Lower(a + b) == Lower(a) + Lower(b)
  {
    var l, r := Lower(a + b), Lower(a) + Lower(b);
    assert |l| == |r|;
    assert forall i :: 0 <= i < |l| ==> l[i] == r[i] by {
      forall i | 0 <= i < |l| ensures l[i] == r[i] {
        if i < |a| {
          assert l[i] == LowerChar(a[i]) == r[i];
        } else {
          assert l[i] == LowerChar(b[i - |a|]) == r[i];
        }
      }
    }
  }

  /**
   * The exemption is case-insensitive and positional-free: a crawler token
   * written in any letter case anywhere in the User-Agent exempts the request.
   */
  lemma CrawlerTokenAnywhereExempts(before: string, token: string, after: string, i: nat)
    requires i < |WhitelistedBots| && Lower(token) == WhitelistedBots[i]
    ensures IsWhitelistedBotUa(Some(before + token + after))
  {
    LowerConcat(before + token, after);
    LowerConcat(before, token);
    ContainsMiddle(Lower(before), Lower(token), Lower(after));
  }

  /** Without a User-Agent header no request is taken for a crawler. */
  lemma MissingUserAgentIsNoBot()
    ensures !IsWhitelistedBotUa(None)
  {
    forall i | 0 <= i < |WhitelistedBots| ensures !Contains(BotUa(None), WhitelistedBots[i]) {
      assert BotUa(None) == "";
      assert !StartsWith("", WhitelistedBots[i]);
    }
  }
}

=== FILE: core.dfy ===
/**
 * The core class `SBT_Stealth_Bot_Trap` as an object over the store: the two
 * tables, the transient cache and the clock are its fields, and each public
 * operation changes them as the matching function of `BanStore` says.
 */
module Core {
  import opened Wrappers
  import opened Transients
  import opened Config
  import opened Seqs
  import opened BanStore

  class BotTrap {
    var bans: seq<BanRow>
    var fingerprints: seq<FingerprintRow>
    var cache: Cache
    var now: int
    /** What `get_settings` returns during this request. */
    const settings: Settings
    const host: Host

    function Abs(): State
      reads this
    {
      State(bans, fingerprints, cache, now)
    }

    constructor (init: State, settings: Settings, host: Host)
      ensures Abs() == init && this.settings == settings && this.host == host
    {
      bans := init.bans;
      fingerprints := init.fingerprints;
      cache := init.cache;
      now := init.now;
      this.settings := settings;
      this.host := host;
    }

    /** `is_banned` for the requesting client: the flag first, then the log table. */
    method IsBannedClient(req: Request) returns (banned: bool)
      ensures banned <==> IsBanned(Abs(), ClientIp(host, req))
    {
      var ip := ClientIp(host, req);
      if IsSet(cache, BanFlag(ip), now) {
        return true;
      }
      banned := HasActiveRow(bans, ip, now);
    }

    /** `get_or_create_quiz` for the requesting client. */
    method GetOrCreateQuiz(req: Request, roll: QuizRoll) returns (quiz: Quiz)
      modifies this
      ensures QuizStep(Abs(), quiz) == BanStore.GetOrCreateQuiz(old(Abs()), ClientIp(host, req), roll)
    {
      var ip := ClientIp(host, req);
      var stored := StoredQuiz(cache, ip, now);
      if stored.Some? {
        return stored.value;
      }
      quiz := NewQuiz(roll);
      cache := Set(cache, QuizData(ip), QuizRecord(quiz), QuizTtl, now);
    }

    /** `ban_ip($reason)` for the requesting client. */
    method BanIp(req: Request, reason: string, roll: QuizRoll)
      modifies this
      ensures Abs() == Ban(old(Abs()), settings, ClientIp(host, req), reason, roll)
    {
      var ip := ClientIp(host, req);
      var banned := IsBannedClient(req);
      if banned || settings.testMode {
        return;
      }
      bans := bans + [BanRow(ip, reason, now, now + BanSeconds(settings))];
      cache := Set(cache, BanFlag(ip), Flag, BanSeconds(settings), now);
      if settings.blockMode == QuizBlockMode {
        var _ := GetOrCreateQuiz(req, roll);
      }
    }

    /** `unban_ip($ip)`: delete the IP's log rows, then its ban flag. */
    method UnbanIp(ip: Ip)
      modifies this
      ensures Abs() == Unban(old(Abs()), ip)
    {
      bans := Filter(bans, NotFor(ip));
      cache := Delete(cache, BanFlag(ip));
    }

    /** `unblock_current_ip`: `unban_ip` for the requesting client. */
    method UnblockCurrentIp(req: Request)
      modifies this
      ensures Abs() == Unban(old(Abs()), ClientIp(host, req))
    {
      UnbanIp(ClientIp(host, req));
    }

    /** `record_fingerprint($extra)` for the requesting client. */
    method RecordFingerprint(req: Request, extra: string)
      modifies this
      ensures Abs() == BanStore.RecordFingerprint(old(Abs()), ClientIp(host, req), req, extra)
    {
      var ip := ClientIp(host, req);
      var fp := FingerprintOf(ip, req, extra);
      var existing := FindFingerprint(fingerprints, ip, fp, 0);
      if existing.Some? {
        var i := existing.value;
        fingerprints := fingerprints[i := fingerprints[i].(requestCount := fingerprints[i].requestCount + 1, lastSeen := now)];
      } else {
        fingerprints := fingerprints + [FingerprintRow(ip, fp, req.userAgent.GetOr("unknown"), 1, now)];
      }
    }

    /** `cleanup_old_entries`. */
    method CleanupOldEntries()
      modifies this
      ensures Abs() == Sweep(old(Abs()))
    {
      bans := Filter(bans, Unexpired(now));
      fingerprints := Filter(fingerprints, SeenWithinDay(now));
    }

    /** `handle_quiz_submission`. */
    method HandleQuizSubmission(req: Request) returns (result: Submission)
      modifies this
      ensures SubmissionStep(Abs(), result) == QuizSubmission(old(Abs()), settings, host, req, ClientIp(host, req))
    {
      if req.httpMethod != "POST" || req.quizAnswer.None? {
        return NotHandled;
      }
      if req.quizNonce.None? || !host.verifyNonce(req.quizNonce.value, QuizNonceAction) {
        return NotHandled;
      }
      var ip := ClientIp(host, req);
      var quiz := StoredQuiz(cache, ip, now);
      if quiz.None? {
        return NotHandled;
      }
      if host.toInt(req.quizAnswer.value) == quiz.value.expected {
        UnblockCurrentIp(req);
        cache := Delete(cache, QuizData(ip));
        cache := Set(cache, GeoQuizPassed(ip), Flag, BanSeconds(settings), now);
        result := Solved;
      } else {
        cache := Delete(cache, QuizData(ip));
        result := Failed;
      }
    }
  }
}

=== FILE: dashboard.dfy ===
/**
 * The figures of `SBT_Admin_Dashboard`: the label each ban reason is counted
 * under, the per-label breakdown of active bans, the top-three slice the
 * summary shows, and the text for the next scheduled cleanup.
 */
module Dashboard {
  import opened Wrappers
  import opened Text
  import opened Seqs
  import opened Config
  import opened Browser
  import opened Layers

  /* ---------------- get_reason_label ---------------- */

  const Labels: seq<string> := ["Rate limit", "Trap", "JS", "Browser", "Geo", "Other"]

  /** `get_reason_label`: the first keyword found in the reason names its label. */
  function ReasonLabel(reason: string): string {
    if Contains(reason, "Rate limit") then "Rate limit"
    else if Contains(reason, "Hidden trap") then "Trap"
    else if Contains(reason, "No valid JS") then "JS"
    else if Contains(reason, "Outdated browser") then "Browser"
    else if Contains(reason, "Geo-based") then "Geo"
    else "Other"
  }

  /**
   * The label is one of the six; a reason mentioning a rate limit is always
   * counted as one; and "Other" is exactly the reasons with none of the keywords.
   */
  lemma ReasonLabelFacts(reason: string)
    ensures ReasonLabel(reason) in Labels
    ensures Contains(reason, "Rate limit") ==> ReasonLabel(reason) == "Rate limit"
    ensures ReasonLabel(reason) == "Other" <==>
      !Contains(reason, "Rate limit") && !Contains(reason, "Hidden trap") && !Contains(reason, "No valid JS")
      && !Contains(reason, "Outdated browser") && !Contains(reason, "Geo-based")
  {
  }

  lemma StartsContains(s: string, p: string)
    requires StartsWith(s, p)
    ensures Contains(s, p)
  {
  }

  lemma PrefixStarts(p: string, rest: string)
    ensures StartsWith(p + rest, p)
  {
    assert (p + rest)[..|p|] == p;
  }

  /** A rate-limit ban is always counted as "Rate limit". */
  lemma RateReasonLabelled(count: int)
    ensures ReasonLabel(RateReason(count)) == "Rate limit"
  {
    var x := IntToString(count);
    assert "Rate limit exceeded (" == "Rate limit" + " exceeded (";
    Regroup("Rate limit", " exceeded (", x, "/min)");
    RateLimitFirst(" exceeded (" + x + "/min)");
  }

  lemma Regroup(a: string, b: string, x: string, c: string)
    ensures (a + b) + x + c == a + (b + x + c)
  {
  }

  lemma RateLimitFirst(rest: string)
    ensures ReasonLabel("Rate limit" + rest) == "Rate limit"
  {
    PrefixStarts("Rate limit", rest);
    ReasonLabelFacts("Rate limit" + rest);
  }

  lemma TrapReasonLabelled(slug: string)
    ensures ReasonLabel(TrapReason(slug)) != "Other"
  {
    assert "Hidden trap URL accessed (" == "Hidden trap" + " URL accessed (";
    Regroup("Hidden trap", " URL accessed (", slug, ")");
    KeywordFirst("Hidden trap", " URL accessed (" + slug + ")");
  }

  lemma JsReasonLabelled(req: Request)
    ensures ReasonLabel(JsReason(req)) != "Other"
  {
    JsDetailsLabelled(BrowserDetails(req));
  }

  lemma JsDetailsLabelled(details: string)
    ensures ReasonLabel("No valid JS verification (" + details + ")") != "Other"
  {
    assert "No valid JS verification (" == "No valid JS" + " verification (";
    Regroup("No valid JS", " verification (", details, ")");
    KeywordFirst("No valid JS", " verification (" + details + ")");
  }

  lemma OutdatedReasonLabelled(req: Request)
    ensures ReasonLabel(OutdatedReason(req)) != "Other"
  {
    OutdatedDetailsLabelled(BrowserDetails(req));
  }

  lemma OutdatedDetailsLabelled(details: string)
    ensures ReasonLabel("Outdated browser detected (" + details + ")") != "Other"
  {
    assert "Outdated browser detected (" == "Outdated browser" + " detected (";
    Regroup("Outdated browser", " detected (", details, ")");
    KeywordFirst("Outdated browser", " detected (" + details + ")");
  }

  lemma GeoReasonLabelled(country: string)
    ensures ReasonLabel(GeoReason(country)) != "Other"
  {
    assert "Geo-based quiz required (Country: " == "Geo-based" + " quiz required (Country: ";
    Regroup("Geo-based", " quiz required (Country: ", country, ")");
    KeywordFirst("Geo-based", " quiz required (Country: " + country + ")");
  }

  /** A reason that starts with one of the five keywords is never "Other". */
  lemma KeywordFirst(keyword: string, rest: string)
    requires keyword in ["Rate limit", "Hidden trap", "No valid JS", "Outdated browser", "Geo-based"]
    ensures ReasonLabel(keyword + rest) != "Other"
  {
    PrefixStarts(keyword, rest);
    StartsContains(keyword + rest, keyword);
    ReasonLabelFacts(keyword + rest);
  }

  /* ---------------- get_ban_breakdown_grouped ---------------- */

  /** One row of `SELECT reason, COUNT(*) ... GROUP BY reason`. */
  datatype ReasonCount = ReasonCount(reason: string, count: nat)

  /** One entry of the `$grouped` array: a label and the bans counted under it. */
  datatype LabelCount = LabelCount(category: string, count: int)

  function RowCount(r: ReasonCount): int {
    r.count
  }

  function LabelCountOf(p: LabelCount): int {
    p.count
  }

  /** Each row with its reason replaced by the reason's label. */
  function LabelRows(rows: seq<ReasonCount>): (ps: seq<LabelCount>)
    ensures |ps| == |rows|
    ensures forall i :: 0 <= i < |rows| ==> ps[i] == LabelCount(ReasonLabel(rows[i].reason), rows[i].count)
    ensures SumBy(ps, LabelCountOf) == SumBy(rows, RowCount)
  {
    if rows == [] then [] else [LabelCount(ReasonLabel(rows[0].reason), rows[0].count)] + LabelRows(rows[1..])
  }

  /** Some entry carries the label. */
  predicate HasCategory(g: seq<LabelCount>, category: string) {
    exists i :: 0 <= i < |g| && g[i].category == category
  }

  predicate UniqueLabels(g: seq<LabelCount>) {
    forall i, j :: 0 <= i < j < |g| ==> g[i].category != g[j].category
  }

  /** `isset($grouped[$label])`: where the label sits in the array, if it is there. */
  function FindLabel(g: seq<LabelCount>, category: string): (k: Option<nat>)
    ensures k.Some? ==> k.value < |g| && g[k.value].category == category
    ensures k.None? <==> !HasCategory(g, category)
  {
    if g == [] then None
    else if g[|g| - 1].category == category then Some(|g| - 1)
    else
      var k := FindLabel(g[..|g| - 1], category);
      assert HasCategory(g, category) ==> HasCategory(g[..|g| - 1], category) by {
        if HasCategory(g, category) {
          var i :| 0 <= i < |g| && g[i].category == category;
          assert g[..|g| - 1][i] == g[i];
        }
      }
      k
  }

  /** `if (!isset($grouped[$label])) $grouped[$label] = 0;` */
  function StartLabel(g: seq<LabelCount>, category: string): (s: seq<LabelCount>)
    ensures HasCategory(s, category)
    ensures forall c :: HasCategory(s, c) <==> c == category || HasCategory(g, c)
    ensures SumBy(s, LabelCountOf) == SumBy(g, LabelCountOf)
    ensures UniqueLabels(g) ==> UniqueLabels(s)
  {
    StartLabelFacts(g, category);
    if FindLabel(g, category).None? then g + [LabelCount(category, 0)] else g
  }

  lemma StartLabelFacts(g: seq<LabelCount>, category: string)
    ensures FindLabel(g, category).None? ==>
      var s := g + [LabelCount(category, 0)];
      && HasCategory(s, category)
      && (forall c :: HasCategory(s, c) <==> c == category || HasCategory(g, c))
      && SumBy(s, LabelCountOf) == SumBy(g, LabelCountOf)
      && (UniqueLabels(g) ==> UniqueLabels(s))
  {
    var found := FindLabel(g, category);
    if found.None? {
      var s := g + [LabelCount(category, 0)];
      SumByAppend(g, LabelCount(category, 0), LabelCountOf);
      HasCategoryLast(s);
      assert s[..|s| - 1] == g;
    }
  }

  /** `$grouped[$label] += $count` at the entry's index. */
  function AddAt(s: seq<LabelCount>, k: nat, n: int): (s': seq<LabelCount>)
    requires k < |s|
    ensures |s'| == |s| && s'[k].category == s[k].category && s'[k].count == s[k].count + n
    ensures forall c :: HasCategory(s', c) <==> HasCategory(s, c)
    ensures SumBy(s', LabelCountOf) == SumBy(s, LabelCountOf) + n
    ensures UniqueLabels(s) ==> UniqueLabels(s')
  {
    SumByUpdate(s, k, s[k].(count := s[k].count + n), LabelCountOf);
    SameCategories(s, s[k := s[k].(count := s[k].count + n)]);
    s[k := s[k].(count := s[k].count + n)]
  }

  lemma AddAtUnfold(s: seq<LabelCount>, k: nat, n: int)
    requires k < |s|
    ensures AddAt(s, k, n) == s[k := s[k].(count := s[k].count + n)]
  {
  }

  lemma AccumulateUnfold(g: seq<LabelCount>, p: LabelCount)
    requires UniqueLabels(g)
    ensures Accumulate(g, p) == AddAt(StartLabel(g, p.category), FindLabel(StartLabel(g, p.category), p.category).value, p.count)
  {
  }

  /** Two arrays with the same label at every index hold the same labels. */
  lemma SameCategories(s: seq<LabelCount>, s': seq<LabelCount>)
    requires |s| == |s'| && forall i :: 0 <= i < |s| ==> s[i].category == s'[i].category
    ensures forall c :: HasCategory(s', c) <==> HasCategory(s, c)
  {
    forall c ensures HasCategory(s', c) <==> HasCategory(s, c) {
      if HasCategory(s', c) {
        var i :| 0 <= i < |s'| && s'[i].category == c;
        assert s[i].category == c;
      }
      if HasCategory(s, c) {
        var i :| 0 <= i < |s| && s[i].category == c;
        assert s'[i].category == c;
      }
    }
  }

  /** One pass of the accumulation loop: start the label at 0 if it is new, then add the count. */
  function Accumulate(g: seq<LabelCount>, p: LabelCount): (g': seq<LabelCount>)
    requires UniqueLabels(g)
    ensures UniqueLabels(g')
    ensures SumBy(g', LabelCountOf) == SumBy(g, LabelCountOf) + p.count
    ensures forall c :: HasCategory(g', c) <==> c == p.category || HasCategory(g, c)
  {
    var s := StartLabel(g, p.category);
    AddAt(s, FindLabel(s, p.category).value, p.count)
  }

  /** `$grouped` after the loop has seen every labelled row, in order. */
  function Grouped(ps: seq<LabelCount>): (g: seq<LabelCount>)
    ensures UniqueLabels(g)
    decreases |ps|
  {
    if ps == [] then [] else Accumulate(Grouped(ps[..|ps| - 1]), ps[|ps| - 1])
  }

  /**
   * The grouped array has one entry for each label among the rows, and its
   * counts add up to the counts of the rows.
   */
  lemma {:induction false} GroupedTotals(ps: seq<LabelCount>)
    ensures SumBy(Grouped(ps), LabelCountOf) == SumBy(ps, LabelCountOf)
    ensures forall c :: HasCategory(Grouped(ps), c) <==> HasCategory(ps, c)
    decreases |ps|
  {
    if ps != [] {
      var init := ps[..|ps| - 1];
      var last := ps[|ps| - 1];
      GroupedTotals(init);
      var g := Grouped(init);
      assert Grouped(ps) == Accumulate(g, last);
      assert SumBy(Grouped(ps), LabelCountOf) == SumBy(g, LabelCountOf) + last.count;
      SumByLast(ps, LabelCountOf);
      HasCategoryLast(ps);
    }
  }

  lemma HasCategoryLast(ps: seq<LabelCount>)
    requires ps != []
    ensures forall c :: HasCategory(ps, c) <==> c == ps[|ps| - 1].category || HasCategory(ps[..|ps| - 1], c)
  {
    var init := ps[..|ps| - 1];
    forall c ensures HasCategory(ps, c) <==> c == ps[|ps| - 1].category || HasCategory(init, c) {
      if HasCategory(ps, c) && c != ps[|ps| - 1].category {
        var j :| 0 <= j < |ps| && ps[j].category == c;
        assert init[j] == ps[j];
      }
      if HasCategory(init, c) {
        var j :| 0 <= j < |init| && init[j].category == c;
        assert ps[j] == init[j];
      }
    }
  }

  /** Keeps the entries counted under `category`. */
  function InCategory(category: string): LabelCount -> bool {
    (p: LabelCount) => p.category == category
  }

  /** The sum of the counts of the entries counted under `category`. */
  function CategoryTotal(ps: seq<LabelCount>, category: string): int {
    SumBy(Filter(ps, InCategory(category)), LabelCountOf)
  }

  /** `$grouped[$category]`, read as 0 when the label is not set. */
  function CountIn(g: seq<LabelCount>, category: string): int {
    match FindLabel(g, category)
    case Some(k) => g[k].count
    case None => 0
  }

  lemma CategoryTotalLast(ps: seq<LabelCount>, c: string)
    requires ps != []
    ensures CategoryTotal(ps, c) == CategoryTotal(ps[..|ps| - 1], c) + (if ps[|ps| - 1].category == c then ps[|ps| - 1].count else 0)
  {
    var init := ps[..|ps| - 1];
    var last := ps[|ps| - 1];
    var keep := InCategory(c);
    assert ps == init + [last];
    FilterAppend(init, last, keep);
    if keep(last) {
      assert Filter(ps, keep) == Filter(init, keep) + [last];
      SumByAppend(Filter(init, keep), last, LabelCountOf);
    } else {
      assert Filter(ps, keep) == Filter(init, keep) + [];
      assert Filter(init, keep) + [] == Filter(init, keep);
    }
  }

  /** With unique labels, the index that holds a label is the one `FindLabel` finds. */
  lemma FindUnique(g: seq<LabelCount>, k: nat, c: string)
    requires UniqueLabels(g) && k < |g| && g[k].category == c
    ensures FindLabel(g, c) == Some(k)
  {
    assert HasCategory(g, c);
    var j := FindLabel(g, c).value;
    assert g[j].category == g[k].category;
  }

  /** Starting a label at 0 leaves the count of every label as it was. */
  lemma StartLabelCount(g: seq<LabelCount>, category: string, c: string)
    requires UniqueLabels(g)
    ensures CountIn(StartLabel(g, category), c) == CountIn(g, c)
  {
    if FindLabel(g, category).None? {
      var s := StartLabel(g, category);
      assert s[..|s| - 1] == g;
      if c == category {
        FindUnique(s, |g|, c);
      } else {
        assert FindLabel(s, c) == FindLabel(g, c);
      }
    }
  }

  /** Adding `n` at index `k` adds it to the count of that entry's label and to no other. */
  lemma AddAtCount(s: seq<LabelCount>, k: nat, n: int, c: string)
    requires UniqueLabels(s) && k < |s|
    ensures CountIn(AddAt(s, k, n), c) == CountIn(s, c) + (if s[k].category == c then n else 0)
  {
    var s' := AddAt(s, k, n);
    AddAtUnfold(s, k, n);
    match FindLabel(s, c)
    case Some(j) =>
      FindUnique(s', j, c);
      if j != k {
        assert s[k].category != s[j].category;
      }
    case None =>
      assert HasCategory(s, s[k].category);
      assert !HasCategory(s', c);
  }

  /** One pass of the loop adds the entry's count to its own label and to no other. */
  lemma AccumulateCount(g: seq<LabelCount>, p: LabelCount, c: string)
    requires UniqueLabels(g)
    ensures CountIn(Accumulate(g, p), c) == CountIn(g, c) + (if p.category == c then p.count else 0)
  {
    var s := StartLabel(g, p.category);
    AccumulateUnfold(g, p);
    StartLabelCount(g, p.category, c);
    AddAtCount(s, FindLabel(s, p.category).value, p.count, c);
  }

  /** After the loop, the count of a label is the sum of the counts of its own rows. */
  lemma {:induction false} GroupedCount(ps: seq<LabelCount>, c: string)
    ensures CountIn(Grouped(ps), c) == CategoryTotal(ps, c)
    decreases |ps|
  {
    if ps != [] {
      var init := ps[..|ps| - 1];
      GroupedCount(init, c);
      assert Grouped(ps) == Accumulate(Grouped(init), ps[|ps| - 1]);
      AccumulateCount(Grouped(init), ps[|ps| - 1], c);
      CategoryTotalLast(ps, c);
    }
  }

  /** Each entry of the grouped array holds the sum of the counts of the rows with its label. */
  lemma GroupedCounts(ps: seq<LabelCount>)
    ensures forall i :: 0 <= i < |Grouped(ps)| ==> Grouped(ps)[i].count == CategoryTotal(ps, Grouped(ps)[i].category)
  {
    var g := Grouped(ps);
    forall i | 0 <= i < |g| ensures g[i].count == CategoryTotal(ps, g[i].category) {
      FindUnique(g, i, g[i].category);
      GroupedCount(ps, g[i].category);
    }
  }

  /** `arsort($grouped)`: the entries by count, largest first. */
  function SortedGroups(rows: seq<ReasonCount>): seq<LabelCount> {
    SortDesc(Grouped(LabelRows(rows)), LabelCountOf)
  }

  /** `$label . " " . $count`. */
  function EntryText(p: LabelCount): string {
    p.category + " " + IntToString(p.count)
  }

  function EntryTexts(ps: seq<LabelCount>): (texts: seq<string>)
    ensures |texts| == |ps|
    ensures forall i :: 0 <= i < |ps| ==> texts[i] == EntryText(ps[i])
  {
    if ps == [] then [] else [EntryText(ps[0])] + EntryTexts(ps[1..])
  }

  /** What `get_ban_breakdown_grouped` returns for the rows of the query. */
  function Breakdown(rows: seq<ReasonCount>): seq<string> {
    EntryTexts(SortedGroups(rows))
  }

  /** Sorting keeps exactly the labels there were. */
  lemma SortKeepsCategories(g: seq<LabelCount>, c: string)
    ensures HasCategory(SortDesc(g, LabelCountOf), c) <==> HasCategory(g, c)
  {
    var groups := SortDesc(g, LabelCountOf);
    if HasCategory(groups, c) {
      var i :| 0 <= i < |groups| && groups[i].category == c;
      assert groups[i] in multiset(groups);
      var k :| 0 <= k < |g| && g[k] == groups[i];
    }
    if HasCategory(g, c) {
      var i :| 0 <= i < |g| && g[i].category == c;
      assert g[i] in multiset(g);
      var k :| 0 <= k < |groups| && groups[k] == g[i];
    }
  }

  /** A label among the rows is one of the six. */
  lemma RowCategoryIsLabel(rows: seq<ReasonCount>, c: string)
    requires HasCategory(LabelRows(rows), c)
    ensures c in Labels
  {
    var i :| 0 <= i < |LabelRows(rows)| && LabelRows(rows)[i].category == c;
    assert c == ReasonLabel(rows[i].reason);
    ReasonLabelFacts(rows[i].reason);
  }

  /** Some row's reason is counted under the label. */
  predicate RowsHave(rows: seq<ReasonCount>, category: string) {
    exists j :: 0 <= j < |rows| && ReasonLabel(rows[j].reason) == category
  }

  /**
   * The breakdown is one "label count" string per group, the groups ordered
   * by count with the largest first; each group's count is the sum of the
   * counts of the rows with its label, and together they add up to the
   * counts of all the rows.
   */
  lemma BreakdownEntries(rows: seq<ReasonCount>)
    ensures var groups := SortedGroups(rows);
      && |Breakdown(rows)| == |groups|
      && (forall i :: 0 <= i < |groups| ==> Breakdown(rows)[i] == groups[i].category + " " + IntToString(groups[i].count))
      && SortedDesc(groups, LabelCountOf)
      && (forall i :: 0 <= i < |groups| ==> groups[i].count == CategoryTotal(LabelRows(rows), groups[i].category))
      && SumBy(groups, LabelCountOf) == SumBy(rows, RowCount)
  {
    var ps := LabelRows(rows);
    var g := Grouped(ps);
    var groups := SortedGroups(rows);
    GroupedTotals(ps);
    SumBySortDesc(g, LabelCountOf, LabelCountOf);
    GroupedCounts(ps);
    forall i | 0 <= i < |groups| ensures groups[i].count == CategoryTotal(ps, groups[i].category) {
      assert groups[i] in multiset(g);
      var k :| 0 <= k < |g| && g[k] == groups[i];
    }
  }

  /** A label has a group exactly when some row is counted under it. */
  lemma BreakdownCategories(rows: seq<ReasonCount>, c: string)
    ensures HasCategory(SortedGroups(rows), c) <==> RowsHave(rows, c)
  {
    var ps := LabelRows(rows);
    GroupedTotals(ps);
    SortKeepsCategories(Grouped(ps), c);
    if HasCategory(ps, c) {
      var j :| 0 <= j < |ps| && ps[j].category == c;
      assert ReasonLabel(rows[j].reason) == c;
    }
    if RowsHave(rows, c) {
      var j :| 0 <= j < |rows| && ReasonLabel(rows[j].reason) == c;
      assert ps[j].category == c;
    }
  }

  /** Every group is one of the six labels. */
  lemma BreakdownLabels(rows: seq<ReasonCount>)
    ensures forall i :: 0 <= i < |SortedGroups(rows)| ==> SortedGroups(rows)[i].category in Labels
  {
    var ps := LabelRows(rows);
    var groups := SortedGroups(rows);
    forall i | 0 <= i < |groups| ensures groups[i].category in Labels {
      var c := groups[i].category;
      assert HasCategory(groups, c);
      GroupedTotals(ps);
      SortKeepsCategories(Grouped(ps), c);
      RowCategoryIsLabel(rows, c);
    }
  }

  /** No label appears twice in the breakdown. */
  lemma BreakdownUniqueLabels(rows: seq<ReasonCount>)
    ensures UniqueLabels(SortedGroups(rows))
  {
    var g := Grouped(LabelRows(rows));
    var groups := SortedGroups(rows);
    forall i, j | 0 <= i < j < |groups| ensures groups[i].category != groups[j].category {
      PermutedLabelsDiffer(g, groups, i, j);
    }
  }

  /** A permutation of groups with distinct labels has distinct labels at any two indices. */
  lemma PermutedLabelsDiffer(g: seq<LabelCount>, groups: seq<LabelCount>, i: nat, j: nat)
    requires UniqueLabels(g) && multiset(groups) == multiset(g) && i < j < |groups|
    ensures groups[i].category != groups[j].category
  {
    if groups[i].category == groups[j].category {
      assert groups[i] in multiset(g) && groups[j] in multiset(g);
      var a :| 0 <= a < |g| && g[a] == groups[i];
      var b :| 0 <= b < |g| && g[b] == groups[j];
      assert a == b;
      TwoOccurrences(groups, i, j);
      SingleOccurrence(g, a);
      assert false;
    }
  }

  /** Two indices holding the same element make it occur at least twice. */
  lemma TwoOccurrences(s: seq<LabelCount>, i: nat, j: nat)
    requires i < j < |s| && s[i] == s[j]
    ensures multiset(s)[s[i]] >= 2
  {
    var rest := s[..i] + s[i + 1..];
    assert s == s[..i] + [s[i]] + s[i + 1..];
    assert rest[j - 1] == s[j];
    assert multiset(s) == multiset(rest) + multiset{s[i]};
  }

  /** An element at one index of a sequence without duplicate labels occurs there only. */
  lemma SingleOccurrence(g: seq<LabelCount>, a: nat)
    requires a < |g| && UniqueLabels(g)
    ensures multiset(g)[g[a]] == 1
  {
    var rest := g[..a] + g[a + 1..];
    assert multiset(g) == multiset(rest) + multiset{g[a]} by {
      assert g == g[..a] + [g[a]] + g[a + 1..];
    }
    OthersDiffer(g, a);
    assert multiset(rest)[g[a]] == 0;
  }

  /** With distinct labels, the element at one index occurs nowhere else. */
  lemma OthersDiffer(g: seq<LabelCount>, a: nat)
    requires a < |g| && UniqueLabels(g)
    ensures g[a] !in g[..a] + g[a + 1..]
  {
    var rest := g[..a] + g[a + 1..];
    forall k | 0 <= k < |rest| ensures rest[k] != g[a] {
      if k < a {
        assert rest[k] == g[k];
      } else {
        assert rest[k] == g[k + 1];
      }
    }
  }

  /** `get_ban_breakdown_grouped`: the accumulation loop, the sort, and the formatting loop. */
  method BanBreakdownGrouped(rows: seq<ReasonCount>) returns (breakdown: seq<string>)
    ensures breakdown == Breakdown(rows)
  {
    var grouped := GroupByLabel(rows);
    var sorted := SortDesc(grouped, LabelCountOf);
    breakdown := FormatEntries(sorted);
  }

  /** The accumulation loop: `$grouped[$label] += $row['count']` over the rows in order. */
  method GroupByLabel(rows: seq<ReasonCount>) returns (grouped: seq<LabelCount>)
    ensures grouped == Grouped(LabelRows(rows))
  {
    ghost var ps := LabelRows(rows);
    grouped := [];
    for i := 0 to |rows|
      invariant grouped == Grouped(ps[..i])
    {
      var category := ReasonLabel(rows[i].reason);
      var count := rows[i].count;
      ghost var before := grouped;
      if FindLabel(grouped, category).None? {
        grouped := grouped + [LabelCount(category, 0)];
      }
      assert grouped == StartLabel(before, category);
      var k := FindLabel(grouped, category).value;
      AddAtUnfold(grouped, k, count);
      grouped := grouped[k := grouped[k].(count := grouped[k].count + count)];
      AccumulateUnfold(before, LabelCount(category, count));
      assert grouped == Accumulate(before, LabelCount(category, count));
      assert ps[i] == LabelCount(category, count);
      GroupedStep(ps, i);
    }
    Whole(ps);
  }

  lemma GroupedStep(ps: seq<LabelCount>, i: nat)
    requires i < |ps|
    ensures Grouped(ps[..i + 1]) == Accumulate(Grouped(ps[..i]), ps[i])
  {
    assert ps[..i + 1][..i] == ps[..i];
  }

  /** The formatting loop: one "label count" string per entry, in order. */
  method FormatEntries(sorted: seq<LabelCount>) returns (breakdown: seq<string>)
    ensures breakdown == EntryTexts(sorted)
  {
    breakdown := [];
    for i := 0 to |sorted|
      invariant breakdown == EntryTexts(sorted[..i])
    {
      EntryTextsStep(sorted, i);
      breakdown := breakdown + [EntryText(sorted[i])];
    }
    Whole(sorted);
  }

  lemma EntryTextsStep(ps: seq<LabelCount>, i: nat)
    requires i < |ps|
    ensures EntryTexts(ps[..i + 1]) == EntryTexts(ps[..i]) + [EntryText(ps[i])]
  {
    assert ps[..i + 1] == ps[..i] + [ps[i]];
    EntryTextsAppend(ps[..i], ps[i]);
  }

  lemma Whole<T>(s: seq<T>)
    ensures s[..|s|] == s
  {
  }

  lemma {:induction false} EntryTextsAppend(ps: seq<LabelCount>, p: LabelCount)
    ensures EntryTexts(ps + [p]) == EntryTexts(ps) + [EntryText(p)]
    decreases |ps|
  {
    if ps != [] {
      assert (ps + [p])[1..] == ps[1..] + [p];
      EntryTextsAppend(ps[1..], p);
    } else {
      assert ps + [p] == [p];
    }
  }

  /** `array_slice($ban_breakdown, 0, 3)`. */
  function TopThree(breakdown: seq<string>): (top: seq<string>)
    ensures |top| <= 3 && top <= breakdown
    ensures |breakdown| >= 3 ==> |top| == 3
    ensures |breakdown| < 3 ==> top == breakdown
  {
    if |breakdown| <= 3 then breakdown else breakdown[..3]
  }

  /** The summary shows the labels with the largest counts: no hidden entry outnumbers a shown one. */
  lemma TopThreeLargest(rows: seq<ReasonCount>, i: nat, j: nat)
    requires i < |TopThree(Breakdown(rows))| <= j < |SortedGroups(rows)|
    ensures TopThree(Breakdown(rows))[i] == EntryText(SortedGroups(rows)[i])
    ensures SortedGroups(rows)[i].count >= SortedGroups(rows)[j].count
  {
  }

  /* ---------------- get_next_scheduled_time ---------------- */

  /** A PHP number: `ceil` returns a float even for a whole value, so the type is kept apart from the value. */
  datatype PhpNumber = PInt(i: int) | PFloat(f: int)

  /** `!==`: different type or different value. */
  predicate NotIdentical(a: PhpNumber, b: PhpNumber) {
    a != b
  }

  /** String conversion: a whole float prints without a decimal point. */
  function NumberText(n: PhpNumber): string {
    match n
    case PInt(i) => IntToString(i)
    case PFloat(f) => IntToString(f)
  }

  function NumberValue(n: PhpNumber): int {
    match n
    case PInt(i) => i
    case PFloat(f) => f
  }

  /** `ceil($a / $b)` for a non-negative `$a`, as the float PHP returns. */
  function Ceil(a: nat, b: nat): (r: PhpNumber)
    requires b > 0
    ensures r.PFloat?
    ensures (NumberValue(r) - 1) * b < a <= NumberValue(r) * b
  {
    PFloat((a + b - 1) / b)
  }

  /** `$n . ' unit' . ($n !== 1 ? 's' : '')`, as written. */
  function UnitText(n: PhpNumber, unit: string): string {
    "in " + NumberText(n) + " " + unit + (if NotIdentical(n, PInt(1)) then "s" else "")
  }

  /** `get_next_scheduled_time`, as written, for the scheduled timestamp and the current time. */
  function NextScheduledTime(timestamp: Option<int>, now: int): string {
    if timestamp.None? then "Not scheduled"
    else
      var diff := timestamp.value - now;
      if diff < 0 then "Due now"
      else if diff < 60 then "in " + IntToString(diff) + " seconds"
      else if diff < 3600 then UnitText(Ceil(diff, 60), "minute")
      else UnitText(Ceil(diff, 3600), "hour")
  }

  /** The rounded-up count the minute and hour branches print. */
  lemma ScheduleBounds(diff: nat)
    ensures 60 <= diff < 3600 ==> 1 <= NumberValue(Ceil(diff, 60)) <= 60
    ensures diff >= 3600 ==> NumberValue(Ceil(diff, 3600)) >= 1
  {
  }

  /** The suffix test compares a float with the integer 1, so it never fails: every count reads plural. */
  lemma AlwaysPlural(n: PhpNumber, unit: string)
    requires n.PFloat?
    ensures UnitText(n, unit) == "in " + NumberText(n) + " " + unit + "s"
  {
  }

  /** One minute ahead reads "in 1 minutes". */
  lemma OneMinuteReadsPlural()
    ensures NextScheduledTime(Some(60), 0) == "in 1 minutes"
  {
    assert Ceil(60, 60) == PFloat(1);
    assert IntToString(1) == "1" by {
      assert NatToString(1) == [DigitChar(1)];
    }
  }

  /** The suffix the code evidently means: plural unless the count is one. */
  function UnitTextIntended(n: PhpNumber, unit: string): string {
    "in " + NumberText(n) + " " + unit + (if NumberValue(n) != 1 then "s" else "")
  }

  function NextScheduledTimeIntended(timestamp: Option<int>, now: int): string {
    if timestamp.None? then "Not scheduled"
    else
      var diff := timestamp.value - now;
      if diff < 0 then "Due now"
      else if diff < 60 then "in " + IntToString(diff) + " seconds"
      else if diff < 3600 then UnitTextIntended(Ceil(diff, 60), "minute")
      else UnitTextIntended(Ceil(diff, 3600), "hour")
  }

  /**
   * With the intended test the unit is singular exactly for a count of one,
   * and the text differs from the code's only there.
   */
  lemma IntendedPluralisation(n: PhpNumber, unit: string)
    ensures NumberValue(n) == 1 ==> UnitTextIntended(n, unit) == "in " + NumberText(n) + " " + unit
    ensures NumberValue(n) != 1 ==> UnitTextIntended(n, unit) == "in " + NumberText(n) + " " + unit + "s"
    ensures n.PFloat? && NumberValue(n) != 1 ==> UnitTextIntended(n, unit) == UnitText(n, unit)
  {
  }

  /** One minute ahead reads "in 1 minute" with the intended test. */
  lemma OneMinuteReadsSingular()
    ensures NextScheduledTimeIntended(Some(60), 0) == "in 1 minute"
  {
    assert Ceil(60, 60) == PFloat(1);
    assert IntToString(1) == "1" by {
      assert NatToString(1) == [DigitChar(1)];
    }
  }
}

=== FILE: detection.dfy ===
/**
 * `SBT_Detection_Layers` as an object: it holds the core object and each
 * `init` hook updates the core's store step by step, as the matching function
 * of `Layers` says.
 */
module Detection {
  import opened Wrappers
  import opened Text
  import opened Transients
  import opened Config
  import opened BanStore
  import opened Browser
  import opened Layers
  import opened Core

  class DetectionLayers {
    const core: BotTrap

    constructor (core: BotTrap)
      ensures this.core == core
    {
      this.core := core;
    }

    /** `block($reason)`: prepare the quiz the block page shows, then end the request. */
    method Block(req: Request, reason: string, roll: QuizRoll) returns (outcome: Outcome)
      modifies core
      ensures Step(core.Abs(), outcome) == BlockWith(old(core.Abs()), core.settings, core.host, ClientIp(core.host, req), reason, roll)
    {
      if core.settings.enableBlockPage && core.host.templatePresent {
        if core.settings.blockMode == QuizBlockMode {
          var _ := core.GetOrCreateQuiz(req, roll);
        }
      }
      return Outcome.Block(reason);
    }

    /** `check_ban`. */
    method CheckBan(req: Request, o: Oracle) returns (outcome: Outcome)
      modifies core
      ensures Step(core.Abs(), outcome) == Layers.CheckBan(old(core.Abs()), core.settings, core.host, req, o)
    {
      if req.loggedIn {
        return Continue;
      }
      var bot := IsWhitelistedBot(req.userAgent);
      if bot {
        return Continue;
      }
      var ip := ClientIp(core.host, req);
      if IsSet(core.cache, QuizSolved(ip), core.now) {
        core.cache := Delete(core.cache, QuizSolved(ip));
        return Continue;
      }
      if core.settings.enableOutdatedBrowserCheck && IsOutdatedBrowser(req) {
        core.BanIp(req, OutdatedReason(req), o.roll);
        outcome := Block(req, "blocked", o.roll);
        return;
      }
      var banned := core.IsBannedClient(req);
      if banned {
        outcome := Block(req, "blocked", o.roll);
        return;
      }
      return Continue;
    }

    /** `trap_hidden_url`. */
    method TrapHiddenUrl(req: Request, o: Oracle) returns (outcome: Outcome)
      modifies core
      ensures Step(core.Abs(), outcome) == Trap(old(core.Abs()), core.settings, core.host, req, o)
    {
      var bot := IsWhitelistedBot(req.userAgent);
      if req.loggedIn || bot || !core.settings.enableTrap {
        return Continue;
      }
      var slug := core.host.sanitizeTitle(core.settings.honeypotUrl);
      if Contains(req.uri, "/" + slug) {
        core.BanIp(req, TrapReason(slug), o.roll);
        outcome := Block(req, "blocked", o.roll);
        return;
      }
      return Continue;
    }

    /** `rate_limit`. */
    method RateLimit(req: Request, o: Oracle) returns (outcome: Outcome)
      modifies core
      ensures Step(core.Abs(), outcome) == Layers.RateLimit(old(core.Abs()), core.settings, core.host, req, o)
    {
      var bot := IsWhitelistedBot(req.userAgent);
      if req.loggedIn || bot || !core.settings.enableRateLimit {
        return Continue;
      }
      var ip := ClientIp(core.host, req);
      var count := NextCount(Get(core.cache, RateCounter(ip), core.now));
      core.cache := Set(core.cache, RateCounter(ip), Count(count), RateWindow, core.now);
      if count > core.settings.rateLimit {
        core.BanIp(req, RateReason(count), o.roll);
        outcome := Block(req, "rate_limit", o.roll);
        return;
      }
      core.RecordFingerprint(req, IntToString(count));
      return Continue;
    }

    /** `block_without_js`. */
    method BlockWithoutJs(req: Request, o: Oracle) returns (outcome: Outcome)
      modifies core
      ensures Step(core.Abs(), outcome) == JsCheck(old(core.Abs()), core.settings, core.host, req, o)
    {
      var bot := IsWhitelistedBot(req.userAgent);
      if req.loggedIn || bot || !core.settings.enableJsCheck {
        return Continue;
      }
      var whitelisted := IsWhitelistedBrowser(core.settings.whitelistedBrowsers, req.userAgent);
      if whitelisted {
        return Continue;
      }
      if GuardedApiPath(req.uri) {
        if !ValidJsCookie(core.Abs(), core.host, req) {
          core.BanIp(req, JsReason(req), o.roll);
          outcome := Block(req, "blocked", o.roll);
          return;
        }
      }
      return Continue;
    }

    /** `get_country_from_ip`: the cached country, else the providers in turn. */
    method GetCountryFromIp(ip: Ip, o: Oracle) returns (country: Option<string>)
      modifies core
      ensures Lookup(core.Abs(), country) == CountryFromIp(old(core.Abs()), ip, o)
    {
      var cached := Get(core.cache, GeoCountry(ip), core.now);
      if cached.Some? && cached.value.CountryCode? {
        return Some(cached.value.code);
      }
      if o.primary.Some? && Truthy(o.primary.value) {
        core.cache := Set(core.cache, GeoCountry(ip), CountryCode(o.primary.value), GeoCacheTtl, core.now);
        return o.primary;
      }
      if o.secondary.Some? && Truthy(o.secondary.value) {
        core.cache := Set(core.cache, GeoCountry(ip), CountryCode(o.secondary.value), GeoCacheTtl, core.now);
        return o.secondary;
      }
      return None;
    }

    /** `geo_based_quiz_check`. */
    method GeoBasedQuizCheck(req: Request, o: Oracle) returns (outcome: Outcome)
      modifies core
      ensures Step(core.Abs(), outcome) == GeoCheck(old(core.Abs()), core.settings, core.host, req, o)
    {
      var bot := IsWhitelistedBot(req.userAgent);
      if req.loggedIn || bot {
        return Continue;
      }
      var settings := core.settings;
      if !settings.enableGeoQuiz || settings.blockMode != QuizBlockMode || !Truthy(settings.geoQuizCountries) {
        return Continue;
      }
      var ip := ClientIp(core.host, req);
      if IsSet(core.cache, GeoQuizPassed(ip), core.now) {
        return Continue;
      }
      var banned := core.IsBannedClient(req);
      if banned {
        return Continue;
      }
      var country := GetCountryFromIp(ip, o);
      if country.None? || !Truthy(country.value) {
        return Continue;
      }
      if Upper(country.value) in CountryList(settings.geoQuizCountries) {
        core.BanIp(req, GeoReason(country.value), o.roll);
        outcome := Block(req, "geo_quiz", o.roll);
        return;
      }
      return Continue;
    }

    /** The hook registered for one stage. */
    method RunHook(st: Stage, req: Request, o: Oracle) returns (outcome: Outcome)
      modifies core
      ensures Step(core.Abs(), outcome) == RunStage(st, old(core.Abs()), core.settings, core.host, req, o)
    {
      match st
      case QuizSubmissionStage =>
        var result := core.HandleQuizSubmission(req);
        outcome := if result == NotHandled then Continue else Redirect;
      case CheckBanStage =>
        outcome := CheckBan(req, o);
      case TrapStage =>
        outcome := TrapHiddenUrl(req, o);
      case RateLimitStage =>
        outcome := RateLimit(req, o);
      case JsCheckStage =>
        outcome := BlockWithoutJs(req, o);
      case GeoStage =>
        outcome := GeoBasedQuizCheck(req, o);
    }

    /** WordPress firing `init`: the hooks in priority order until one ends the request. */
    method Init(req: Request, o: Oracle) returns (outcome: Outcome)
      modifies core
      ensures Step(core.Abs(), outcome) == HandleRequest(old(core.Abs()), core.settings, core.host, req, o)
    {
      var i := 0;
      while i < |Stages|
        invariant 0 <= i <= |Stages|
        invariant RunStages(Stages[i..], core.Abs(), core.settings, core.host, req, o)
          == HandleRequest(old(core.Abs()), core.settings, core.host, req, o)
      {
        outcome := RunHook(Stages[i], req, o);
        assert Stages[i..][0] == Stages[i] && Stages[i..][1..] == Stages[i + 1..];
        if outcome != Continue {
          return;
        }
        i := i + 1;
      }
      return Continue;
    }
  }
}

=== FILE: layer_facts.dfy ===
/**
 * What the detection pipeline guarantees as a whole: which requests it leaves
 * alone, which it always blocks, what each layer does to the store, and two
 * facts about the store that no request changes (the quiz-solved grace flag
 * is never created, and test mode records no ban).
 */
module LayerFacts {
  import opened Wrappers
  import opened Text
  import opened Transients
  import opened Config
  import opened BanStore
  import opened Browser
  import opened Layers

  /* ---------------- running the stage list ---------------- */

  /** Stages that each leave `s` alone and continue let the whole list do the same. */
  lemma {:induction false} AllContinue(stages: seq<Stage>, s: State, cfg: Settings, host: Host, req: Request, o: Oracle)
    requires forall i :: 0 <= i < |stages| ==> RunStage(stages[i], s, cfg, host, req, o) == Step(s, Continue)
    ensures RunStages(stages, s, cfg, host, req, o) == Step(s, Continue)
    decreases |stages|
  {
    if stages != [] {
      assert RunStage(stages[0], s, cfg, host, req, o) == Step(s, Continue);
      forall i | 0 <= i < |stages[1..]| ensures RunStage(stages[1..][i], s, cfg, host, req, o) == Step(s, Continue) {
        assert stages[1..][i] == stages[i + 1];
      }
      AllContinue(stages[1..], s, cfg, host, req, o);
    }
  }

  /** The hooks run in strictly increasing priority. */
  lemma StagesByPriority()
    ensures forall i, j :: 0 <= i < j < |Stages| ==> Priority(Stages[i]) < Priority(Stages[j])
  {
  }

  /** The pipeline is the quiz submission, then `check_ban`, then the four later layers. */
  lemma HandleRequestUnfold(s: State, cfg: Settings, host: Host, req: Request, o: Oracle)
    ensures var sub := SubmissionStage(s, cfg, host, req);
      var ban := CheckBan(sub.state, cfg, host, req, o);
      HandleRequest(s, cfg, host, req, o) ==
        if sub.outcome != Continue then sub
        else if ban.outcome != Continue then ban
        else RunStages(Stages[2..], ban.state, cfg, host, req, o)
  {
    assert Stages == [QuizSubmissionStage, CheckBanStage] + Stages[2..];
    RunStagesAppend([QuizSubmissionStage, CheckBanStage], Stages[2..], s, cfg, host, req, o);
    var sub := SubmissionStage(s, cfg, host, req);
    assert [QuizSubmissionStage, CheckBanStage][1..] == [CheckBanStage];
    if sub.outcome == Continue {
      assert RunStages([CheckBanStage], sub.state, cfg, host, req, o) == CheckBan(sub.state, cfg, host, req, o) by {
        assert [CheckBanStage][1..] == [];
      }
    }
  }

  /** A request that answers no quiz goes straight on to the detection layers. */
  lemma HandleRequestUnanswered(s: State, cfg: Settings, host: Host, req: Request, o: Oracle)
    requires !Answerable(s, host, req, ClientIp(host, req))
    ensures HandleRequest(s, cfg, host, req, o) == RunStages(Stages[1..], s, cfg, host, req, o)
  {
    assert Stages == [QuizSubmissionStage] + Stages[1..];
    RunStagesAppend([QuizSubmissionStage], Stages[1..], s, cfg, host, req, o);
    assert RunStages([QuizSubmissionStage], s, cfg, host, req, o) == Step(s, Continue) by {
      assert [QuizSubmissionStage][1..] == [];
    }
  }

  /* ---------------- exemptions ---------------- */

  /** Every detection layer returns at once for a logged-in user or a known crawler. */
  lemma ExemptStagesContinue(s: State, cfg: Settings, host: Host, req: Request, o: Oracle)
    requires Exempt(req)
    ensures forall i :: 1 <= i < |Stages| ==> RunStage(Stages[i], s, cfg, host, req, o) == Step(s, Continue)
  {
  }

  /**
   * For a logged-in user or a known crawler only the quiz submission can act:
   * without one, the request passes and the store is untouched.
   */
  lemma ExemptRequestOnlyAnswersQuiz(s: State, cfg: Settings, host: Host, req: Request, o: Oracle)
    requires Exempt(req)
    ensures var sub := SubmissionStage(s, cfg, host, req);
      HandleRequest(s, cfg, host, req, o) == (if sub.outcome == Continue then Step(s, Continue) else sub)
  {
    var sub := SubmissionStage(s, cfg, host, req);
    HandleRequestUnfold(s, cfg, host, req, o);
    ExemptStagesContinue(s, cfg, host, req, o);
    if sub.outcome == Continue {
      forall i | 0 <= i < |Stages[2..]| ensures RunStage(Stages[2..][i], s, cfg, host, req, o) == Step(s, Continue) {
        assert Stages[2..][i] == Stages[i + 2];
      }
      AllContinue(Stages[2..], s, cfg, host, req, o);
    }
  }

  /* ---------------- block ---------------- */

  /** Blocking keeps every ban as it is: it only ever prepares a quiz. */
  lemma BlockKeepsBans(s: State, cfg: Settings, host: Host, ip: Ip, reason: string, roll: QuizRoll)
    ensures var r := BlockWith(s, cfg, host, ip, reason, roll);
      r.state.bans == s.bans && forall x :: IsBanned(r.state, x) == IsBanned(s, x)
  {
    var r := BlockWith(s, cfg, host, ip, reason, roll);
    forall x ensures IsBanned(r.state, x) == IsBanned(s, x) {
      GetOtherKey(s.cache, r.state.cache, QuizData(ip), BanFlag(x), s.now);
    }
  }

  /* ---------------- check_ban ---------------- */

  /**
   * A client that is banned, sends no quiz answer and holds no grace flag is
   * blocked by `check_ban`, and no later layer runs.
   */
  lemma BannedClientIsBlocked(s: State, cfg: Settings, host: Host, req: Request, o: Oracle)
    requires !Exempt(req)
    requires var ip := ClientIp(host, req);
      !Answerable(s, host, req, ip) && !IsSet(s.cache, QuizSolved(ip), s.now) && IsBanned(s, ip)
    ensures var r := HandleRequest(s, cfg, host, req, o);
      && r.outcome == Block("blocked")
      && r.state.bans == s.bans
      && IsBanned(r.state, ClientIp(host, req))
  {
    var ip := ClientIp(host, req);
    HandleRequestUnfold(s, cfg, host, req, o);
    BanEffect(s, cfg, ip, OutdatedReason(req), o.roll);
    BlockKeepsBans(s, cfg, host, ip, "blocked", o.roll);
  }

  /** The grace flag lets exactly one request through `check_ban`, and is consumed by it. */
  lemma GraceFlagConsumed(s: State, cfg: Settings, host: Host, req: Request, o: Oracle)
    requires !Exempt(req) && IsSet(s.cache, QuizSolved(ClientIp(host, req)), s.now)
    ensures var r := CheckBan(s, cfg, host, req, o);
      && r.outcome == Continue
      && r.state == s.(cache := Delete(s.cache, QuizSolved(ClientIp(host, req))))
      && !IsSet(r.state.cache, QuizSolved(ClientIp(host, req)), s.now)
  {
  }

  /**
   * With the outdated-browser check on, an outdated browser that is not yet
   * banned is banned and blocked, the log row naming the browser.
   */
  lemma OutdatedBrowserBanned(s: State, cfg: Settings, host: Host, req: Request, o: Oracle)
    requires !Exempt(req) && cfg.enableOutdatedBrowserCheck && IsOutdatedBrowser(req)
    requires var ip := ClientIp(host, req);
      !IsSet(s.cache, QuizSolved(ip), s.now) && !IsBanned(s, ip) && !cfg.testMode
    ensures var ip := ClientIp(host, req);
      var r := CheckBan(s, cfg, host, req, o);
      && r.outcome == Block("blocked")
      && r.state.bans == s.bans + [BanRow(ip, OutdatedReason(req), s.now, s.now + BanSeconds(cfg))]
      && (cfg.banHours >= 0 ==> IsBanned(r.state, ip))
  {
    var ip := ClientIp(host, req);
    var banned := Ban(s, cfg, ip, OutdatedReason(req), o.roll);
    BanEffect(s, cfg, ip, OutdatedReason(req), o.roll);
    BlockKeepsBans(banned, cfg, host, ip, "blocked", o.roll);
  }

  /* ---------------- trap_hidden_url ---------------- */

  /** A request whose URI holds "/" and the sanitised slug springs the trap; any other passes untouched. */
  lemma TrapSprung(s: State, cfg: Settings, host: Host, req: Request, o: Oracle)
    requires !Exempt(req) && cfg.enableTrap
    ensures var ip := ClientIp(host, req);
      var r := Trap(s, cfg, host, req, o);
      && (r.outcome != Continue <==> Contains(req.uri, TrapPath(cfg, host)))
      && (r.outcome != Continue ==> r.outcome == Block("blocked"))
      && (r.outcome == Continue ==> r.state == s)
      && (r.outcome != Continue && !cfg.testMode && cfg.banHours >= 0 ==> IsBanned(r.state, ip))
      && (r.outcome != Continue && !cfg.testMode && !IsBanned(s, ip) ==>
            r.state.bans == s.bans + [BanRow(ip, TrapReason(host.sanitizeTitle(cfg.honeypotUrl)), s.now, s.now + BanSeconds(cfg))])
  {
    var ip := ClientIp(host, req);
    var reason := TrapReason(host.sanitizeTitle(cfg.honeypotUrl));
    BanEffect(s, cfg, ip, reason, o.roll);
    BlockKeepsBans(Ban(s, cfg, ip, reason, o.roll), cfg, host, ip, "blocked", o.roll);
  }

  /* ---------------- rate_limit ---------------- */

  /**
   * The rate layer counts the request in a 60-second counter and blocks with
   * "rate_limit" exactly when the new count exceeds the limit; a request it
   * lets through is fingerprinted, one more request in the fingerprint table.
   */
  lemma RateLimitCounts(s: State, cfg: Settings, host: Host, req: Request, o: Oracle)
    requires !Exempt(req) && cfg.enableRateLimit
    ensures var ip := ClientIp(host, req);
      var count := NextCount(Get(s.cache, RateCounter(ip), s.now));
      var r := RateLimit(s, cfg, host, req, o);
      && Get(r.state.cache, RateCounter(ip), s.now) == Some(Count(count))
      && Get(r.state.cache, RateCounter(ip), s.now + RateWindow + 1) == None
      && (r.outcome != Continue <==> count > cfg.rateLimit)
      && (r.outcome != Continue ==> r.outcome == Block("rate_limit") && r.state.fingerprints == s.fingerprints)
      && (r.outcome == Continue ==> TotalRequests(r.state.fingerprints) == TotalRequests(s.fingerprints) + 1)
      && (r.outcome != Continue && !cfg.testMode && cfg.banHours >= 0 ==> IsBanned(r.state, ip))
      && (r.outcome != Continue && !cfg.testMode && !IsBanned(s, ip) ==>
            r.state.bans == s.bans + [BanRow(ip, RateReason(count), s.now, s.now + BanSeconds(cfg))])
  {
    var ip := ClientIp(host, req);
    var count := NextCount(Get(s.cache, RateCounter(ip), s.now));
    var counted := s.(cache := Set(s.cache, RateCounter(ip), Count(count), RateWindow, s.now));
    if count > cfg.rateLimit {
      var banned := Ban(counted, cfg, ip, RateReason(count), o.roll);
      var r := BlockWith(banned, cfg, host, ip, "rate_limit", o.roll);
      GetOtherKey(s.cache, counted.cache, RateCounter(ip), BanFlag(ip), s.now);
      BanEffect(counted, cfg, ip, RateReason(count), o.roll);
      BlockKeepsBans(banned, cfg, host, ip, "rate_limit", o.roll);
      assert banned.cache - {BanFlag(ip), QuizData(ip)} == counted.cache - {BanFlag(ip), QuizData(ip)} by {
        if !IsBanned(counted, ip) && !cfg.testMode {
          BanCache(counted, cfg, ip, RateReason(count), o.roll);
        }
      }
      CacheFrame2(counted.cache, banned.cache, BanFlag(ip), QuizData(ip), RateCounter(ip), s.now);
      CacheFrame2(counted.cache, banned.cache, BanFlag(ip), QuizData(ip), RateCounter(ip), s.now + RateWindow + 1);
      GetOtherKey(banned.cache, r.state.cache, QuizData(ip), RateCounter(ip), s.now);
      GetOtherKey(banned.cache, r.state.cache, QuizData(ip), RateCounter(ip), s.now + RateWindow + 1);
    }
  }

  /** Changing two keys leaves what every third key reads unchanged. */
  lemma CacheFrame2(c: Cache, c': Cache, k1: Key, k2: Key, other: Key, now: int)
    requires c' - {k1, k2} == c - {k1, k2} && other != k1 && other != k2
    ensures Get(c', other, now) == Get(c, other, now)
  {
    assert other in c' <==> other in (c' - {k1, k2});
    assert other in c <==> other in (c - {k1, k2});
    if other in c' {
      assert c'[other] == (c' - {k1, k2})[other];
    }
  }

  /** Within one window, consecutive requests are counted 1, 2, 3, ... */
  lemma RateCountFollows(s: State, cfg: Settings, host: Host, req: Request, o: Oracle, n: int)
    requires !Exempt(req) && cfg.enableRateLimit && n > 0
    requires Get(s.cache, RateCounter(ClientIp(host, req)), s.now) == Some(Count(n))
    ensures Get(RateLimit(s, cfg, host, req, o).state.cache, RateCounter(ClientIp(host, req)), s.now) == Some(Count(n + 1))
  {
    RateLimitCounts(s, cfg, host, req, o);
  }

  /* ---------------- block_without_js ---------------- */

  /**
   * The JS layer leaves whitelisted browsers alone; for any other browser it
   * blocks exactly the REST calls outside `/wp/v2/` that lack this hour's cookie.
   */
  lemma JsCheckBlocks(s: State, cfg: Settings, host: Host, req: Request, o: Oracle)
    requires !Exempt(req) && cfg.enableJsCheck
    ensures var r := JsCheck(s, cfg, host, req, o);
      && (IsWhitelistedBrowserUa(cfg.whitelistedBrowsers, req.userAgent) ==> r == Step(s, Continue))
      && (!IsWhitelistedBrowserUa(cfg.whitelistedBrowsers, req.userAgent) ==>
            (r.outcome != Continue <==> GuardedApiPath(req.uri) && !ValidJsCookie(s, host, req)))
      && (r.outcome != Continue ==> r.outcome == Block("blocked"))
      && (r.outcome == Continue ==> r.state == s)
      && (r.outcome != Continue && !cfg.testMode && cfg.banHours >= 0 ==> IsBanned(r.state, ClientIp(host, req)))
      && (r.outcome != Continue && !cfg.testMode && !IsBanned(s, ClientIp(host, req)) ==>
            r.state.bans == s.bans + [BanRow(ClientIp(host, req), JsReason(req), s.now, s.now + BanSeconds(cfg))])
  {
    var ip := ClientIp(host, req);
    BanEffect(s, cfg, ip, JsReason(req), o.roll);
    BlockKeepsBans(Ban(s, cfg, ip, JsReason(req), o.roll), cfg, host, ip, "blocked", o.roll);
  }

  /** Core REST routes are never blocked for a missing cookie. */
  lemma CoreRoutesPass(s: State, cfg: Settings, host: Host, req: Request, o: Oracle, before: string, after: string)
    requires req.uri == before + "/wp/v2/" + after
    ensures JsCheck(s, cfg, host, req, o) == Step(s, Continue)
  {
    ContainsMiddle(before, "/wp/v2/", after);
  }

  /* ---------------- geo_based_quiz_check ---------------- */

  /** When every provider fails and nothing is cached, the geo layer changes nothing. */
  lemma GeoLookupFailurePasses(s: State, cfg: Settings, host: Host, req: Request, o: Oracle)
    requires Get(s.cache, GeoCountry(ClientIp(host, req)), s.now).None?
    requires (o.primary.None? || !Truthy(o.primary.value)) && (o.secondary.None? || !Truthy(o.secondary.value))
    ensures GeoCheck(s, cfg, host, req, o) == Step(s, Continue)
  {
  }

  /**
   * Once the country is known, the geo layer blocks with "geo_quiz" exactly
   * when the upper-cased country is one of the configured entries.
   */
  lemma GeoBlocksListedCountries(s: State, cfg: Settings, host: Host, req: Request, o: Oracle)
    requires !Exempt(req) && GeoActive(cfg)
    requires var ip := ClientIp(host, req);
      !IsSet(s.cache, GeoQuizPassed(ip), s.now) && !IsBanned(s, ip)
    requires var look := CountryFromIp(s, ClientIp(host, req), o);
      look.country.Some? && Truthy(look.country.value)
    ensures var look := CountryFromIp(s, ClientIp(host, req), o);
      var r := GeoCheck(s, cfg, host, req, o);
      && (r.outcome != Continue <==> Upper(look.country.value) in CountryList(cfg.geoQuizCountries))
      && (r.outcome != Continue ==> r.outcome == Block("geo_quiz"))
      && (r.outcome == Continue ==> r.state == look.state)
      && (r.outcome != Continue && !cfg.testMode && cfg.banHours >= 0 ==> IsBanned(r.state, ClientIp(host, req)))
      && (r.outcome != Continue && !cfg.testMode ==>
            r.state.bans == s.bans + [BanRow(ClientIp(host, req), GeoReason(look.country.value), s.now, s.now + BanSeconds(cfg))])
  {
    GeoCheckFound(s, cfg, host, req, o);
    if !cfg.testMode {
      GeoBanRow(s, cfg, host, ClientIp(host, req), o);
    }
  }

  /** The row a geo block records: the lookup leaves the log and the IP's ban alone. */
  lemma GeoBanRow(s: State, cfg: Settings, host: Host, ip: Ip, o: Oracle)
    requires !IsBanned(s, ip) && !cfg.testMode && CountryFromIp(s, ip, o).country.Some?
    ensures var look := CountryFromIp(s, ip, o);
      var reason := GeoReason(look.country.value);
      BanAndBlock(look.state, cfg, host, ip, reason, "geo_quiz", o.roll).state.bans ==
        s.bans + [BanRow(ip, reason, s.now, s.now + BanSeconds(cfg))]
  {
    var look := CountryFromIp(s, ip, o);
    var reason := GeoReason(look.country.value);
    assert !IsBanned(look.state, ip) by {
      GetOtherKey(s.cache, look.state.cache, GeoCountry(ip), BanFlag(ip), s.now);
    }
    AppendSame(look.state.bans, s.bans, BanRow(ip, reason, look.state.now, look.state.now + BanSeconds(cfg)),
      BanRow(ip, reason, s.now, s.now + BanSeconds(cfg)));
  }

  /** Equal logs with equal rows appended are equal. */
  lemma AppendSame(a: seq<BanRow>, b: seq<BanRow>, x: BanRow, y: BanRow)
    requires a == b && x == y
    ensures a + [x] == b + [y]
  {
  }

  /** With a known country the geo layer either bans and blocks, or continues from the lookup's state. */
  lemma GeoCheckFound(s: State, cfg: Settings, host: Host, req: Request, o: Oracle)
    requires !Exempt(req) && GeoActive(cfg)
    requires var ip := ClientIp(host, req);
      !IsSet(s.cache, GeoQuizPassed(ip), s.now) && !IsBanned(s, ip)
    requires var look := CountryFromIp(s, ClientIp(host, req), o);
      look.country.Some? && Truthy(look.country.value)
    ensures var ip := ClientIp(host, req);
      var look := CountryFromIp(s, ip, o);
      GeoCheck(s, cfg, host, req, o) ==
        if Upper(look.country.value) in CountryList(cfg.geoQuizCountries)
        then BanAndBlock(look.state, cfg, host, ip, GeoReason(look.country.value), "geo_quiz", o.roll)
        else Step(look.state, Continue)
  {
  }

  /**
   * A correct quiz answer exempts the same client from the geo layer for as
   * long as its ban would have lasted: any later request up to `ban_hours`
   * after the answer passes the layer untouched.
   */
  lemma SolvedQuizSkipsGeo(s: State, cfg: Settings, host: Host, req: Request, next: Request, o: Oracle, t: int)
    requires var ip := ClientIp(host, req);
      && Answerable(s, host, req, ip)
      && host.toInt(req.quizAnswer.value) == StoredQuiz(s.cache, ip, s.now).value.expected
    requires ClientIp(host, next) == ClientIp(host, req)
    requires s.now <= t <= s.now + BanSeconds(cfg)
    ensures var later := SubmissionStage(s, cfg, host, req).state.(now := t);
      GeoCheck(later, cfg, host, next, o) == Step(later, Continue)
  {
    CorrectAnswerUnbans(s, cfg, host, req, ClientIp(host, req));
  }

  /* ---------------- the grace flag is never created ---------------- */

  /** The store holds no `sbt_quiz_solved_` transient for any IP. */
  predicate GraceFree(c: Cache) {
    forall k :: k in c ==> !k.QuizSolved?
  }

  lemma GraceFreeFrame(c: Cache, c': Cache, changed: set<Key>)
    requires GraceFree(c) && c' - changed == c - changed
    requires forall k :: k in changed ==> !k.QuizSolved?
    ensures GraceFree(c')
  {
    forall k | k in c' ensures !k.QuizSolved? {
      if k !in changed {
        assert k in c' - changed;
      }
    }
  }

  lemma BanGraceFree(s: State, cfg: Settings, ip: Ip, reason: string, roll: QuizRoll)
    requires GraceFree(s.cache)
    ensures GraceFree(Ban(s, cfg, ip, reason, roll).cache)
  {
    if !IsBanned(s, ip) && !cfg.testMode {
      BanCache(s, cfg, ip, reason, roll);
      GraceFreeFrame(s.cache, Ban(s, cfg, ip, reason, roll).cache, {BanFlag(ip), QuizData(ip)});
    }
  }

  lemma BlockGraceFree(s: State, cfg: Settings, host: Host, ip: Ip, reason: string, roll: QuizRoll)
    requires GraceFree(s.cache)
    ensures GraceFree(BlockWith(s, cfg, host, ip, reason, roll).state.cache)
  {
    GraceFreeFrame(s.cache, BlockWith(s, cfg, host, ip, reason, roll).state.cache, {QuizData(ip)});
  }

  lemma SubmissionGraceFree(s: State, cfg: Settings, host: Host, req: Request)
    requires GraceFree(s.cache)
    ensures GraceFree(SubmissionStage(s, cfg, host, req).state.cache)
  {
    var ip := ClientIp(host, req);
    var r := QuizSubmission(s, cfg, host, req, ip);
    if r.result == Solved {
      var u := Unban(s, ip);
      var c := Delete(u.cache, QuizData(ip));
      GraceFreeFrame(s.cache, u.cache, {BanFlag(ip)});
      GraceFreeFrame(u.cache, c, {QuizData(ip)});
      GraceFreeFrame(c, r.state.cache, {GeoQuizPassed(ip)});
    } else if r.result == Failed {
      GraceFreeFrame(s.cache, r.state.cache, {QuizData(ip)});
    }
  }

  lemma StageGraceFree(st: Stage, s: State, cfg: Settings, host: Host, req: Request, o: Oracle)
    requires GraceFree(s.cache)
    ensures GraceFree(RunStage(st, s, cfg, host, req, o).state.cache)
  {
    match st
    case QuizSubmissionStage => SubmissionGraceFree(s, cfg, host, req);
    case CheckBanStage => CheckBanGraceFree(s, cfg, host, req, o);
    case TrapStage => TrapGraceFree(s, cfg, host, req, o);
    case RateLimitStage => RateLimitGraceFree(s, cfg, host, req, o);
    case JsCheckStage => JsCheckGraceFree(s, cfg, host, req, o);
    case GeoStage => GeoGraceFree(s, cfg, host, req, o);
  }

  lemma CheckBanGraceFree(s: State, cfg: Settings, host: Host, req: Request, o: Oracle)
    requires GraceFree(s.cache)
    ensures GraceFree(CheckBan(s, cfg, host, req, o).state.cache)
  {
    var ip := ClientIp(host, req);
    var reason := OutdatedReason(req);
    BanGraceFree(s, cfg, ip, reason, o.roll);
    BlockGraceFree(Ban(s, cfg, ip, reason, o.roll), cfg, host, ip, "blocked", o.roll);
    BlockGraceFree(s, cfg, host, ip, "blocked", o.roll);
  }

  lemma TrapGraceFree(s: State, cfg: Settings, host: Host, req: Request, o: Oracle)
    requires GraceFree(s.cache)
    ensures GraceFree(Trap(s, cfg, host, req, o).state.cache)
  {
    var ip := ClientIp(host, req);
    var reason := TrapReason(host.sanitizeTitle(cfg.honeypotUrl));
    BanGraceFree(s, cfg, ip, reason, o.roll);
    BlockGraceFree(Ban(s, cfg, ip, reason, o.roll), cfg, host, ip, "blocked", o.roll);
  }

  lemma RateLimitGraceFree(s: State, cfg: Settings, host: Host, req: Request, o: Oracle)
    requires GraceFree(s.cache)
    ensures GraceFree(RateLimit(s, cfg, host, req, o).state.cache)
  {
    var ip := ClientIp(host, req);
    var count := NextCount(Get(s.cache, RateCounter(ip), s.now));
    var counted := s.(cache := Set(s.cache, RateCounter(ip), Count(count), RateWindow, s.now));
    GraceFreeFrame(s.cache, counted.cache, {RateCounter(ip)});
    BanGraceFree(counted, cfg, ip, RateReason(count), o.roll);
    BlockGraceFree(Ban(counted, cfg, ip, RateReason(count), o.roll), cfg, host, ip, "rate_limit", o.roll);
  }

  lemma JsCheckGraceFree(s: State, cfg: Settings, host: Host, req: Request, o: Oracle)
    requires GraceFree(s.cache)
    ensures GraceFree(JsCheck(s, cfg, host, req, o).state.cache)
  {
    var ip := ClientIp(host, req);
    var reason := JsReason(req);
    BanGraceFree(s, cfg, ip, reason, o.roll);
    BlockGraceFree(Ban(s, cfg, ip, reason, o.roll), cfg, host, ip, "blocked", o.roll);
  }

  lemma GeoGraceFree(s: State, cfg: Settings, host: Host, req: Request, o: Oracle)
    requires GraceFree(s.cache)
    ensures GraceFree(GeoCheck(s, cfg, host, req, o).state.cache)
  {
    var ip := ClientIp(host, req);
    var look := CountryFromIp(s, ip, o);
    GraceFreeFrame(s.cache, look.state.cache, {GeoCountry(ip)});
    if look.country.Some? {
      var reason := GeoReason(look.country.value);
      BanGraceFree(look.state, cfg, ip, reason, o.roll);
      BlockGraceFree(Ban(look.state, cfg, ip, reason, o.roll), cfg, host, ip, "geo_quiz", o.roll);
    }
  }

  lemma {:induction false} StagesGraceFree(stages: seq<Stage>, s: State, cfg: Settings, host: Host, req: Request, o: Oracle)
    requires GraceFree(s.cache)
    ensures GraceFree(RunStages(stages, s, cfg, host, req, o).state.cache)
    decreases |stages|
  {
    if stages != [] {
      StageGraceFree(stages[0], s, cfg, host, req, o);
      StagesGraceFree(stages[1..], RunStage(stages[0], s, cfg, host, req, o).state, cfg, host, req, o);
    }
  }

  /**
   * No request ever creates the quiz-solved grace flag: a correct answer sets
   * the geo-quiz pass instead. From a store without the flag, the grace
   * branch of `check_ban` is therefore never taken.
   */
  lemma GraceFlagNeverCreated(s: State, cfg: Settings, host: Host, req: Request, o: Oracle)
    requires GraceFree(s.cache)
    ensures var r := HandleRequest(s, cfg, host, req, o);
      GraceFree(r.state.cache) && forall ip :: !IsSet(r.state.cache, QuizSolved(ip), s.now)
  {
    StagesGraceFree(Stages, s, cfg, host, req, o);
  }

  /* ---------------- test mode ---------------- */

  /** The bans every IP is under: the log table and each IP's flag. */
  ghost predicate SameBans(s: State, s': State) {
    s'.bans == s.bans && s'.now == s.now && forall x :: Get(s'.cache, BanFlag(x), s.now) == Get(s.cache, BanFlag(x), s.now)
  }

  lemma BlockSameBans(s: State, cfg: Settings, host: Host, ip: Ip, reason: string, roll: QuizRoll)
    ensures SameBans(s, BlockWith(s, cfg, host, ip, reason, roll).state)
  {
    var r := BlockWith(s, cfg, host, ip, reason, roll);
    forall x ensures Get(r.state.cache, BanFlag(x), s.now) == Get(s.cache, BanFlag(x), s.now) {
      GetOtherKey(s.cache, r.state.cache, QuizData(ip), BanFlag(x), s.now);
    }
  }

  lemma SameBansTrans(s1: State, s2: State, s3: State)
    requires SameBans(s1, s2) && SameBans(s2, s3)
    ensures SameBans(s1, s3)
  {
  }

  lemma SameBansIsBanned(s: State, s': State, ip: Ip)
    requires SameBans(s, s')
    ensures IsBanned(s', ip) == IsBanned(s, ip)
  {
    assert Get(s'.cache, BanFlag(ip), s.now) == Get(s.cache, BanFlag(ip), s.now);
  }

  /** In test mode no detection layer changes any ban. */
  lemma TestModeStage(st: Stage, s: State, cfg: Settings, host: Host, req: Request, o: Oracle)
    requires cfg.testMode && st != QuizSubmissionStage
    ensures SameBans(s, RunStage(st, s, cfg, host, req, o).state)
  {
    var ip := ClientIp(host, req);
    match st
    case CheckBanStage => TestModeCheckBan(s, cfg, host, req, o);
    case TrapStage => BlockSameBans(s, cfg, host, ip, "blocked", o.roll);
    case RateLimitStage => TestModeRateLimit(s, cfg, host, req, o);
    case JsCheckStage => BlockSameBans(s, cfg, host, ip, "blocked", o.roll);
    case GeoStage => TestModeGeo(s, cfg, host, req, o);
  }

  lemma TestModeCheckBan(s: State, cfg: Settings, host: Host, req: Request, o: Oracle)
    requires cfg.testMode
    ensures SameBans(s, CheckBan(s, cfg, host, req, o).state)
  {
    var ip := ClientIp(host, req);
    BlockSameBans(s, cfg, host, ip, "blocked", o.roll);
    var d := Delete(s.cache, QuizSolved(ip));
    forall x ensures Get(d, BanFlag(x), s.now) == Get(s.cache, BanFlag(x), s.now) {
      GetOtherKey(s.cache, d, QuizSolved(ip), BanFlag(x), s.now);
    }
  }

  lemma TestModeRateLimit(s: State, cfg: Settings, host: Host, req: Request, o: Oracle)
    requires cfg.testMode
    ensures SameBans(s, RateLimit(s, cfg, host, req, o).state)
  {
    var ip := ClientIp(host, req);
    var count := NextCount(Get(s.cache, RateCounter(ip), s.now));
    var counted := s.(cache := Set(s.cache, RateCounter(ip), Count(count), RateWindow, s.now));
    forall x ensures Get(counted.cache, BanFlag(x), s.now) == Get(s.cache, BanFlag(x), s.now) {
      GetOtherKey(s.cache, counted.cache, RateCounter(ip), BanFlag(x), s.now);
    }
    BlockSameBans(counted, cfg, host, ip, "rate_limit", o.roll);
    SameBansTrans(s, counted, BlockWith(counted, cfg, host, ip, "rate_limit", o.roll).state);
  }

  lemma TestModeGeo(s: State, cfg: Settings, host: Host, req: Request, o: Oracle)
    requires cfg.testMode
    ensures SameBans(s, GeoCheck(s, cfg, host, req, o).state)
  {
    var ip := ClientIp(host, req);
    var look := CountryFromIp(s, ip, o);
    forall x ensures Get(look.state.cache, BanFlag(x), s.now) == Get(s.cache, BanFlag(x), s.now) {
      GetOtherKey(s.cache, look.state.cache, GeoCountry(ip), BanFlag(x), s.now);
    }
    BlockSameBans(look.state, cfg, host, ip, "geo_quiz", o.roll);
    SameBansTrans(s, look.state, BlockWith(look.state, cfg, host, ip, "geo_quiz", o.roll).state);
  }

  lemma {:induction false} TestModeStages(stages: seq<Stage>, s: State, cfg: Settings, host: Host, req: Request, o: Oracle)
    requires cfg.testMode && QuizSubmissionStage !in stages
    ensures SameBans(s, RunStages(stages, s, cfg, host, req, o).state)
    ensures RunStages(stages, s, cfg, host, req, o).outcome != Redirect
    decreases |stages|
  {
    if stages != [] {
      var first := RunStage(stages[0], s, cfg, host, req, o);
      TestModeStage(stages[0], s, cfg, host, req, o);
      if first.outcome == Continue {
        assert forall st :: st in stages[1..] ==> st in stages;
        TestModeStages(stages[1..], first.state, cfg, host, req, o);
        SameBansTrans(s, first.state, RunStages(stages[1..], first.state, cfg, host, req, o).state);
      }
    }
  }

  /**
   * Test mode records no ban and lifts none (short of a quiz answer): every
   * IP is banned after the request exactly as before. A block in test mode
   * still ends the request; with the block page on, the template then sends a
   * client that was not banned back to the home page.
   */
  lemma TestModeKeepsBans(s: State, cfg: Settings, host: Host, req: Request, o: Oracle)
    requires cfg.testMode && !Answerable(s, host, req, ClientIp(host, req))
    ensures var r := HandleRequest(s, cfg, host, req, o);
      && r.state.bans == s.bans
      && (forall ip :: IsBanned(r.state, ip) == IsBanned(s, ip))
      && (ShowsBlockPage(cfg, host) && !IsBanned(s, ClientIp(host, req)) ==>
            Respond(r.state, cfg, host, req, r.outcome) in {Pass, RedirectHome})
  {
    var r := HandleRequest(s, cfg, host, req, o);
    assert SameBans(s, r.state) && r.outcome != Redirect by {
      HandleRequestUnanswered(s, cfg, host, req, o);
      TestModeStages(Stages[1..], s, cfg, host, req, o);
    }
    KeptBansRespond(s, r, cfg, host, req);
  }

  /**
   * A step that keeps every ban and does not redirect leaves each IP banned
   * as before, and the block page passes or sends home a client not banned.
   */
  lemma KeptBansRespond(s: State, r: Step, cfg: Settings, host: Host, req: Request)
    requires SameBans(s, r.state) && r.outcome != Redirect
    ensures r.state.bans == s.bans && forall ip :: IsBanned(r.state, ip) == IsBanned(s, ip)
    ensures ShowsBlockPage(cfg, host) && !IsBanned(s, ClientIp(host, req)) ==>
      Respond(r.state, cfg, host, req, r.outcome) in {Pass, RedirectHome}
  {
    forall ip ensures IsBanned(r.state, ip) == IsBanned(s, ip) {
      SameBansIsBanned(s, r.state, ip);
    }
  }
}

=== FILE: layers.dfy ===
/**
 * The detection layers of `SBT_Detection_Layers` as functions on the store:
 * each `init` hook either lets the request continue, or terminates it with a
 * block page (or the redirect after a quiz answer). `block()` ends the request,
 * so a stage that blocks is the last one to run.
 */
module Layers {
  import opened Wrappers
  import opened Text
  import opened Transients
  import opened Config
  import opened BanStore
  import opened Browser

  /** How a stage ends: the request goes on, is blocked with a reason, or is redirected. */
  datatype Outcome = Continue | Block(reason: string) | Redirect

  datatype Step = Step(state: State, outcome: Outcome)

  /**
   * What the request meets that the model cannot compute: the `rand()` draws
   * of the one quiz a request can create, and the country each geo provider
   * answers (None for a failed lookup).
   */
  datatype Oracle = Oracle(roll: QuizRoll, primary: Option<string>, secondary: Option<string>)

  const RateWindow: int := 60
  const GeoCacheTtl: int := 86400

  /** `!should_protect() || is_whitelisted_bot()`: the early return of every layer. */
  predicate Exempt(req: Request) {
    req.loggedIn || IsWhitelistedBotUa(req.userAgent)
  }

  /* ---------------- block ---------------- */

  /** The block page is shown: enabled and the template file exists. */
  predicate ShowsBlockPage(cfg: Settings, host: Host) {
    cfg.enableBlockPage && host.templatePresent
  }

  /**
   * `block($reason)`: with the block page in quiz mode a quiz is made ready
   * for the client first; the request ends either way.
   */
  function BlockWith(s: State, cfg: Settings, host: Host, ip: Ip, reason: string, roll: QuizRoll): (r: Step)
    ensures r.outcome == Block(reason)
    ensures r.state.bans == s.bans && r.state.fingerprints == s.fingerprints && r.state.now == s.now
    ensures r.state.cache - {QuizData(ip)} == s.cache - {QuizData(ip)}
    ensures ShowsBlockPage(cfg, host) && cfg.blockMode == QuizBlockMode ==> StoredQuiz(r.state.cache, ip, s.now).Some?
  {
    if ShowsBlockPage(cfg, host) && cfg.blockMode == QuizBlockMode then Step(GetOrCreateQuiz(s, ip, roll).state, Block(reason))
    else Step(s, Block(reason))
  }

  /** What the client receives once all stages have run. */
  datatype Response = Pass | RedirectTo(uri: string) | RedirectHome | Page(status: int) | DiePage(status: int)

  /**
   * The response to a stage outcome in the final state: a redirect after a
   * quiz answer goes back to the same URI; a block shows the template, which
   * sends a client that is not banned (as in test mode) home and otherwise
   * answers 429 for the sanitised reason "rate_limit" and 403 for any other;
   * without the template `wp_die` answers with its default status 500.
   */
  function Respond(s: State, cfg: Settings, host: Host, req: Request, outcome: Outcome): (r: Response)
    ensures r == Pass <==> outcome == Continue
    ensures r.RedirectTo? <==> outcome == Redirect
    ensures r.DiePage? <==> outcome.Block? && !ShowsBlockPage(cfg, host)
    ensures r.RedirectHome? <==> outcome.Block? && ShowsBlockPage(cfg, host) && !IsBanned(s, ClientIp(host, req))
    ensures r.Page? ==> outcome.Block? && (r.status == 429 <==> host.sanitizeText(outcome.reason) == "rate_limit")
    ensures r.Page? ==> r.status == 403 || r.status == 429
    ensures r.DiePage? ==> r.status == 500
  {
    match outcome
    case Continue => Pass
    case Redirect => RedirectTo(req.uri)
    case Block(reason) =>
      if !ShowsBlockPage(cfg, host) then DiePage(500)
      else if !IsBanned(s, ClientIp(host, req)) then RedirectHome
      else Page(if host.sanitizeText(reason) == "rate_limit" then 429 else 403)
  }

  /* ---------------- priority 1: handle_quiz_submission ---------------- */

  /** The quiz submission hook; it runs before, and regardless of, the exemptions. */
  function SubmissionStage(s: State, cfg: Settings, host: Host, req: Request): (r: Step)
    ensures r.outcome == Continue <==> r.state == s
  {
    var sub := QuizSubmission(s, cfg, host, req, ClientIp(host, req));
    Step(sub.state, if sub.result == NotHandled then Continue else Redirect)
  }

  /* ---------------- priority 5: check_ban ---------------- */

  /** The ban reason for an outdated browser, naming it. */
  function OutdatedReason(req: Request): string {
    "Outdated browser detected (" + BrowserDetails(req) + ")"
  }

  /**
   * `ban_ip($reason)` then `block($tag)`, as every layer does when it
   * fires: outside test mode an IP not yet banned gets one more log row and is
   * left banned, and the request ends with the tag either way.
   */
  function BanAndBlock(s: State, cfg: Settings, host: Host, ip: Ip, reason: string, tag: string, roll: QuizRoll): (r: Step)
    ensures r.outcome == Block(tag)
    ensures r.state.fingerprints == s.fingerprints && r.state.now == s.now
    ensures IsBanned(s, ip) || cfg.testMode ==> r.state.bans == s.bans
    ensures !IsBanned(s, ip) && !cfg.testMode ==>
      r.state.bans == s.bans + [BanRow(ip, reason, s.now, s.now + BanSeconds(cfg))]
    ensures !cfg.testMode && cfg.banHours >= 0 ==> IsBanned(r.state, ip)
  {
    var banned := Ban(s, cfg, ip, reason, roll);
    BanEffect(s, cfg, ip, reason, roll);
    var r := BlockWith(banned, cfg, host, ip, tag, roll);
    GetOtherKey(banned.cache, r.state.cache, QuizData(ip), BanFlag(ip), s.now);
    r
  }

  /**
   * `check_ban`: a quiz-solved grace flag is consumed and the request passes;
   * else an outdated browser (when that check is on) is banned and blocked;
   * else an IP already banned is blocked.
   */
  function CheckBan(s: State, cfg: Settings, host: Host, req: Request, o: Oracle): Step {
    if Exempt(req) then Step(s, Continue)
    else
      var ip := ClientIp(host, req);
      if IsSet(s.cache, QuizSolved(ip), s.now) then Step(s.(cache := Delete(s.cache, QuizSolved(ip))), Continue)
      else if cfg.enableOutdatedBrowserCheck && IsOutdatedBrowser(req) then
        BanAndBlock(s, cfg, host, ip, OutdatedReason(req), "blocked", o.roll)
      else if IsBanned(s, ip) then BlockWith(s, cfg, host, ip, "blocked", o.roll)
      else Step(s, Continue)
  }

  /* ---------------- priority 6: trap_hidden_url ---------------- */

  /** The ban reason for the honeypot, naming the sanitised slug. */
  function TrapReason(slug: string): string {
    "Hidden trap URL accessed (" + slug + ")"
  }

  /** The path a request must contain to spring the trap: "/" and the sanitised slug. */
  function TrapPath(cfg: Settings, host: Host): string {
    "/" + host.sanitizeTitle(cfg.honeypotUrl)
  }

  /** `trap_hidden_url`. */
  function Trap(s: State, cfg: Settings, host: Host, req: Request, o: Oracle): Step {
    if Exempt(req) || !cfg.enableTrap then Step(s, Continue)
    else if Contains(req.uri, TrapPath(cfg, host)) then
      var ip := ClientIp(host, req);
      BanAndBlock(s, cfg, host, ip, TrapReason(host.sanitizeTitle(cfg.honeypotUrl)), "blocked", o.roll)
    else Step(s, Continue)
  }

  /* ---------------- priority 7: rate_limit ---------------- */

  /** `$count ? $count + 1 : 1` on what the counter transient holds. */
  function NextCount(stored: Option<Value>): (n: int)
    ensures stored.Some? && stored.value.Count? && stored.value.n != 0 ==> n == stored.value.n + 1
    ensures !(stored.Some? && stored.value.Count? && stored.value.n != 0) ==> n == 1
  {
    match stored
    case Some(Count(c)) => if c != 0 then c + 1 else 1
    case _ => 1
  }

  function RateReason(count: int): string {
    "Rate limit exceeded (" + IntToString(count) + "/min)"
  }

  /**
   * `rate_limit`: the counter is read, incremented and written back with a
   * fresh 60-second lifetime; above the limit the client is banned and blocked,
   * otherwise the request is fingerprinted with the count as extra data.
   */
  function RateLimit(s: State, cfg: Settings, host: Host, req: Request, o: Oracle): Step {
    if Exempt(req) || !cfg.enableRateLimit then Step(s, Continue)
    else
      var ip := ClientIp(host, req);
      var count := NextCount(Get(s.cache, RateCounter(ip), s.now));
      var counted := s.(cache := Set(s.cache, RateCounter(ip), Count(count), RateWindow, s.now));
      if count > cfg.rateLimit then
        BanAndBlock(counted, cfg, host, ip, RateReason(count), "rate_limit", o.roll)
      else Step(RecordFingerprint(counted, ip, req, IntToString(count)), Continue)
  }

  /* ---------------- priority 8: block_without_js ---------------- */

  /** A REST API path outside the core `wp/v2` routes. */
  predicate GuardedApiPath(uri: string) {
    Contains(uri, "/wp-json/") && !Contains(uri, "/wp/v2/")
  }

  /** The `sbt_verified` cookie is present and holds this hour's token. */
  predicate ValidJsCookie(s: State, host: Host, req: Request) {
    req.jsCookie.Some? && req.jsCookie.value == host.hourToken(s.now / HourInSeconds)
  }

  function JsReason(req: Request): string {
    "No valid JS verification (" + BrowserDetails(req) + ")"
  }

  /** `block_without_js`. */
  function JsCheck(s: State, cfg: Settings, host: Host, req: Request, o: Oracle): Step {
    if Exempt(req) || !cfg.enableJsCheck || IsWhitelistedBrowserUa(cfg.whitelistedBrowsers, req.userAgent) then Step(s, Continue)
    else if GuardedApiPath(req.uri) && !ValidJsCookie(s, host, req) then
      var ip := ClientIp(host, req);
      BanAndBlock(s, cfg, host, ip, JsReason(req), "blocked", o.roll)
    else Step(s, Continue)
  }

  /* ---------------- priority 9: geo_based_quiz_check ---------------- */

  datatype Lookup = Lookup(state: State, country: Option<string>)

  /** The country cached for `ip`, while its entry has not timed out. */
  function CachedCountry(s: State, ip: Ip): Option<string> {
    match Get(s.cache, GeoCountry(ip), s.now)
    case Some(CountryCode(c)) => Some(c)
    case _ => None
  }

  /** A provider's answer that `if ($country)` accepts. */
  predicate Answered(answer: Option<string>) {
    answer.Some? && Truthy(answer.value)
  }

  /** The entry for `ip` holds `country` for exactly one day from `now`. */
  predicate CachedForADay(s: State, ip: Ip, country: string, now: int) {
    && Get(s.cache, GeoCountry(ip), now) == Some(CountryCode(country))
    && Get(s.cache, GeoCountry(ip), now + GeoCacheTtl) == Some(CountryCode(country))
    && Get(s.cache, GeoCountry(ip), now + GeoCacheTtl + 1) == None
  }

  /**
   * `get_country_from_ip`: the cached country, else the first provider that
   * answers (cached for a day); None when both fail, with nothing cached.
   */
  function CountryFromIp(s: State, ip: Ip, o: Oracle): (r: Lookup)
    ensures r.state.bans == s.bans && r.state.fingerprints == s.fingerprints && r.state.now == s.now
    ensures r.state.cache - {GeoCountry(ip)} == s.cache - {GeoCountry(ip)}
    ensures r.country.None? ==> r.state == s
    ensures r.state != s ==> r.country.Some? && Get(r.state.cache, GeoCountry(ip), s.now) == Some(CountryCode(r.country.value))
    ensures CachedCountry(s, ip).Some? ==> r == Lookup(s, CachedCountry(s, ip))
    ensures CachedCountry(s, ip).None? && Answered(o.primary) ==>
      r.country == o.primary && CachedForADay(r.state, ip, o.primary.value, s.now)
    ensures CachedCountry(s, ip).None? && !Answered(o.primary) && Answered(o.secondary) ==>
      r.country == o.secondary && CachedForADay(r.state, ip, o.secondary.value, s.now)
    ensures CachedCountry(s, ip).None? && !Answered(o.primary) && !Answered(o.secondary) ==> r == Lookup(s, None)
  {
    match Get(s.cache, GeoCountry(ip), s.now)
    case Some(CountryCode(c)) => Lookup(s, Some(c))
    case _ =>
      if o.primary.Some? && Truthy(o.primary.value) then
        Lookup(s.(cache := Set(s.cache, GeoCountry(ip), CountryCode(o.primary.value), GeoCacheTtl, s.now)), o.primary)
      else if o.secondary.Some? && Truthy(o.secondary.value) then
        Lookup(s.(cache := Set(s.cache, GeoCountry(ip), CountryCode(o.secondary.value), GeoCacheTtl, s.now)), o.secondary)
      else Lookup(s, None)
  }

  /** `array_map('trim', explode(',', strtoupper($list)))`. */
  function CountryList(list: string): seq<string> {
    TrimAll(Split(Upper(list), ','))
  }

  function GeoReason(country: string): string {
    "Geo-based quiz required (Country: " + country + ")"
  }

  /** The geo layer is switched on: enabled, quiz block mode, and a non-empty country list. */
  predicate GeoActive(cfg: Settings) {
    cfg.enableGeoQuiz && cfg.blockMode == QuizBlockMode && Truthy(cfg.geoQuizCountries)
  }

  /** `geo_based_quiz_check`. */
  function GeoCheck(s: State, cfg: Settings, host: Host, req: Request, o: Oracle): Step {
    if Exempt(req) || !GeoActive(cfg) then Step(s, Continue)
    else
      var ip := ClientIp(host, req);
      if IsSet(s.cache, GeoQuizPassed(ip), s.now) || IsBanned(s, ip) then Step(s, Continue)
      else
        var look := CountryFromIp(s, ip, o);
        if look.country.None? || !Truthy(look.country.value) then Step(look.state, Continue)
        else if Upper(look.country.value) in CountryList(cfg.geoQuizCountries) then
          BanAndBlock(look.state, cfg, host, ip, GeoReason(look.country.value), "geo_quiz", o.roll)
        else Step(look.state, Continue)
  }

  /* ---------------- the init hooks in priority order ---------------- */

  datatype Stage = QuizSubmissionStage | CheckBanStage | TrapStage | RateLimitStage | JsCheckStage | GeoStage

  /** The `add_action('init', ..., priority)` priority of each stage. */
  function Priority(st: Stage): int {
    match st
    case QuizSubmissionStage => 1
    case CheckBanStage => 5
    case TrapStage => 6
    case RateLimitStage => 7
    case JsCheckStage => 8
    case GeoStage => 9
  }

  const Stages: seq<Stage> := [QuizSubmissionStage, CheckBanStage, TrapStage, RateLimitStage, JsCheckStage, GeoStage]

  function RunStage(st: Stage, s: State, cfg: Settings, host: Host, req: Request, o: Oracle): Step {
    match st
    case QuizSubmissionStage => SubmissionStage(s, cfg, host, req)
    case CheckBanStage => CheckBan(s, cfg, host, req, o)
    case TrapStage => Trap(s, cfg, host, req, o)
    case RateLimitStage => RateLimit(s, cfg, host, req, o)
    case JsCheckStage => JsCheck(s, cfg, host, req, o)
    case GeoStage => GeoCheck(s, cfg, host, req, o)
  }

  /** Run the stages in order; the first one that does not continue ends the request. */
  function RunStages(stages: seq<Stage>, s: State, cfg: Settings, host: Host, req: Request, o: Oracle): (r: Step)
    decreases |stages|
  {
    if stages == [] then Step(s, Continue)
    else
      var first := RunStage(stages[0], s, cfg, host, req, o);
      if first.outcome != Continue then first
      else RunStages(stages[1..], first.state, cfg, host, req, o)
  }

  /**
   * Running two lists of stages one after the other is running their
   * concatenation: the second list starts from the state the first leaves,
   * and is skipped when the first ends the request.
   */
  lemma {:induction false} RunStagesAppend(a: seq<Stage>, b: seq<Stage>, s: State, cfg: Settings, host: Host, req: Request, o: Oracle)
    ensures var first := RunStages(a, s, cfg, host, req, o);
      RunStages(a + b, s, cfg, host, req, o) == (if first.outcome != Continue then first else RunStages(b, first.state, cfg, host, req, o))
    decreases |a|
  {
    if a != [] {
      assert (a + b)[1..] == a[1..] + b;
      var step := RunStage(a[0], s, cfg, host, req, o);
      if step.outcome == Continue {
        RunStagesAppend(a[1..], b, step.state, cfg, host, req, o);
      }
    } else {
      assert a + b == b;
    }
  }

  /** One request through all `init` hooks. */
  function HandleRequest(s: State, cfg: Settings, host: Host, req: Request, o: Oracle): Step {
    RunStages(Stages, s, cfg, host, req, o)
  }
}

=== FILE: php_text.dfy ===
/**
 * The PHP string primitives the plugin relies on, over `string` (a sequence of
 * characters): `empty()` on a string, `strpos(...) !== false`, `explode`, `trim`,
 * the ASCII-only `strtolower`/`strtoupper` of PHP 8, and integer-to-string
 * conversion.
 */
module Text {

  /** The negation of PHP's `empty()` on a string: both "" and "0" are empty. */
  predicate Truthy(s: string) {
    s != "" && s != "0"
  }

  predicate StartsWith(s: string, p: string) {
    |p| <= |s| && s[..|p|] == p
  }

  /** `strpos($s, $t) !== false`; as in PHP 8, the empty needle is found everywhere. */
  predicate Contains(s: string, t: string)
    decreases |s|
  {
    StartsWith(s, t) || (|s| > 0 && Contains(s[1..], t))
  }

  lemma ContainsPrefix(t: string, b: string)
    ensures Contains(t + b, t)
  {
    assert (t + b)[..|t|] == t;
  }

  /** A needle found in `s` is still found after anything is put in front of `s`. */
  lemma {:induction false} ContainsAfter(a: string, s: string, t: string)
    requires Contains(s, t)
    ensures Contains(a + s, t)
    decreases |a|
  {
    if a == [] {
      assert a + s == s;
    } else {
      assert (a + s)[1..] == a[1..] + s;
      ContainsAfter(a[1..], s, t);
    }
  }

  /** A needle found in `s` is still found after anything is appended to `s`. */
  lemma {:induction false} ContainsBefore(s: string, b: string, t: string)
    requires Contains(s, t)
    ensures Contains(s + b, t)
    decreases |s|
  {
    if StartsWith(s, t) {
      assert (s + b)[..|t|] == s[..|t|];
    } else {
      assert (s + b)[1..] == s[1..] + b;
      ContainsBefore(s[1..], b, t);
    }
  }

  lemma ContainsMiddle(a: string, t: string, b: string)
    ensures Contains(a + t + b, t)
  {
    ContainsPrefix(t, b);
    ContainsAfter(a, t + b, t);
    assert a + (t + b) == a + t + b;
  }

  /** A needle whose first character never occurs in `s` is not found in `s`. */
  lemma {:induction false} NotContainsFirstChar(s: string, t: string)
    requires |t| > 0 && t[0] !in s
    ensures !Contains(s, t)
    decreases |s|
  {
    if |t| <= |s| {
      assert s[..|t|][0] == s[0] && s[0] in s;
    }
    if |s| > 0 {
      assert forall c :: c in s[1..] ==> c in s;
      NotContainsFirstChar(s[1..], t);
    }
  }

  /* ---------------- ASCII case mapping (PHP 8 strtolower / strtoupper) ---------------- */

  function LowerChar(c: char): char {
    if 'A' <= c <= 'Z' then (c as int + 32) as char else c
  }

  function UpperChar(c: char): char {
    if 'a' <= c <= 'z' then (c as int - 32) as char else c
  }

  function Lower(s: string): (r: string)
    ensures |r| == |s|
    ensures forall i :: 0 <= i < |s| ==> r[i] == LowerChar(s[i])
  {
    seq(|s|, i requires 0 <= i < |s| => LowerChar(s[i]))
  }

  function Upper(s: string): (r: string)
    ensures |r| == |s|
    ensures forall i :: 0 <= i < |s| ==> r[i] == UpperChar(s[i])
  {
    if s == [] then [] else [UpperChar(s[0])] + Upper(s[1..])
  }

  /** Lowering works character by character, so it distributes over concatenation. */
  lemma LowerAppend(a: string, b: string)
    ensures Lower(a + b) == Lower(a) + Lower(b)
  {
    assert forall i :: 0 <= i < |a + b| ==> Lower(a + b)[i] == (Lower(a) + Lower(b))[i];
  }

  /** Lowering a slice is slicing the lowered string. */
  lemma LowerSlice(s: string, i: nat, j: nat)
    requires i <= j <= |s|
    ensures Lower(s)[i..j] == Lower(s[i..j])
  {
    assert forall k :: 0 <= k < j - i ==> Lower(s)[i..j][k] == LowerChar(s[i + k]);
  }

  /** A needle found in the lowered slice `s[i..j]` is found in the lowered `s`. */
  lemma ContainsLowerSlice(s: string, i: nat, j: nat, t: string)
    requires i <= j <= |s| && Contains(Lower(s[i..j]), t)
    ensures Contains(Lower(s), t)
  {
    assert Lower(s)[i..j] == Lower(s[i..j]);
    ContainsSlice(Lower(s), i, j, t);
  }

  /** A needle found in a slice of `u` is found in `u`. */
  lemma ContainsSlice(u: string, i: nat, j: nat, t: string)
    requires i <= j <= |u| && Contains(u[i..j], t)
    ensures Contains(u, t)
  {
    var a, m, b := u[..i], u[i..j], u[j..];
    ContainsBefore(m, b, t);
    ContainsAfter(a, m + b, t);
    assert a + (m + b) == u;
  }

  /** A needle found in the lowered tail of `s` is found in the lowered `s`. */
  lemma ContainsLowerTail(s: string, t: string)
    requires s != [] && Contains(Lower(s[1..]), t)
    ensures Contains(Lower(s), t)
  {
    assert Lower(s)[1..] == Lower(s[1..]);
  }

  /* ---------------- explode ---------------- */

  /**
   * `explode($sep, $s)` for a one-character separator: the pieces between
   * separators, in order; the empty string gives one empty piece.
   */
  function Split(s: string, sep: char): (parts: seq<string>)
    ensures |parts| >= 1
    ensures forall i :: 0 <= i < |parts| ==> sep !in parts[i]
    decreases |s|
  {
    if s == [] then [""]
    else
      var rest := Split(s[1..], sep);
      if s[0] == sep then [""] + rest
      else [[s[0]] + rest[0]] + rest[1..]
  }

  /** `implode($sep, $parts)`. */
  function Join(parts: seq<string>, sep: char): string
    requires |parts| >= 1
  {
    if |parts| == 1 then parts[0] else parts[0] + [sep] + Join(parts[1..], sep)
  }

  /** Splitting loses nothing: joining the pieces back gives the original string. */
  lemma {:induction false} JoinSplit(s: string, sep: char)
    ensures Join(Split(s, sep), sep) == s
    decreases |s|
  {
    if s != [] {
      var rest := Split(s[1..], sep);
      JoinSplit(s[1..], sep);
      if s[0] == sep {
        assert Split(s, sep)[1..] == rest;
      } else {
        var parts := Split(s, sep);
        assert parts[0] == [s[0]] + rest[0];
        if |rest| == 1 {
          assert Join(parts, sep) == [s[0]] + rest[0];
        } else {
          assert parts[1..] == rest[1..];
          assert Join(rest, sep) == rest[0] + [sep] + Join(rest[1..], sep);
          assert Join(parts, sep) == [s[0]] + rest[0] + [sep] + Join(rest[1..], sep);
          assert s == [s[0]] + s[1..];
        }
      }
    }
  }

  /** A string without the separator is a single piece. */
  lemma {:induction false} SplitNoSeparator(a: string, sep: char)
    requires sep !in a
    ensures Split(a, sep) == [a]
    decreases |a|
  {
    if a != [] {
      assert forall c :: c in a[1..] ==> c in a;
      SplitNoSeparator(a[1..], sep);
      assert a[0] != sep && [a[0]] + a[1..] == a;
    }
  }

  /** A separator-free piece followed by the separator comes off as the first piece. */
  lemma {:induction false} SplitAfterPiece(a: string, sep: char, b: string)
    requires sep !in a
    ensures Split(a + [sep] + b, sep) == [a] + Split(b, sep)
    decreases |a|
  {
    if a == [] {
      assert a + [sep] + b == [sep] + b;
      assert ([sep] + b)[1..] == b;
    } else {
      assert (a + [sep] + b)[1..] == a[1..] + [sep] + b;
      assert forall c :: c in a[1..] ==> c in a;
      SplitAfterPiece(a[1..], sep, b);
      assert [a[0]] + a[1..] == a;
    }
  }

  /** The first piece of `explode` is everything before the first separator. */
  lemma {:induction false} SplitFirstIsPrefix(s: string, sep: char)
    ensures StartsWith(s, Split(s, sep)[0])
    ensures |Split(s, sep)[0]| < |s| ==> s[|Split(s, sep)[0]|] == sep
    decreases |s|
  {
    if s != [] && s[0] != sep {
      SplitFirstIsPrefix(s[1..], sep);
    }
  }

  /* ---------------- trim ---------------- */

  /** The characters PHP's `trim` removes by default: " \t\n\r\0\x0B". */
  predicate IsTrimChar(c: char) {
    c == ' ' || c == '\t' || c == '\n' || c == '\r' || c == 0 as char || c == 11 as char
  }

  /** Every character of `t` is one that `trim` removes. */
  predicate AllTrim(t: string) {
    forall k :: 0 <= k < |t| ==> IsTrimChar(t[k])
  }

  /** The index of the first character from `i` on that `trim` keeps (`|s|` if none). */
  function KeptFrom(s: string, i: nat): (k: nat)
    requires i <= |s|
    ensures i <= k <= |s|
    ensures forall m :: i <= m < k ==> IsTrimChar(s[m])
    ensures k == |s| || !IsTrimChar(s[k])
    decreases |s| - i
  {
    if i < |s| && IsTrimChar(s[i]) then KeptFrom(s, i + 1) else i
  }

  /** The index just past the last character below `j`, and not below `lo`, that `trim` keeps (`lo` if none). */
  function KeptUntil(s: string, lo: nat, j: nat): (k: nat)
    requires lo <= j <= |s|
    ensures lo <= k <= j
    ensures forall m :: k <= m < j ==> IsTrimChar(s[m])
    ensures k == lo || !IsTrimChar(s[k - 1])
    decreases j
  {
    if j > lo && IsTrimChar(s[j - 1]) then KeptUntil(s, lo, j - 1) else j
  }

  /** PHP's `trim`: the longest middle part that neither starts nor ends with a trim character. */
  function Trim(s: string): (r: string)
    ensures |r| <= |s|
    ensures r == [] || (!IsTrimChar(r[0]) && !IsTrimChar(r[|r| - 1]))
    ensures var i := KeptFrom(s, 0);
      && i + |r| <= |s| && r == s[i..i + |r|]
      && AllTrim(s[..i]) && AllTrim(s[i + |r|..])
  {
    var i := KeptFrom(s, 0);
    var j := KeptUntil(s, i, |s|);
    s[i..j]
  }

  /** A string with nothing to trim at either end is left as it is. */
  lemma TrimUnchanged(s: string)
    requires s != [] && !IsTrimChar(s[0]) && !IsTrimChar(s[|s| - 1])
    ensures Trim(s) == s
  {
  }

  /* ---------------- digits and integer-to-string ---------------- */

  predicate IsDigit(c: char) {
    '0' <= c <= '9'
  }

  predicate AllDigits(s: string) {
    forall i :: 0 <= i < |s| ==> IsDigit(s[i])
  }

  function DigitChar(d: nat): (c: char)
    requires d < 10
    ensures IsDigit(c) && c as int - '0' as int == d
  {
    ('0' as int + d) as char
  }

  /** PHP's decimal rendering of a non-negative integer, without leading zeros. */
  function NatToString(n: nat): (r: string)
    ensures |r| >= 1 && AllDigits(r)
    ensures |r| > 1 ==> r[0] != '0'
    decreases n
  {
    if n < 10 then [DigitChar(n)] else NatToString(n / 10) + [DigitChar(n % 10)]
  }

  /** PHP's decimal rendering of an integer ("-" before negative values). */
  function IntToString(i: int): (r: string)
    ensures |r| >= 1
    ensures i >= 0 ==> r == NatToString(i)
    ensures i < 0 ==> r == "-" + NatToString(-i)
  {
    if i < 0 then "-" + NatToString(-i) else NatToString(i)
  }

  /** The value of a string of decimal digits (what `(int)` makes of it, ignoring PHP's 64-bit cap). */
  function DigitsValue(ds: string): nat
    requires AllDigits(ds)
    decreases |ds|
  {
    if ds == [] then 0
    else DigitsValue(ds[..|ds| - 1]) * 10 + (ds[|ds| - 1] as int - '0' as int)
  }

  /** Reading back a rendered number gives the number. */
  lemma {:induction false} NatToStringRoundTrip(n: nat)
    ensures DigitsValue(NatToString(n)) == n
    decreases n
  {
    if n >= 10 {
      NatToStringRoundTrip(n / 10);
      var r := NatToString(n);
      assert r[..|r| - 1] == NatToString(n / 10);
    }
  }
}

=== FILE: seqs.dfy ===
/**
 * Sequence helpers for the SQL the core issues: `WHERE` as a filter, and
 * ordering by a key, largest first (PHP's `arsort` on the label counts and the
 * `ORDER BY banned_at DESC` of the active-ban listing).
 */
module Seqs {

  /** The elements of `s` that satisfy `p`, in their original order. */
  function Filter<T(!new)>(s: seq<T>, p: T -> bool): (r: seq<T>)
    ensures |r| <= |s|
    ensures forall x :: x in r <==> x in s && p(x)
  {
    if s == [] then []
    else if p(s[0]) then [s[0]] + Filter(s[1..], p)
    else Filter(s[1..], p)
  }

  /** Filtering twice with the same predicate changes nothing the second time. */
  lemma {:induction false} FilterIdempotent<T(!new)>(s: seq<T>, p: T -> bool)
    ensures Filter(Filter(s, p), p) == Filter(s, p)
  {
    if s != [] {
      FilterIdempotent(s[1..], p);
    }
  }

  /** Keeping everything keeps the sequence as it is. */
  lemma {:induction false} FilterAll<T(!new)>(s: seq<T>, p: T -> bool)
    requires forall x :: x in s ==> p(x)
    ensures Filter(s, p) == s
  {
    if s != [] {
      assert forall x :: x in s[1..] ==> x in s;
      FilterAll(s[1..], p);
      assert s == [s[0]] + s[1..];
    }
  }

  /** Keeping nothing leaves nothing. */
  lemma {:induction false} FilterNone<T(!new)>(s: seq<T>, p: T -> bool)
    requires forall x :: x in s ==> !p(x)
    ensures Filter(s, p) == []
  {
    if s != [] {
      assert forall x :: x in s[1..] ==> x in s;
      FilterNone(s[1..], p);
    }
  }

  /** Filtering distributes over appending one element. */
  lemma {:induction false} FilterAppend<T(!new)>(s: seq<T>, x: T, p: T -> bool)
    ensures Filter(s + [x], p) == Filter(s, p) + (if p(x) then [x] else [])
  {
    if s != [] {
      assert (s + [x])[1..] == s[1..] + [x];
      FilterAppend(s[1..], x, p);
    }
  }

  predicate SortedDesc<T>(s: seq<T>, key: T -> int) {
    forall i, j :: 0 <= i < j < |s| ==> key(s[i]) >= key(s[j])
  }

  lemma SliceSorted<T>(s: seq<T>, i: nat, j: nat, key: T -> int)
    requires i <= j <= |s| && SortedDesc(s, key)
    ensures SortedDesc(s[i..j], key)
  {
    var t := s[i..j];
    forall a, b | 0 <= a < b < |t| ensures key(t[a]) >= key(t[b]) {
      assert t[a] == s[i + a] && t[b] == s[i + b];
    }
  }

  /** SQL `LIMIT limit OFFSET offset`: at most `limit` elements of `s`, from `offset` on. */
  function Page<T>(s: seq<T>, limit: nat, offset: nat): (page: seq<T>)
    ensures |page| <= limit
    ensures offset >= |s| ==> page == []
    ensures offset < |s| && offset + limit <= |s| ==> page == s[offset..offset + limit]
    ensures offset < |s| && offset + limit > |s| ==> page == s[offset..]
    ensures offset < |s| ==> page == s[offset..offset + |page|]
  {
    if offset >= |s| then []
    else if offset + limit <= |s| then s[offset..offset + limit]
    else s[offset..]
  }

  /** A page of a sorted sequence is sorted, and holds only elements of the sequence. */
  lemma PageOfSorted<T>(s: seq<T>, limit: nat, offset: nat, key: T -> int)
    requires SortedDesc(s, key)
    ensures SortedDesc(Page(s, limit, offset), key)
    ensures forall x :: x in Page(s, limit, offset) ==> x in s
  {
    var page := Page(s, limit, offset);
    if offset < |s| {
      SliceSorted(s, offset, offset + |page|, key);
      SliceMembers(s, offset, offset + |page|);
    }
  }

  /** Consecutive pages join up: nothing is skipped or repeated between them. */
  lemma PagesJoin<T>(s: seq<T>, a: nat, b: nat, offset: nat)
    ensures Page(s, a, offset) + Page(s, b, offset + a) == Page(s, a + b, offset)
  {
    if offset < |s| && offset + a < |s| {
      var e2 := if offset + a + b <= |s| then offset + a + b else |s|;
      assert Page(s, a, offset) == s[offset..offset + a];
      assert Page(s, b, offset + a) == s[offset + a..e2];
      assert Page(s, a + b, offset) == s[offset..e2];
      assert s[offset..offset + a] + s[offset + a..e2] == s[offset..e2];
    }
  }

  lemma SliceMembers<T>(s: seq<T>, i: nat, j: nat)
    requires i <= j <= |s|
    ensures forall x :: x in s[i..j] ==> x in s
  {
    forall x | x in s[i..j] ensures x in s {
      var k :| 0 <= k < j - i && s[i..j][k] == x;
      assert s[i + k] == x;
    }
  }

  /** Put `x` in front of the first element whose key is not larger than its own. */
  function Insert<T(==)>(x: T, s: seq<T>, key: T -> int): (r: seq<T>)
    requires SortedDesc(s, key)
    ensures SortedDesc(r, key)
    ensures multiset(r) == multiset(s) + multiset{x}
    ensures |r| == |s| + 1
    ensures forall y :: y in r ==> y == x || y in s
  {
    if s == [] || key(x) >= key(s[0]) then [x] + s
    else
      SliceSorted(s, 1, |s|, key);
      var tail := Insert(x, s[1..], key);
      assert s == [s[0]] + s[1..];
      HeadBoundsTail(s[0], tail, x, s[1..], key);
      HeadOnto(s[0], tail, x, s[1..]);
      [s[0]] + tail
  }

  /** Putting the same head on both sides keeps `tail` equal to `rest` plus `x`. */
  lemma HeadOnto<T>(h: T, tail: seq<T>, x: T, rest: seq<T>)
    requires multiset(tail) == multiset(rest) + multiset{x}
    requires forall y :: y in tail ==> y == x || y in rest
    ensures multiset([h] + tail) == multiset([h] + rest) + multiset{x}
    ensures forall y :: y in [h] + tail ==> y == x || y in [h] + rest
  {
    assert multiset([h] + tail) == multiset{h} + multiset(tail);
    assert multiset([h] + rest) == multiset{h} + multiset(rest);
  }

  lemma HeadBoundsTail<T>(h: T, tail: seq<T>, x: T, rest: seq<T>, key: T -> int)
    requires SortedDesc(tail, key) && SortedDesc([h] + rest, key)
    requires key(h) >= key(x)
    requires forall y :: y in tail ==> y == x || y in rest
    ensures SortedDesc([h] + tail, key)
  {
    forall y | y in rest ensures key(h) >= key(y) {
      var k :| 0 <= k < |rest| && rest[k] == y;
      assert ([h] + rest)[0] == h && ([h] + rest)[k + 1] == y;
    }
    var r := [h] + tail;
    forall i, j | 0 <= i < j < |r| ensures key(r[i]) >= key(r[j]) {
      if i == 0 {
        assert r[j] == tail[j - 1] && r[j] in tail;
      } else {
        assert r[i] == tail[i - 1] && r[j] == tail[j - 1];
      }
    }
  }

  /** The elements of `s`, reordered so that their keys never increase. */
  function SortDesc<T(==)>(s: seq<T>, key: T -> int): (r: seq<T>)
    ensures SortedDesc(r, key)
    ensures multiset(r) == multiset(s)
    ensures |r| == |s|
  {
    if s == [] then []
    else
      assert s == [s[0]] + s[1..];
      Insert(s[0], SortDesc(s[1..], key), key)
  }

  /** The elements whose key is `k`. */
  function KeyIs<T>(key: T -> int, k: int): T -> bool {
    y => key(y) == k
  }

  /** Filtering a sequence with `x` in front filters `x`, then the rest. */
  lemma FilterCons<T(!new)>(x: T, s: seq<T>, p: T -> bool)
    ensures Filter([x] + s, p) == (if p(x) then [x] else []) + Filter(s, p)
  {
    assert ([x] + s)[0] == x && ([x] + s)[1..] == s;
  }

  /**
   * `Insert` passes over only elements with a larger key, so among the
   * elements of any one key, `x` comes first and the others keep their order.
   */
  lemma {:induction false} InsertStable<T(!new)>(x: T, s: seq<T>, key: T -> int, k: int)
    requires SortedDesc(s, key)
    ensures Filter(Insert(x, s, key), KeyIs(key, k)) ==
      (if key(x) == k then [x] else []) + Filter(s, KeyIs(key, k))
    decreases |s|, 1
  {
    if s == [] || key(x) >= key(s[0]) {
      FilterCons(x, s, KeyIs(key, k));
    } else {
      InsertStablePast(x, s, key, k);
    }
  }

  /** The case of `InsertStable` where `x` goes past the head of `s`. */
  lemma {:induction false} InsertStablePast<T(!new)>(x: T, s: seq<T>, key: T -> int, k: int)
    requires SortedDesc(s, key) && s != [] && key(x) < key(s[0])
    ensures Filter(Insert(x, s, key), KeyIs(key, k)) ==
      (if key(x) == k then [x] else []) + Filter(s, KeyIs(key, k))
    decreases |s|, 0
  {
    var p := KeyIs(key, k);
    SliceSorted(s, 1, |s|, key);
    InsertStable(x, s[1..], key, k);
    InsertPastHead(x, s, key, p);
    assert s == [s[0]] + s[1..];
    FilterCons(s[0], s[1..], p);
    // s[0] has a larger key than x, so at most one of them has key k.
    SwapEmpty(if p(s[0]) then [s[0]] else [], if key(x) == k then [x] else [], Filter(s[1..], p));
  }

  lemma SwapEmpty<T>(a: seq<T>, b: seq<T>, c: seq<T>)
    requires a == [] || b == []
    ensures a + (b + c) == b + (a + c)
  {
    if a == [] {
      assert a + (b + c) == b + c == b + (a + c);
    } else {
      assert a + (b + c) == a + c == b + (a + c);
    }
  }

  /** When `x` goes past the head of `s`, filtering keeps or drops that head first. */
  lemma InsertPastHead<T(!new)>(x: T, s: seq<T>, key: T -> int, p: T -> bool)
    requires SortedDesc(s, key) && s != [] && key(x) < key(s[0])
    ensures SortedDesc(s[1..], key)
    ensures Filter(Insert(x, s, key), p) ==
      (if p(s[0]) then [s[0]] else []) + Filter(Insert(x, s[1..], key), p)
  {
    SliceSorted(s, 1, |s|, key);
    FilterCons(s[0], Insert(x, s[1..], key), p);
  }

  /**
   * `SortDesc` is stable: for every key, the elements with that key appear
   * in the result in the order they had in `s`.
   */
  lemma {:induction false} SortDescStable<T(!new)>(s: seq<T>, key: T -> int, k: int)
    ensures Filter(SortDesc(s, key), KeyIs(key, k)) == Filter(s, KeyIs(key, k))
  {
    if s != [] {
      var p := KeyIs(key, k);
      SortDescStable(s[1..], key, k);
      InsertStable(s[0], SortDesc(s[1..], key), key, k);
      FilterCons(s[0], s[1..], p);
      assert s == [s[0]] + s[1..];
    }
  }

  /** The sum of `w` over the elements of `s`. */
  function SumBy<T>(s: seq<T>, w: T -> int): int {
    if s == [] then 0 else w(s[0]) + SumBy(s[1..], w)
  }

  lemma {:induction false} SumByAppend<T>(s: seq<T>, x: T, w: T -> int)
    ensures SumBy(s + [x], w) == SumBy(s, w) + w(x)
    decreases |s|
  {
    if s != [] {
      assert (s + [x])[1..] == s[1..] + [x];
      SumByAppend(s[1..], x, w);
    }
  }

  lemma SumByLast<T>(s: seq<T>, w: T -> int)
    requires s != []
    ensures SumBy(s, w) == SumBy(s[..|s| - 1], w) + w(s[|s| - 1])
  {
    assert s == s[..|s| - 1] + [s[|s| - 1]];
    SumByAppend(s[..|s| - 1], s[|s| - 1], w);
  }

  lemma {:induction false} SumByUpdate<T>(s: seq<T>, i: nat, x: T, w: T -> int)
    requires i < |s|
    ensures SumBy(s[i := x], w) == SumBy(s, w) - w(s[i]) + w(x)
    decreases |s|
  {
    if i > 0 {
      assert s[i := x][1..] == s[1..][i - 1 := x];
      SumByUpdate(s[1..], i - 1, x, w);
    }
  }

  lemma {:induction false} SumByInsert<T>(x: T, s: seq<T>, key: T -> int, w: T -> int)
    requires SortedDesc(s, key)
    ensures SumBy(Insert(x, s, key), w) == w(x) + SumBy(s, w)
    decreases |s|
  {
    if !(s == [] || key(x) >= key(s[0])) {
      assert ([s[0]] + Insert(x, s[1..], key))[1..] == Insert(x, s[1..], key);
      SliceSorted(s, 1, |s|, key);
      assert s[1..|s|] == s[1..];
      SumByInsert(x, s[1..], key, w);
    } else {
      assert ([x] + s)[1..] == s;
    }
  }

  /** Sorting keeps the total of any weight. */
  lemma {:induction false} SumBySortDesc<T>(s: seq<T>, key: T -> int, w: T -> int)
    ensures SumBy(SortDesc(s, key), w) == SumBy(s, w)
    decreases |s|
  {
    if s != [] {
      SumBySortDesc(s[1..], key, w);
      SumByInsert(s[0], SortDesc(s[1..], key), key, w);
    }
  }
}

=== FILE: transients.dfy ===
/**
 * WordPress transients as the plugin uses them: a key-value store whose
 * entries carry an optional timeout. The plugin hashes the IP into every key
 * (`'sbt_ban_' . md5($ip)`); here a key is its kind plus the IP itself.
 *
 * Timeouts follow the options-table implementation: `set_transient` with a
 * non-zero expiration stores `now + expiration` as the timeout, a zero
 * expiration stores none, and `get_transient` treats an entry whose timeout
 * lies before `now` as absent.
 */
module Transients {
  import opened Wrappers

  type Ip = string

  /** A challenge as stored under `sbt_quiz_data_`: the question text and its integer answer. */
  datatype Quiz = Quiz(question: string, expected: int)

  datatype Key =
    | BanFlag(ip: Ip)          // sbt_ban_
    | RateCounter(ip: Ip)      // sbt_rate_
    | QuizData(ip: Ip)         // sbt_quiz_data_
    | QuizSolved(ip: Ip)       // sbt_quiz_solved_
    | GeoQuizPassed(ip: Ip)    // sbt_geo_quiz_passed_
    | GeoCountry(ip: Ip)       // sbt_geoip_

  datatype Value =
    | Flag                     // the PHP value `true`
    | Count(n: int)
    | QuizRecord(quiz: Quiz)
    | CountryCode(code: string)

  datatype Entry = Entry(value: Value, timeout: Option<int>)

  type Cache = map<Key, Entry>

  predicate Live(e: Entry, now: int) {
    e.timeout.None? || now <= e.timeout.value
  }

  /** `get_transient`: the stored value while it has not timed out. */
  function Get(c: Cache, k: Key, now: int): (r: Option<Value>)
    ensures r.Some? <==> k in c && Live(c[k], now)
    ensures r.Some? ==> r.value == c[k].value
  {
    if k in c && Live(c[k], now) then Some(c[k].value) else None
  }

  /** `set_transient($k, $v, $ttl)`. */
  function Set(c: Cache, k: Key, v: Value, ttl: int, now: int): (c': Cache)
    ensures c' - {k} == c - {k}
    ensures ttl >= 0 ==> Get(c', k, now) == Some(v)
    ensures ttl > 0 ==> Get(c', k, now + ttl) == Some(v) && Get(c', k, now + ttl + 1) == None
    ensures ttl == 0 ==> forall t :: Get(c', k, t) == Some(v)
  {
    c[k := Entry(v, if ttl != 0 then Some(now + ttl) else None)]
  }

  /** `delete_transient`. */
  function Delete(c: Cache, k: Key): (c': Cache)
    ensures c' - {k} == c - {k}
    ensures forall t :: Get(c', k, t) == None
  {
    c - {k}
  }

  /** PHP truthiness of the values the plugin stores. */
  predicate TruthyValue(v: Value) {
    match v
    case Flag => true
    case Count(n) => n != 0
    case QuizRecord(_) => true
    case CountryCode(code) => code != "" && code != "0"
  }

  /** `if (get_transient($k))`. */
  predicate IsSet(c: Cache, k: Key, now: int) {
    match Get(c, k, now)
    case Some(v) => TruthyValue(v)
    case None => false
  }

  /** Changing or removing one key leaves what every other key reads unchanged. */
  lemma GetOtherKey(c: Cache, c': Cache, k: Key, other: Key, now: int)
    requires c' - {k} == c - {k} && other != k
    ensures Get(c', other, now) == Get(c, other, now)
    ensures IsSet(c', other, now) == IsSet(c, other, now)
  {
    assert other in c' <==> other in (c' - {k});
    assert other in c <==> other in (c - {k});
    if other in c' {
      assert c'[other] == (c' - {k})[other] == (c - {k})[other] == c[other];
    }
  }
}

=== FILE: wrappers.dfy ===
/** The optional value used wherever PHP code returns `null`/`false` for "nothing". */
module Wrappers {

  datatype Option<+T> = None | Some(value: T) {

    /** The value, or `default` when there is none (PHP's `??`). */
    function GetOr(default: T): T {
      match this
      case Some(v) => v
      case None => default
    }
  }
}
